=== FILE: README.md ===
# vscode-llvm: the assembly listing parser, in Dafny

This project models the text-processing core of the vscode-llvm extension.
The extension shows the assembly, the LLVM IR pass dumps and the objdump
disassembly that clang produces for a source file. The model covers:

- **`AsmParser`** (`src/asm.ts`). It turns a compiler's assembly listing into
  output lines. An instruction line carries the source position that the
  `.loc`, `.stabn`, `.d2line` and `.dbg` directives before it set, and every
  line carries the label references in it. The parser also keeps a map from every kept label to the
  1-based line that defines it. Before it emits anything, it works out which
  labels are used:
  - it scans for strong uses: instructions, function headers, and `.globl` /
    `.weak` declarations;
  - it scans for weak uses, where data refers to labels;
  - it closes the weak uses in ten rounds.

  Its filters can drop comments, directives and unused labels, and can
  squash white space. For an objdump listing (binary mode) it instead keeps
  the function headers and the instruction lines of user functions.
- **`utils.ts`**: `splitLines`, `expandTabs` and `squashHorizontalWhitespace`.
- **`core.ts`**: `parseLLVMDump`, which splits an `-print-after-all` dump into
  `Pass` records holding the IR before and after each pass, numbered per list.
- **`provider.ts`**: `pathWithoutExtension` and the `${name}` substitution in
  command templates.

Modules follow the source:

| module | file | models |
|---|---|---|
| `Wrappers`, `Strings` | `wrappers.dfy`, `strings.dfy` | `Option`, the character classes, `parseInt` |
| `TextUtils`, `Whitespace` | `text_utils.dfy`, `whitespace.dfy` | `utils.ts` |
| `LlvmDump` | `llvm_dump.dfy` | `core.ts` |
| `Paths` | `paths.dfy` | `provider.ts` |
| `AsmModel` | `asm_model.dfy` | the data classes of `asm.ts` |
| `AsmPatterns` | `asm_patterns.dfy` | the regular expressions of `asm.ts`, each a small matcher |
| `Liveness` | `liveness.dfy` | `findUsedLabels` and `labelFindFor` |
| `LabelRefs` | `label_refs.dfy` | `getUsedLabelsInLine`, `removeLabelsWithoutDefinition` |
| `SourceTracking` | `source_tracking.dfy` | `parseFiles`, `handleSource`, `handleStabs`, `handle6502` |
| `TextMode` | `text_mode.dfy` | `processAsm` |
| `BinaryMode` | `binary_mode.dfy` | `processBinaryAsm` |
| `AsmParser` | `asm_parser.dfy` | `process` |

How the model is built:

- **Regular expressions.** Each expression is a function that consumes the
  pattern's pieces in the order the JavaScript engine tries them,
  backtracking included. For example, `.weakext` falls back to `.weak`, and
  `labelDef`'s optional `.proc` group is retried without it.
- **Stateful passes.** Each parser pass is a left fold of a pure step
  function over the lines. The fold state holds what the source keeps in
  local variables.
- **Tab expansion.** `expandTabs` measures each tab after the first with a
  running correction that drifts, so such a tab lands on a tab stop only
  when the drift happens to cancel (see "Findings"; in `\t\tx` the second
  tab is right, in `a\tb\tc` it is not). `TextUtils.ExpandTabs` models it as
  written and is what the parser model uses. `TextUtils.ExpandTabsAligned`
  is the corrected expansion, with its tab stops proved.
- **Parser results.** An `AsmParserResult` holds a sequence of `AsmLine` and a
  `map<string, nat>`.

## Model

| member | source | states |
|---|---|---|
| AsmModel.Value | src/asm.ts:81-83 | a text line renders as its text plus a line feed; a disassembled line gets a `<address> ` prefix of fixed width in front of that |
| AsmModel.ValueShowsAddress | src/asm.ts:96-99 | the eight digits a disassembled line shows are its address modulo 2^32 in hexadecimal |
| Strings.JsParseInt | src/asm.ts:410-417 | `parseInt` gives a number only when the text holds a digit |
| Strings.ParseIntOfDigits | src/asm.ts:327 | `parseInt` of a string starting with decimal digits is the value of that leading run |
| TextUtils.SplitOnLFJoin | src/utils.ts:29-35 | splitting on LF and joining with LF gives the text back |
| TextUtils.SplitLines | src/utils.ts:26-35 | the lines contain no LF, and they are the LF-separated pieces of the text with every CR before an LF removed, less one trailing empty piece |
| TextUtils.SplitCRLFNormalised | src/utils.ts:26-30 | splitting on `\r?\n` is splitting on LF once every CR before an LF is removed |
| TextUtils.SplitLinesCRLFRoundTrip | src/utils.ts:26-35 | for any text, joining the lines with LF and restoring a final LF when there was one gives the text with every CRLF turned into LF |
| TextUtils.SplitLinesRoundTrip | src/utils.ts:29-35 | for text without CR, joining the lines and restoring a final LF when there was one gives the text back |
| TextUtils.ExpandTabs | src/utils.ts:37-45 | no tab remains and the line does not get shorter |
| TextUtils.ExpandTabsKeepsVisible | src/utils.ts:37-45 | expansion changes only white space: the non-blank characters are the same, in the same order |
| TextUtils.ExpandTabsWithoutTabs | src/utils.ts:37-45 | a line without tabs is unchanged |
| TextUtils.FirstTabAligns | src/utils.ts:39-43 | the first tab is widened so that the next character lands on a multiple of eight |
| TextUtils.ExpandTabsSecondTab | src/utils.ts:39-43 | a later tab is measured with the source's running correction `extraChars`: `a\tb\tc` gets 7 and then 5 blanks |
| TextUtils.ExpandTabsMisaligns | src/utils.ts:37-45 | as written, the expansion of `a\tb\t` is 14 characters long, not a multiple of eight, and the `c` of `a\tb\tc` lands in column 14 |
| TextUtils.ExpandTabsAligned | src/utils.ts:37-45 | the corrected expansion: no tab remains and the line does not get shorter |
| TextUtils.AlignedTabStops | src/utils.ts:37-45 | with the corrected expansion, the character after any tab lands in a column that is a multiple of eight, wherever the tab is |
| TextUtils.ExpandFromAppend | src/utils.ts:37-45 | expanding a concatenation expands the second part from the column where the first part ends |
| TextUtils.ExpandFromKeepsVisible | src/utils.ts:37-45 | the corrected expansion changes only white space: the non-blank characters are the same, in the same order |
| TextUtils.ExpandFromWithoutTabs | src/utils.ts:37-45 | the corrected expansion leaves a line without tabs unchanged |
| Whitespace.FindQuotes | src/utils.ts:27 | a match is three consecutive groups inside the line: the text before the quote, the quoted string, and the rest |
| Whitespace.FindQuotesMatches | src/utils.ts:27 | the quote pattern fails exactly when the line holds no complete double-quoted string |
| Whitespace.FindQuotesFirst | src/utils.ts:27 | the quoted group is the first complete quoted string, with escapes honoured |
| Whitespace.CollapseKeepsInk | src/utils.ts:53-58 | collapsing white space runs keeps every other character in order |
| Whitespace.CollapseShape | src/utils.ts:53-58 | after collapsing, every white space is one blank and no two blanks are adjacent |
| Whitespace.SplitJoinCollapse | src/utils.ts:53-58 | splitting on `\s+` and joining with one blank is the same as collapsing |
| Whitespace.SquashAroundQuote | src/utils.ts:47-60 | text inside the first quoted string is kept verbatim; the parts around it are squashed, and the part after it is squashed without the leading-indent rule |
| Whitespace.SquashIdempotent | src/utils.ts:47-60 | on a single line, squashing twice is the same as squashing once |
| Whitespace.Squash | src/utils.ts:47-60 | the result is empty only for an empty text away from the start of a line |
| Whitespace.SquashKeepsInk | src/utils.ts:47-60 | on a single line, squashing changes only white space: every other character stays, in order |
| Whitespace.SquashEmpty | src/utils.ts:53-56 | an empty line at the start becomes two blanks |
| Whitespace.SquashQuoteAtStart | src/utils.ts:48-51 | a line that opens with a quote gets the two-blank indent in front of it |
| Whitespace.SquashTwiceOverLineTerminator | src/utils.ts:47-60 | a backslash before a line terminator inside quotes makes squashing change the text again on a second application |
| Paths.PathWithoutExtension | src/provider.ts:77-79 | the result is a prefix of the path and is empty only for an empty path |
| Paths.WithoutExtensionDropsExtension | src/provider.ts:77-79 | `stem.ext` loses `.ext` when the extension has no dot and the stem is non-empty |
| Paths.WithoutExtensionNoDot | src/provider.ts:77-79 | without a dot, `lastIndexOf` gives -1 and the last character is cut |
| Paths.WithoutExtensionLeadingDot | src/provider.ts:77-79 | a dot only at the start keeps the whole path |
| Paths.Substitute | src/provider.ts:119-128 | every character of the result comes from the template or from the value of some variable |
| Paths.SubstituteWithoutPlaceholders | src/provider.ts:119-128 | a template without `${` is unchanged |
| Paths.SubstituteNothingKnown | src/provider.ts:119-128 | with no variables every placeholder stays as written |
| Paths.SubstituteOne | src/provider.ts:119-128 | a known `${name}` becomes its value, an unknown one stays, and the text around it is untouched |
| LlvmDump.ParseHeaderText | src/core.ts:47 | a header the pattern accepts is printed back as exactly that line |
| LlvmDump.HeaderTextParses | src/core.ts:47 | a printed header parses back to the same header |
| LlvmDump.SplitDump | src/core.ts:48 | the text before the first header is a prefix of the dump, and all of it when there is no header |
| LlvmDump.SplitDumpRoundTrip | src/core.ts:48 | the preamble, headers and bodies concatenate back to the dump |
| LlvmDump.SplitDumpHeadersValid | src/core.ts:48 | every section header has a non-empty name without line terminators |
| LlvmDump.ParseLlvmDump | src/core.ts:46-74 | the passes already in both lists stay, in place: parsing only appends |
| LlvmDump.ParseLlvmDumpSpec | src/core.ts:46-74 | each pair of consecutive sections is one pass; front-end passes go to the first list and back-end (`# `) passes to the second; an odd number of headers ends in an exception after the complete pairs |
| LlvmDump.ParseLlvmDumpNumbering | src/core.ts:62-72 | numbered lists stay numbered, and every header pair lands in exactly one list |
| LlvmDump.OfKindSplits | src/core.ts:62-72 | front-end and back-end passes together are all passes |
| AsmPatterns.LabelDef | src/asm.ts:114 | a match is a name of the allowed characters directly followed by a colon |
| AsmPatterns.LabelDefOfName | src/asm.ts:114 | `name:` defines `name` |
| AsmPatterns.LabelDefAfterProc | src/asm.ts:114 | `.proc name:` defines `name`; any character in place of the unescaped dot does too |
| AsmPatterns.BeforeComment | src/asm.ts:147 | the text before the first `#` or `;` |
| AsmPatterns.HasOpcode | src/asm.ts:152-172 | a line with nothing but white space between its label and its comment has no opcode |
| AsmPatterns.HasOpcodeOfInstruction | src/asm.ts:152-172 | indentation, a mnemonic and operands without `:` or `=` count as an opcode line in either mode |
| AsmPatterns.HasOpcodeOfAssignment | src/asm.ts:131-172 | `name = value`, with or without white space before the `=`, is not an opcode unless it mentions `.inst` |
| AsmPatterns.HasOpcodeOfComment | src/asm.ts:152-172 | a comment-only line has no opcode |
| AsmPatterns.DefinesGlobalOf | src/asm.ts:128 | each of `.globl`, `.global`, `.GLB` and `.export` declares the symbol after it |
| AsmPatterns.DefinesWeakOf | src/asm.ts:129 | `.weak` and `.weakext` declare the symbol after them |
| AsmPatterns.DefinesWeakExtAlone | src/asm.ts:129 | a bare `.weakext` backtracks and declares the symbol `ext` |
| AsmPatterns.DataDefnOf | src/asm.ts:120 | each data keyword after a dot is a data definition |
| AsmPatterns.FixLabelIndentation | src/asm.ts:562-569 | an indented label definition loses its indentation; any other line is unchanged |
| AsmPatterns.UsesMipsLabels | src/asm.ts:181-186 | MIPS label syntax is in force exactly when some line is a MIPS label definition |
| AsmPatterns.FindAllCovers | src/asm.ts:116-118 | a global match leaves no start character outside a token |
| LabelRefs.UsedLabelsInLine | src/asm.ts:125-368 | each reference is an identifier whose 1-based column range lies in the line after the instruction word and before the comment; references are ordered and do not overlap; each is as long as the pattern can make it, ending at the comment or before a character that cannot continue an identifier |
| LabelRefs.UsedLabelsCover | src/asm.ts:348-368 | every identifier start in the operands lies inside some reference |
| LabelRefs.CommentHidesLabels | src/asm.ts:351-352 | nothing after a `#` is a reference |
| LabelRefs.KeepDefined | src/asm.ts:341-345 | a reference is kept exactly when its label has a definition |
| LabelRefs.KeepDefinedAppend | src/asm.ts:341-345 | the filter keeps order: filtering a concatenation concatenates the filtered parts, so with a single label kept exactly when defined the result is the order-preserving filter |
| LabelRefs.RemoveUndefined | src/asm.ts:341-345 | the line count is kept, and each line keeps only its defined references |
| LabelRefs.RemoveUndefinedIdempotent | src/asm.ts:341-345 | pruning twice is pruning once |
| Liveness.AddWeak | src/asm.ts:276-286 | every label of the current group gains the line's tokens as weak usages; other entries are untouched |
| Liveness.Classify | src/asm.ts:254-288 | instruction and function lines use their labels outright; under directive filtering, a data line in a label group uses them outright inside a function and weakly outside one; no other line is weak or strong |
| Liveness.UseTokens | src/asm.ts:259-287 | a strong line adds its references to the used labels; a grouped data line outside a function adds them as weak usages of every label of the group, and inside one to the used labels |
| Liveness.ScanLine | src/asm.ts:216-289 | one line never forgets a used label, records the name it declares, records what a strong line refers to, and adds no weak usage without directive filtering; a grouped data line makes every label of the group, as the line leaves it, refer weakly to its references outside a function, and makes them used inside one |
| Liveness.GroupedDataRecorded | src/asm.ts:199-287 | for any line of the listing: a grouped data line inside `.cfi_startproc`…`.cfi_endproc` has its references used, and outside one every label of its group refers weakly to them when the scan ends |
| Liveness.GroupedDataFollowsGroup | src/asm.ts:268-317 | the references of a grouped data line outside a function are used whenever a label of its group is used one round before the last |
| Liveness.ScanAll | src/asm.ts:216-289 | the scan only adds used labels |
| Liveness.ScanKeepsAt | src/asm.ts:216-289 | a label that line i makes used, from any state at the inline-assembly depth the earlier lines leave, is still used at the end of the scan |
| Liveness.Close | src/asm.ts:294-317 | the rounds only add labels |
| Liveness.CloseMonotone | src/asm.ts:294-317 | more used labels going into the closure give more coming out |
| Liveness.CloseAtFixpoint | src/asm.ts:294-317 | once a round adds nothing, further rounds add nothing |
| Liveness.CloseIsReachable | src/asm.ts:294-317 | after n rounds the used labels are exactly the ends of weak chains of at most n steps from a label the scan found |
| Liveness.FindUsedLabels | src/asm.ts:188-319 | every label the scan finds used is in the result |
| Liveness.DeclaredIsUsed | src/asm.ts:243-252 | a name that a `.globl`, `.weak` or CUDA header declares, in any line as the scan sees it, is used |
| Liveness.OpcodeReferencesAreUsed | src/asm.ts:264-267 | the labels an instruction refers to, in any line as the scan sees it, are used |
| Liveness.StrongReferencesAreUsed | src/asm.ts:264-267 | the labels any strong line refers to, as the scan sees the line, are used |
| Liveness.UnfilteredUsesScanOnly | src/asm.ts:188-319 | without directive filtering the used labels are exactly what the scan found |
| SourceTracking.FileFind | src/asm.ts:121 | a `.file` match has a non-empty first name without quotes, and a non-empty second name when there is one |
| SourceTracking.FileFindOf | src/asm.ts:121 | `.file N "path"` and clang's `.file N "dir" "name"` are recognised with their parts |
| SourceTracking.ParseFiles | src/asm.ts:321-338 | every path in the file table is non-empty |
| SourceTracking.ParseFilesKeys | src/asm.ts:321-338 | the table maps exactly the numbers that some `.file` line names |
| SourceTracking.LastFileDirectiveWins | src/asm.ts:321-338 | the last `.file` line with a given number decides its path; a two-part directive gives `dir/name` |
| SourceTracking.LocTag | src/asm.ts:391 | a match is a `.loc` directive: after leading white space the line starts with `.loc` |
| SourceTracking.HandleSource | src/asm.ts:407-434 | a non-directive line keeps the position; a new position's file comes from the table and never looks like standard input |
| SourceTracking.HandleSourceOfLoc | src/asm.ts:407-434 | `.loc F L C` for a known file gives that line, that file unless it looks like standard input (then no file), and the column when it is a non-zero number |
| SourceTracking.LocIsNoOtherDirective | src/asm.ts:391-395 | a line the `.loc` pattern matches matches neither the `.stabn` pattern nor either `.dbg` pattern |
| SourceTracking.HandleSourceUnknownFile | src/asm.ts:407-434 | a `.loc` naming an unknown file forgets the position |
| SourceTracking.HandleStabs | src/asm.ts:436-452 | a non-directive line changes nothing; a stab only ever clears the previous-label flag, and forgets the position when it does |
| SourceTracking.HandleStabsOf | src/asm.ts:436-452 | type 68 sets a line without a file; types 100 and 132 forget the position and the label; other types change nothing |
| SourceTracking.Handle6502 | src/asm.ts:454-466 | a non-directive line keeps the position; a new file never looks like standard input |
| SourceTracking.Dbg6502Of | src/asm.ts:454-466 | `.dbg line, "file", L` gives that file and line |
| SourceTracking.D2TagOf | src/asm.ts:407-434 | `.d2line L` gives line L |
| TextMode.FilterAsmLine | src/asm.ts:174-179 | without trimming the line is unchanged; a non-empty line stays non-empty |
| TextMode.MaybeAddBlank | src/asm.ts:400-405 | at most one blank line is added, never at the start and never after another blank |
| TextMode.Track | src/asm.ts:478-491 | only the position and the inline-assembly depth change; the end of a block forgets the position |
| TextMode.OutputLine | src/asm.ts:545-554 | the line is expanded with the source's tab expansion, as written; the output line has text; a defining line carries no references, and any other line the references found in its output text; every reference lies in the text; an opcode line carries the tracked position, and no other line carries one |
| TextMode.StepKeeps | src/asm.ts:472-555 | one turn of the loop keeps the invariant: no blank runs, references inside text, each definition pointing at its defining line |
| TextMode.RunKeeps | src/asm.ts:472-555 | the whole loop keeps that invariant |
| TextMode.StepLine | src/asm.ts:472-555 | a line adds at most one output line, after the ones already there |
| TextMode.RunAppends | src/asm.ts:472-555 | the output never has more lines than the input and only ever grows at the end |
| TextMode.CommentDropped | src/asm.ts:493-498 | a comment the comment filter matches produces no output |
| TextMode.UnusedLabelDropped | src/asm.ts:504-528 | with label filtering, the definition of an unused label produces neither output nor a definition |
| TextMode.UsedLabelRecorded | src/asm.ts:504-528 | the definition of a used label is output without references and recorded at its 1-based line number |
| TextMode.DirectiveDropped | src/asm.ts:529-543 | with directive filtering, a directive that is not data after a used label and not `.inst` produces no output |
| TextMode.EndBlockHasNoSource | src/asm.ts:488-491 | a line that ends a function or section never carries a source position |
| TextMode.StepSource | src/asm.ts:478-554 | after a line with ink, the position is the one the head of the loop tracked: label definitions, the CUDA flags and the push never change it |
| TextMode.RunKeepsSource | src/asm.ts:472-555 | blank lines and lines that are no directive, end no block and hold no `}` leave the position unchanged |
| TextMode.StepLoc | src/asm.ts:407-491 | a `.loc F L C` line for a file of the table that ends no block sets the position to line L of that file (no file when it looks like standard input), with column C when it is a non-zero number |
| TextMode.RunSplit | src/asm.ts:472-555 | the loop over two runs of lines is the loop over the first, continued over the second |
| TextMode.RunOrigins | src/asm.ts:472-555 | the origins, like the output, are only ever appended to |
| TextMode.RunKeepsLine | src/asm.ts:472-555 | later lines leave every earlier output line and its origin unchanged |
| TextMode.LocReachesNextLine | src/asm.ts:478-554 | after such a `.loc` and lines that keep the position, the next line, if output, is made from that line as seen and carries the `.loc`'s file, line and column when it has an opcode, and no position otherwise |
| TextMode.LocAtLine | src/asm.ts:472-555 | the same for line `j` of a listing, at the end of the loop up to that line |
| TextMode.LocReachesLine | src/asm.ts:472-555 | the same at the end of the whole loop: the output line of line `j` keeps that origin and that position |
| TextMode.RunKeepsInk | src/asm.ts:472-555 | without filters every input line with ink gives exactly one output line with text |
| TextMode.PrunedIsTidy | src/asm.ts:557 | pruning the references after the loop leaves a tidy result |
| TextMode.ProcessAsm | src/asm.ts:370-560 | at most one output line per input line; no blank runs; every reference is defined and lies in its line; every definition is a used label pointing at a line with text and no references |
| TextMode.ProcessAsmTraced | src/asm.ts:504-554 | each output line is a blank line or a line as the loop sees it, tab-expanded and filtered; a line with an opcode carries the source position tracked when it was seen, and no other line carries one; a line defining no label carries, in order, the references found in its text whose label is defined, and other lines none; each definition points at a line that defines that label |
| TextMode.LocReachesInstruction | src/asm.ts:370-560 | in the result of `processAsm`, an instruction line (indentation, a mnemonic, operands without `:` or `=`) that follows a `.loc` for a file of the table, with only position-keeping lines between, carries that `.loc`'s file, line and column, if it is output |
| TextMode.InstructionLine | src/asm.ts:152-172 | indentation, a mnemonic and operands without tabs, `:` or `=` make a line with ink and no directive, seen as written, with an opcode in either mode |
| TextMode.UnfilteredKeepsEveryLine | src/asm.ts:370-560 | without filters, as many output lines have text as input lines have ink |
| BinaryMode.FunctionLabelOf | src/asm.ts:145 | an objdump function header `address <name>:` gives back `name` |
| BinaryMode.FunctionLabel | src/asm.ts:145 | a header's name is non-empty, has no line terminator, and the line ends with `<name>:` |
| BinaryMode.InstructionOf | src/asm.ts:140 | an instruction's disassembly has no line terminator and it has at least one byte pair |
| BinaryMode.InstructionOfLine | src/asm.ts:140 | an objdump instruction line gives back its address, its byte pairs and its disassembly |
| BinaryMode.LineMarkerOf | src/asm.ts:141 | a `/path:N` line gives back the path and the line number |
| BinaryMode.OpcodesIdempotent | src/asm.ts:621-626 | normalising the byte pairs to single blanks twice is the same as once |
| BinaryMode.BinaryStep | src/asm.ts:597-627 | a line appends at most one output line, after the ones already there, and never drops a definition |
| BinaryMode.StepShape | src/asm.ts:597-627 | a line either changes nothing, appends a user function's header and records its definition, or appends one instruction |
| BinaryMode.BinaryRunKeeps | src/asm.ts:595-628 | the loop keeps the binary output tidy: headers end in a colon, instruction lines start with a blank, and every definition is a user function pointing at its header |
| BinaryMode.ProcessBinaryAsm | src/asm.ts:578-633 | an objdump error message comes back as one line; otherwise the result is tidy and has at most one line per input line |
| BinaryMode.HeaderRecorded | src/asm.ts:603-616 | the header of a user function is output as `name:` and recorded at its line number |
| BinaryMode.InstructionKept | src/asm.ts:621-626 | an instruction of a user function is output with its address, its bytes separated by single blanks, its disassembly and the last source position |
| BinaryMode.NothingBeforeHeader | src/asm.ts:617-619 | while no function header has been seen, no line is output |
| BinaryMode.AllHiddenNothingOutput | src/asm.ts:571-576 | when the hiding pattern matches every function, no line is output |
| AsmParser.Process | src/asm.ts:635-641 | binary listings are read by the objdump reader and all others by the text reader, with their guarantees |
| AsmParser.ProcessConsistent | src/asm.ts:635-641 | in both modes every remaining reference names a definition, and every definition is a line number of the output |
| AsmParser.ProcessTextTraced | src/asm.ts:504-557 | in text mode each output line is traced to its origin, with its text, the position tracked when it was seen if it is an opcode line and none otherwise, and the defined references of its text |
| AsmParser.BinaryDefinitionsAreFunctions | src/asm.ts:608-615 | in binary mode every defined name is a user function whose line reads `name:` |

## Left out

- Some regular expressions of `asm.ts` are parameters of the model, as fields of the `Oracles` datatype:
  - `definesFunction` (line 127);
  - `cudaBeginDef` (line 137);
  - the filter's `commentOnly` and `commentOnlyNvcc` patterns;
  - the block-comment stripping at lines 371-375.

  Their full backtracking semantics add nothing to the parser's logic. For `cudaBeginDef` the oracle yields group 1, the keyword `entry` or `func`, which is what the source adds to the used labels.
- `binaryHideFuncRe` is a parameter `Option<string -> bool>`, for the same reason. `None` means the pattern is unset.
- The workspace variables record of `provider.ts` (lines 91-117) is a `map` parameter. It reads the editor's workspace and configuration.
- `Path.normalize` (`provider.ts` line 131) is left out. It is a platform library call.
- JavaScript prototype keys in the variables object (`constructor`, `__proto__`) are not modelled: a template naming them is treated as unknown.
- Logging, the webview panels, file reading and the rest of the extension are outside the core and are not part of this model. The same goes for `getNonce`, `clang.ts`, `config.ts`, `document.ts` and the panels.
- `destRe` (`asm.ts` line 146) is declared but never used by the parser, so it is not modelled.
- Liveness.Close: the `if (!toAdd)` exit at `asm.ts` line 310 never fires, because `toAdd` is always a set and never falsy. The closure therefore always runs exactly ten rounds, and the model does so too.
- The weak usages of `findUsedLabels` are modelled as sets of names. Their order is never observed.
- The `prevLabel` variable of `processAsm` is modelled as a boolean. The source only tests its truthiness, and a label match is never empty.
- `parseInt` is modelled for integers only: leading white space, a sign, a `0x` prefix and digits. JavaScript's result is a double; the model's is exact.
- BinaryMode.InstructionOfLine: the address is read exactly. `parseInt(address, 16)` at `asm.ts` line 623 gives a double, so an address above 2^53 is rounded there: `ffffffff81000123` becomes `ffffffff81000000`, and the shown low 32 bits differ. The model does not reproduce the rounding.
- TextUtils.SplitLinesRoundTrip: stated for text without CR. TextUtils.SplitLinesCRLFRoundTrip covers every text, where a CRLF comes back as LF.
- TextMode.ProcessAsmTraced: each output line is tied to the text of a line as the loop sees it, not to that line's index in the input.
- TextMode.LocReachesInstruction: stated for an instruction line that is output. Whether it is output depends on the comment and CUDA-header patterns, which are parameters of the model.
- AsmParser.Process: its own contract states the tidiness of TextMode.ProcessAsm; the per-line origins and references are stated by AsmParser.ProcessTextTraced.
- Whitespace.SquashIdempotent: stated for single lines only. Across a backslash before a line terminator inside quotes, a second squash changes the text (Whitespace.SquashTwiceOverLineTerminator shows the input).
- BinaryMode.BinaryRunKeeps: does not state that every header line output belongs to a function in the definitions. The definitions point at headers, but the converse is left unstated.
- LlvmDump.ParseLlvmDumpSpec: an odd number of headers throws in the source after the earlier pairs were pushed. The model returns those lists together with a flag `threw`.
- Strings are sequences of UTF-16 code units as `char`. No Unicode case folding is involved: the case-insensitive `labelDef` is written out with both cases.

## Findings

| source | as written | input that shows it | evidently intended | confidence | as-written member | corrected member |
|---|---|---|---|---|---|---|
| src/utils.ts:39-43 | `extraChars += spacesNeeded - 1`, where `spacesNeeded` is the column modulo eight and the tab becomes `8 - spacesNeeded` blanks | `a\tb\tc`: the first tab gets 7 blanks, the second gets 5, so `c` lands in column 14 | each tab becomes `8 - spacesNeeded` blanks, so the running correction grows by `7 - spacesNeeded` and the next character lands in column 16, a multiple of eight | not executed; high | TextUtils.ExpandTabsMisaligns | TextUtils.AlignedTabStops |

=== FILE: asm_model.dfy ===
/**
 * The data classes of the listing parser: filter switches, source
 * positions, label references with their column ranges, the two kinds of
 * output line and the parser's result, and how an output line renders.
 */
module AsmModel {
  import opened Wrappers
  import opened Strings

  /** `AsmFilter`; the defaults are trim, directives and labels on, binary and comment-only off */
  datatype AsmFilter = AsmFilter(trim: bool, binary: bool, commentOnly: bool, directives: bool, labels: bool)

  const DefaultFilter := AsmFilter(true, false, false, true, true)

  /** `AsmSource`: the constructor leaves the column at 0; an undefined file is None */
  datatype AsmSource = AsmSource(file: Option<string>, line: nat, column: int)

  function NewSource(file: Option<string>, line: nat): (r: AsmSource)
    ensures r.file == file && r.line == line && r.column == 0
  {
    AsmSource(file, line, 0)
  }

  /** 1-based columns, `endCol` one past the last character */
  datatype AsmLabelRange = AsmLabelRange(startCol: int, endCol: int)

  datatype AsmLabel = AsmLabel(name: string, range: AsmLabelRange)

  /** `AsmLine`, and its subclass `BinaryAsmLine` with the address and opcode bytes of a disassembled instruction */
  datatype AsmLine =
    | Line(text: string, source: Option<AsmSource>, labels: seq<AsmLabel>)
    | BinaryLine(text: string, source: Option<AsmSource>, labels: seq<AsmLabel>, address: nat, opcodes: string)

  /** `result.asm` and `result.labelDefinitions`: label name to 1-based output line */
  datatype AsmParserResult = AsmParserResult(asm: seq<AsmLine>, labelDefinitions: map<string, nat>)

  function Zeros(n: nat): (r: string)
    ensures |r| == n && forall i :: 0 <= i < n ==> r[i] == '0'
  {
    if n == 0 then [] else Zeros(n - 1) + ['0']
  }

  /** `('0000000' + address.toString(16)).substr(-8)` */
  function AddressDigits(address: nat): (r: string)
    ensures |r| == 8 && AllChars(r, IsHexDigit)
  {
    var padded := Zeros(7) + ToHex(address);
    assert AllChars(padded, IsHexDigit) by {
      forall i | 0 <= i < |padded|
        ensures IsHexDigit(padded[i])
      {
        if i >= 7 {
          assert padded[i] == ToHex(address)[i - 7];
        }
      }
    }
    padded[|padded| - 8..]
  }

  /** The `value` getter: the text and a line feed, behind `<address> ` for a disassembled line */
  function Value(l: AsmLine): (r: string)
    ensures EndsWith(r, l.text + "\n")
    ensures l.Line? ==> |r| == |l.text| + 1
    ensures l.BinaryLine? ==> |r| == |l.text| + 12 && r[0] == '<' && r[9..11] == "> "
  {
    match l
    case Line(text, _, _) => text + "\n"
    case BinaryLine(text, _, _, address, _) => "<" + AddressDigits(address) + "> " + text + "\n"
  }

  /** The eight digits a disassembled line shows are its address modulo 2^32, in hexadecimal */
  lemma {:induction false} ValueShowsAddress(l: AsmLine)
    requires l.BinaryLine?
    ensures var r := Value(l);
      AllChars(r[1..9], IsAnyHexDigit) && HexValue(r[1..9]) == l.address % 0x1_0000_0000
  {
    var d := AddressDigits(l.address);
    var r := Value(l);
    assert r == "<" + d + "> " + l.text + "\n";
    assert r[1..9] == d;
    AddressDigitsValue(l.address);
  }

  lemma {:induction false} AddressDigitsValue(address: nat)
    ensures AllChars(AddressDigits(address), IsAnyHexDigit)
    ensures HexValue(AddressDigits(address)) == address % 0x1_0000_0000
  {
    var h := ToHex(address);
    var padded := Zeros(7) + h;
    assert AllChars(h, IsAnyHexDigit);
    HexValueZeros(7, h);
    HexValueSuffix(padded, 8);
    assert AddressDigits(address) == padded[|padded| - 8..];
    assert Pow16(8) == 0x1_0000_0000;
  }

  function Pow16(k: nat): (r: nat)
    ensures r > 0
  {
    if k == 0 then 1 else 16 * Pow16(k - 1)
  }

  /** Leading zeros do not change a hexadecimal value */
  lemma {:induction false} HexValueZeros(n: nat, h: string)
    requires AllChars(h, IsAnyHexDigit)
    ensures AllChars(Zeros(n) + h, IsAnyHexDigit)
    ensures HexValue(Zeros(n) + h) == HexValue(h)
    decreases |h|
  {
    var s := Zeros(n) + h;
    assert AllChars(s, IsAnyHexDigit) by {
      forall i | 0 <= i < |s|
        ensures IsAnyHexDigit(s[i])
      {
        if i >= n {
          assert s[i] == h[i - n];
        }
      }
    }
    if h == [] {
      assert s == Zeros(n);
      ZerosValue(n);
    } else {
      var t := h[..|h| - 1];
      assert s[..|s| - 1] == Zeros(n) + t;
      HexValueZeros(n, t);
    }
  }

  lemma {:induction false} ZerosValue(n: nat)
    ensures AllChars(Zeros(n), IsAnyHexDigit) && HexValue(Zeros(n)) == 0
  {
    if n > 0 {
      ZerosValue(n - 1);
      assert Zeros(n)[..n - 1] == Zeros(n - 1);
    }
  }

  /** The last `k` digits of a hexadecimal numeral spell its value modulo 16^k */
  lemma {:induction false} HexValueSuffix(s: string, k: nat)
    requires k <= |s| && AllChars(s, IsAnyHexDigit)
    ensures AllChars(s[|s| - k..], IsAnyHexDigit)
    ensures HexValue(s[|s| - k..]) == HexValue(s) % Pow16(k)
  {
    AllCharsSlice(s, |s| - k, |s|, IsAnyHexDigit);
    if k > 0 {
      var t := s[..|s| - 1];
      AllCharsSlice(s, 0, |s| - 1, IsAnyHexDigit);
      HexValueSuffix(t, k - 1);
      var u := s[|s| - k..];
      assert u[..|u| - 1] == t[|t| - (k - 1)..];
      ShiftMod(HexValue(t), DigitValue(s[|s| - 1]), Pow16(k - 1));
    }
  }

  lemma {:induction false} ShiftMod(a: nat, d: nat, m: nat)
    requires d < 16 && m > 0
    ensures (a * 16 + d) % (m * 16) == (a % m) * 16 + d
  {
    var q, r := a / m, a % m;
    assert a * 16 + d == q * (m * 16) + (r * 16 + d) by {
      assert a == q * m + r;
    }
    ModUnique(a * 16 + d, m * 16, q, r * 16 + d);
  }

  /** Euclidean division has one quotient and remainder */
  lemma {:induction false} ModUnique(x: int, n: int, q: int, r: int)
    requires n > 0 && 0 <= r < n && x == q * n + r
    ensures x % n == r
  {
    var k := q - x / n;
    assert k * n == x % n - r;
  }
}

=== FILE: asm_parser.dfy ===
/**
 * `AsmParser.process`: the entry point that hands a listing to the text
 * reader or, when the filter asks for it, to the objdump reader, and what
 * both kinds of result have in common.
 */
module AsmParser {
  import opened Wrappers
  import opened AsmModel
  import opened AsmPatterns
  import opened Liveness
  import opened LabelRefs
  import opened TextMode
  import opened BinaryMode

  /** `process(asm, filter)`: binary listings go to the objdump reader, all others to the text reader */
  function Process(o: Oracles, hidden: Option<string -> bool>, text: string, filter: AsmFilter): (r: AsmParserResult)
    ensures !filter.binary ==> Tidy(r, FindUsedLabels(o, InputLines(o, text, filter), filter.directives))
    ensures filter.binary && ErrorDocument(text) ==> r == AsmParserResult([Line(text, None, [])], map[])
    ensures filter.binary && !ErrorDocument(text) ==> BinaryTidy(hidden, r.asm, r.labelDefinitions)
  {
    if filter.binary then ProcessBinaryAsm(hidden, text, filter) else ProcessAsm(o, text, filter)
  }

  /**
   * What a caller may rely on in either mode: every label reference left in
   * a line names a definition, and every definition is the 1-based number
   * of an output line.
   */
  predicate Consistent(r: AsmParserResult) {
    && (forall i, l :: 0 <= i < |r.asm| && l in r.asm[i].labels ==> Defined(r.labelDefinitions, l.name))
    && (forall n :: n in r.labelDefinitions ==> 1 <= r.labelDefinitions[n] <= |r.asm|)
  }

  /** Both readers return a consistent result */
  lemma {:induction false} ProcessConsistent(o: Oracles, hidden: Option<string -> bool>, text: string, filter: AsmFilter)
    ensures Consistent(Process(o, hidden, text, filter))
  {
    var r := Process(o, hidden, text, filter);
    if !filter.binary {
      TidyConsistent(r, FindUsedLabels(o, InputLines(o, text, filter), filter.directives));
    } else if ErrorDocument(text) {
      assert r.asm[0].labels == [];
    } else {
      BinaryTidyConsistent(hidden, r);
    }
  }

  lemma {:induction false} TidyConsistent(r: AsmParserResult, used: set<string>)
    requires Tidy(r, used)
    ensures Consistent(r)
  {
  }

  lemma {:induction false} BinaryTidyConsistent(hidden: Option<string -> bool>, r: AsmParserResult)
    requires BinaryTidy(hidden, r.asm, r.labelDefinitions)
    ensures Consistent(r)
  {
    assert forall i :: 0 <= i < |r.asm| ==> r.asm[i].labels == [];
  }

  /**
   * In text mode each output line comes from its traced origin: its text,
   * its source position only on an opcode line, and, for a line defining
   * no label, the references found in its text whose label is defined
   */
  lemma {:induction false} ProcessTextTraced(o: Oracles, hidden: Option<string -> bool>, text: string, filter: AsmFilter)
    requires !filter.binary
    ensures var r, tr := Process(o, hidden, text, filter), Trace(o, text, filter);
      && LinesTraced(o, filter, r.asm, tr) && DefsTraced(tr, r.labelDefinitions)
      && PrunedRefsTraced(r.asm, tr, r.labelDefinitions)
  {
    ProcessAsmTraced(o, text, filter);
  }

  /** In binary mode every defined name is a user function whose line reads `name:` */
  lemma {:induction false} BinaryDefinitionsAreFunctions(o: Oracles, hidden: Option<string -> bool>, text: string, filter: AsmFilter, name: string)
    requires filter.binary && name in Process(o, hidden, text, filter).labelDefinitions
    ensures var r := Process(o, hidden, text, filter);
      IsUserFunction(hidden, name) && r.asm[r.labelDefinitions[name] - 1] == Line(name + ":", None, [])
  {
    var r := Process(o, hidden, text, filter);
    assert !ErrorDocument(text);
  }
}

=== FILE: asm_patterns.dfy ===
/**
 * The regular expressions of the listing parser (src/asm.ts), each written
 * out as the match the JavaScript engine finds. Where a pattern could
 * backtrack, the comment says why the first attempt is the only one that
 * can succeed, or models the retry.
 */
module AsmPatterns {
  import opened Wrappers
  import opened Strings

  /** `[.a-z_$@]` under the `i` flag: where a label definition's name starts */
  predicate IsDefStart(c: char) {
    IsLetter(c) || c == '.' || c == '_' || c == '$' || c == '@'
  }

  /** `[a-z0-9$_@.]` under the `i` flag */
  predicate IsDefRest(c: char) {
    IsSymbolRest(c) || c == '@'
  }

  /** `[.A-Z_a-z]` */
  predicate IsSymbolStart(c: char) {
    IsLetter(c) || c == '.' || c == '_'
  }

  /** `[$.A-Z_a-z]`, which also admits the MIPS `$` */
  predicate IsDollarSymbolStart(c: char) {
    IsSymbolStart(c) || c == '$'
  }

  /** `[\w$.]` */
  predicate IsSymbolRest(c: char) {
    IsWordChar(c) || c == '$' || c == '.'
  }

  /** `[$.@A-Z_a-z]` */
  predicate IsIdentifierStart(c: char) {
    IsDollarSymbolStart(c) || c == '@'
  }

  /** `[\dA-z]`: the digits and every character from `A` to `z`, so also `[`, `\`, `]`, `^`, `_` and the backquote */
  predicate IsIdentifierRest(c: char) {
    IsDigit(c) || 'A' <= c <= 'z'
  }

  /** A name at `i`: one start character and the maximal run of rest characters after it; where it ends */
  function NameEnd(s: string, i: nat, start: char -> bool, rest: char -> bool): (r: Option<nat>)
    requires i <= |s|
    ensures r.Some? <==> i < |s| && start(s[i])
    ensures r.Some? ==> i < r.value <= |s| && (r.value == |s| || !rest(s[r.value]))
    ensures r.Some? ==> forall k :: i < k < r.value ==> rest(s[k])
  {
    if i < |s| && start(s[i]) then
      var n := Span(s[i + 1..], rest);
      assert forall k :: i < k < i + 1 + n ==> s[k] == s[i + 1..][k - i - 1];
      Some(i + 1 + n)
    else None
  }

  /** The name `s[start..end]` a pattern captured */
  datatype Capture = Capture(start: nat, end: nat)

  /** A case-insensitive match of one ASCII letter, given in lower case */
  predicate Caseless(c: char, lower: char) {
    c == lower || c as int == lower as int - 32
  }

  /** The length of the optional `.proc\s+` group of `labelDef` at the start of `s`, 0 when it is absent */
  function ProcLength(s: string): (n: nat)
    ensures n == 0 || 6 <= n <= |s|
  {
    if |s| >= 6 && IsDot(s[0]) && Caseless(s[1], 'p') && Caseless(s[2], 'r') && Caseless(s[3], 'o') && Caseless(s[4], 'c') then
      var w := Span(s[5..], IsSpace);
      if w > 0 then 5 + w else 0
    else 0
  }

  /** A label name at `i` followed by a colon */
  function DefAt(s: string, i: nat): (r: Option<Capture>)
    requires i <= |s|
    ensures r.Some? ==> r.value.start == i < r.value.end < |s| && s[r.value.end] == ':'
    ensures r.Some? ==> IsDefStart(s[i]) && forall k :: i < k < r.value.end ==> IsDefRest(s[k])
  {
    match NameEnd(s, i, IsDefStart, IsDefRest)
    case Some(e) => if e < |s| && s[e] == ':' then Some(Capture(i, e)) else None
    case None => None
  }

  /**
   * `labelDef`, `/^(?:.proc\s+)?([.a-z_$@][a-z0-9$_@.]*):/i`. The optional
   * group is tried first, and the match retried without it when no name
   * and colon follow it. The group's `.` is unescaped: any character but a
   * line terminator may stand before `proc`. The whole match is
   * `s[..end + 1]`.
   */
  function LabelDef(s: string): (r: Option<Capture>)
    ensures r.Some? ==> r.value.start < r.value.end < |s| && s[r.value.end] == ':'
    ensures r.Some? ==> IsDefStart(s[r.value.start]) && forall k :: r.value.start < k < r.value.end ==> IsDefRest(s[k])
  {
    var p := ProcLength(s);
    var withProc := if p > 0 then DefAt(s, p) else None;
    if withProc.Some? then withProc else DefAt(s, 0)
  }

  function Captured(s: string, c: Capture): string
    requires c.start <= c.end <= |s|
  {
    s[c.start..c.end]
  }

  /** A name followed directly by a colon is a label definition of that name */
  lemma {:induction false} LabelDefOfName(name: string, rest: string)
    requires |name| > 0 && IsDefStart(name[0]) && forall k :: 0 < k < |name| ==> IsDefRest(name[k])
    requires ProcLength(name + ":" + rest) == 0
    ensures var s := name + ":" + rest;
      LabelDef(s) == Some(Capture(0, |name|)) && s[..|name|] == name
  {
    var s := name + ":" + rest;
    assert forall k :: 0 <= k < |name| ==> s[k] == name[k];
    assert s[|name|] == ':';
  }

  /** `.proc name:` defines `name`; so does any character in place of the dot */
  lemma {:induction false} LabelDefAfterProc(c: char, name: string, rest: string)
    requires IsDot(c)
    requires |name| > 0 && IsDefStart(name[0]) && forall k :: 0 < k < |name| ==> IsDefRest(name[k])
    ensures var s := [c] + "proc " + name + ":" + rest;
      LabelDef(s) == Some(Capture(6, 6 + |name|)) && s[6..6 + |name|] == name
  {
    var s := [c] + "proc " + name + ":" + rest;
    ProcLengthOf(c, name + ":" + rest);
    assert s == [c] + "proc " + (name + ":" + rest);
    assert forall k :: 0 <= k < |name| ==> s[6 + k] == name[k];
    assert s[6 + |name|] == ':';
    DefAtName(s, 6, 6 + |name|);
  }

  lemma {:induction false} ProcLengthOf(c: char, t: string)
    requires IsDot(c) && |t| > 0 && !IsSpace(t[0])
    ensures ProcLength([c] + "proc " + t) == 6
  {
    var s := [c] + "proc " + t;
    assert s[5..][0] == ' ' && s[5..][1] == t[0];
    SpanExact(s[5..], 1, IsSpace);
  }

  lemma {:induction false} DefAtName(s: string, i: nat, e: nat)
    requires i < e < |s| && s[e] == ':' && IsDefStart(s[i]) && forall k :: i < k < e ==> IsDefRest(s[k])
    ensures DefAt(s, i) == Some(Capture(i, e))
  {
    NameEndAt(s, i, e, IsDefStart, IsDefRest);
  }

  /** `/^\$[\w$.]+:/`: a MIPS label definition */
  predicate MipsLabelDefinition(s: string) {
    |s| > 0 && s[0] == '$' &&
    var n := Span(s[1..], IsSymbolRest);
    n > 0 && 1 + n < |s| && s[1 + n] == ':'
  }

  /** `commentRe` split with limit 1: the text before the first `#` or `;` */
  function BeforeComment(s: string): (r: string)
    ensures StartsWith(s, r) && '#' !in r && ';' !in r
    ensures |r| < |s| ==> s[|r|] == '#' || s[|r|] == ';'
  {
    s[..Span(s, c => c != '#' && c != ';')]
  }

  /** `instOpcodeRe`, `/(\.inst\.?\w?)\s*(.*)/`: everything after `.inst` is optional, so it tests for `.inst` anywhere */
  predicate InstOpcode(s: string) {
    Contains(s, ".inst")
  }

  /** `assignmentDef`, `/^\s*([$.A-Z_a-z][\w$.]*)\s*=/`. A shorter name would leave a name character where `\s*=` must match. */
  function AssignmentDef(s: string): (r: Option<Capture>)
    ensures r.Some? ==> r.value.start < r.value.end <= |s|
  {
    var i := Span(s, IsSpace);
    match NameEnd(s, i, IsDollarSymbolStart, IsSymbolRest)
    case Some(e) =>
      var j := e + Span(s[e..], IsSpace);
      if j < |s| && s[j] == '=' then Some(Capture(i, e)) else None
    case None => None
  }

  /** `hasOpcodeRe`, `/^\s*(%[$.A-Z_a-z][\w$.]*\s*=\s*)?[A-Za-z]/`: a letter, possibly behind an LLVM `%name =` */
  predicate OpcodeStart(s: string) {
    var i := Span(s, IsSpace);
    if i < |s| && IsLetter(s[i]) then true
    else if i < |s| && s[i] == '%' then
      match NameEnd(s, i + 1, IsDollarSymbolStart, IsSymbolRest)
      case Some(e) =>
        var j := e + Span(s[e..], IsSpace);
        j < |s| && s[j] == '=' &&
        var k := j + 1 + Span(s[j + 1..], IsSpace);
        k < |s| && IsLetter(s[k])
      case None => false
    else false
  }

  /** `hasNvccOpcodeRe`, `/^\s*[@A-Za-z|]/` */
  predicate NvccOpcodeStart(s: string) {
    var i := Span(s, IsSpace);
    i < |s| && (s[i] == '@' || s[i] == '|' || IsLetter(s[i]))
  }

  /** What `hasOpcode` looks at: the line after a leading label definition, up to its first comment character */
  function OpcodeCode(line: string): string {
    var rest := match LabelDef(line) case Some(m) => line[m.end + 1..] case None => line;
    BeforeComment(rest)
  }

  /** The tests `hasOpcode` applies to that text, in order */
  predicate CodeHasOpcode(code: string, inNvccCode: bool) {
    if InstOpcode(code) then true
    else if AssignmentDef(code).Some? then false
    else if inNvccCode then NvccOpcodeStart(code)
    else OpcodeStart(code)
  }

  /** `hasOpcode(line, inNvccCode)`: a line with nothing but white space between its label and its comment has none */
  predicate HasOpcode(line: string, inNvccCode: bool): (r: bool)
    ensures AllChars(OpcodeCode(line), IsSpace) ==> !r
  {
    BlankCodeHasNoOpcode(OpcodeCode(line), inNvccCode);
    CodeHasOpcode(OpcodeCode(line), inNvccCode)
  }

  lemma {:induction false} BlankCodeHasNoOpcode(code: string, inNvccCode: bool)
    ensures AllChars(code, IsSpace) ==> !CodeHasOpcode(code, inNvccCode)
  {
    if AllChars(code, IsSpace) {
      BlankHasNo(code, ".inst");
      var i := Span(code, IsSpace);
      assert i == |code|;
    }
  }

  /** White space contains nothing that starts with a character that is not white space */
  lemma {:induction false} BlankHasNo(s: string, p: string)
    requires AllChars(s, IsSpace) && p != [] && !IsSpace(p[0])
    ensures !Contains(s, p)
    decreases |s|
  {
    if s != [] {
      assert s[0] != p[0];
      assert |p| <= |s| ==> s[..|p|][0] == s[0];
      AllCharsSlice(s, 1, |s|, IsSpace);
      assert s[1..|s|] == s[1..];
      BlankHasNo(s[1..], p);
    }
  }

  /** Without a colon there is no label definition, and `hasOpcode` looks at the text before the comment */
  lemma {:induction false} OpcodeCodeWithoutColon(s: string)
    requires ':' !in s
    ensures LabelDef(s).None? && OpcodeCode(s) == BeforeComment(s)
  {
  }

  lemma {:induction false} NotInConcat(a: string, b: string, c: string, x: char)
    requires x !in a && x !in b && x !in c
    ensures x !in a + b + c
  {
  }

  /** Text that starts free of comment characters keeps that start before its comment */
  lemma {:induction false} BeforeCommentKeeps(a: string, rest: string)
    requires '#' !in a && ';' !in a
    ensures StartsWith(BeforeComment(a + rest), a)
  {
    var s := a + rest;
    assert forall k :: 0 <= k < |a| ==> s[k] == a[k];
    var n := Span(s, c => c != '#' && c != ';');
    assert n >= |a|;
  }

  lemma {:induction false} SpacesNoComment(sp: string)
    requires AllChars(sp, IsSpace)
    ensures '#' !in sp && ';' !in sp && ':' !in sp && '=' !in sp
  {
    assert forall k :: 0 <= k < |sp| ==> IsSpace(sp[k]);
  }

  lemma {:induction false} LettersNoComment(m: string)
    requires AllChars(m, IsLetter)
    ensures '#' !in m && ';' !in m && ':' !in m && '=' !in m
  {
    assert forall k :: 0 <= k < |m| ==> IsLetter(m[k]);
  }

  /** White space, a mnemonic and operands free of `:` and `=` make an opcode line in either mode */
  lemma {:induction false} HasOpcodeOfInstruction(sp: string, mnemonic: string, operands: string)
    requires AllChars(sp, IsSpace) && |mnemonic| > 0 && AllChars(mnemonic, IsLetter)
    requires ':' !in operands && '=' !in operands
    ensures HasOpcode(sp + mnemonic + operands, false) && HasOpcode(sp + mnemonic + operands, true)
  {
    var s := sp + mnemonic + operands;
    SpacesNoComment(sp);
    LettersNoComment(mnemonic);
    NotInConcat(sp, mnemonic, operands, ':');
    NotInConcat(sp, mnemonic, operands, '=');
    OpcodeCodeWithoutColon(s);
    assert s == (sp + mnemonic) + operands;
    BeforeCommentKeeps(sp + mnemonic, operands);
    MnemonicCode(BeforeComment(s), sp, mnemonic);
  }

  lemma {:induction false} MnemonicCode(code: string, sp: string, mnemonic: string)
    requires AllChars(sp, IsSpace) && |mnemonic| > 0 && AllChars(mnemonic, IsLetter)
    requires StartsWith(code, sp + mnemonic) && '=' !in code
    ensures CodeHasOpcode(code, false) && CodeHasOpcode(code, true)
  {
    var n := |sp|;
    assert code[n] == (sp + mnemonic)[n] == mnemonic[0];
    assert forall k :: 0 <= k < n ==> code[k] == (sp + mnemonic)[k] == sp[k];
    SpanExact(code, n, IsSpace);
  }

  /** A `name = value` assignment, with any white space before the `=`, is not an opcode, unless `.inst` occurs in it */
  lemma {:induction false} HasOpcodeOfAssignment(sp: string, name: string, sp2: string, value: string, nvcc: bool)
    requires AllChars(sp, IsSpace) && AllChars(sp2, IsSpace)
    requires |name| > 0 && IsDollarSymbolStart(name[0]) && forall k :: 0 < k < |name| ==> IsSymbolRest(name[k])
    requires ':' !in value
    requires !Contains(sp + name + sp2 + ("=" + value), ".inst")
    ensures !HasOpcode(sp + name + sp2 + ("=" + value), nvcc)
  {
    var head := sp + name + sp2;
    var s := head + ("=" + value);
    HeadClean(sp, name, sp2);
    CodeOfAssignment(head, value);
    var code := BeforeComment(s);
    assert !InstOpcode(code) by {
      if InstOpcode(code) {
        ContainsInPrefix(s, |code|, ".inst");
      }
    }
    AssignmentOfName(code, sp, name, sp2);
  }

  lemma {:induction false} HeadClean(sp: string, name: string, sp2: string)
    requires AllChars(sp, IsSpace) && AllChars(sp2, IsSpace)
    requires |name| > 0 && IsDollarSymbolStart(name[0]) && forall k :: 0 < k < |name| ==> IsSymbolRest(name[k])
    ensures ':' !in sp + name + sp2 && '#' !in sp + name + sp2 && ';' !in sp + name + sp2
  {
    SpacesNoComment(sp);
    SpacesNoComment(sp2);
    SymbolNoComment(name);
    NotInConcat(sp, name, sp2, ':');
    NotInConcat(sp, name, sp2, '#');
    NotInConcat(sp, name, sp2, ';');
  }

  /** The code of `head=value` starts with `head=` */
  lemma {:induction false} CodeOfAssignment(head: string, value: string)
    requires ':' !in head && '#' !in head && ';' !in head && ':' !in value
    ensures OpcodeCode(head + ("=" + value)) == BeforeComment(head + ("=" + value))
    ensures StartsWith(BeforeComment(head + ("=" + value)), head + "=")
  {
    var s := head + ("=" + value);
    assert ':' !in "=" + value;
    OpcodeCodeWithoutColon(s);
    assert s == (head + "=") + value;
    BeforeCommentKeeps(head + "=", value);
  }

  lemma {:induction false} SymbolNoComment(name: string)
    requires forall k :: 0 <= k < |name| ==> IsSymbolRest(name[k]) || IsDollarSymbolStart(name[k])
    ensures '#' !in name && ';' !in name && '=' !in name
  {
  }

  lemma {:induction false} AssignmentOfName(code: string, sp: string, name: string, sp2: string)
    requires AllChars(sp, IsSpace) && AllChars(sp2, IsSpace)
    requires |name| > 0 && IsDollarSymbolStart(name[0]) && forall k :: 0 < k < |name| ==> IsSymbolRest(name[k])
    requires StartsWith(code, sp + name + sp2 + "=")
    ensures AssignmentDef(code) == Some(Capture(|sp|, |sp| + |name|))
  {
    var n, e, j := |sp|, |sp| + |name|, |sp| + |name| + |sp2|;
    var p := sp + name + sp2 + "=";
    assert forall k :: 0 <= k < n ==> code[k] == p[k] == sp[k];
    assert code[n] == p[n] == name[0];
    assert forall k :: n < k < e ==> code[k] == p[k] == name[k - n];
    assert forall k :: e <= k < j ==> code[k] == p[k] == sp2[k - e];
    assert code[j] == p[j] == '=';
    AssignmentAt(code, n, e, j);
  }

  lemma {:induction false} AssignmentAt(code: string, n: nat, e: nat, j: nat)
    requires n < e <= j < |code| && code[j] == '='
    requires forall k :: 0 <= k < n ==> IsSpace(code[k])
    requires IsDollarSymbolStart(code[n]) && forall k :: n < k < e ==> IsSymbolRest(code[k])
    requires forall k :: e <= k < j ==> IsSpace(code[k])
    ensures AssignmentDef(code) == Some(Capture(n, e))
  {
    SpanExact(code, n, IsSpace);
    NameBeforeEquals(code, n, e, j);
    SpacesBeforeEquals(code, e, j);
    AssignmentDefOf(code, n, e, j);
  }

  lemma {:induction false} NameBeforeEquals(code: string, n: nat, e: nat, j: nat)
    requires n < e <= j < |code| && code[j] == '='
    requires IsDollarSymbolStart(code[n]) && forall k :: n < k < e ==> IsSymbolRest(code[k])
    requires forall k :: e <= k < j ==> IsSpace(code[k])
    ensures NameEnd(code, n, IsDollarSymbolStart, IsSymbolRest) == Some(e)
  {
    assert !IsSymbolRest(code[e]) by {
      if e < j { SpaceIsNotSymbol(code[e]); }
    }
    NameEndAt(code, n, e, IsDollarSymbolStart, IsSymbolRest);
  }

  lemma {:induction false} SpacesBeforeEquals(code: string, e: nat, j: nat)
    requires e <= j < |code| && code[j] == '='
    requires forall k :: e <= k < j ==> IsSpace(code[k])
    ensures Span(code[e..], IsSpace) == j - e
  {
    var t := code[e..];
    assert forall k :: 0 <= k < j - e ==> t[k] == code[e + k];
    assert t[j - e] == '=';
    SpanExact(t, j - e, IsSpace);
  }

  lemma {:induction false} SpaceIsNotSymbol(c: char)
    requires IsSpace(c)
    ensures !IsSymbolRest(c)
  {
  }

  lemma {:induction false} AssignmentDefOf(code: string, n: nat, e: nat, j: nat)
    requires j < |code| && code[j] == '=' && Span(code, IsSpace) == n && e <= j
    requires NameEnd(code, n, IsDollarSymbolStart, IsSymbolRest) == Some(e) && Span(code[e..], IsSpace) == j - e
    ensures AssignmentDef(code) == Some(Capture(n, e))
  {
  }

  /** Where a name ends, given its characters */
  lemma {:induction false} NameEndAt(s: string, i: nat, e: nat, start: char -> bool, rest: char -> bool)
    requires i < e <= |s| && start(s[i]) && (e == |s| || !rest(s[e]))
    requires forall k :: i < k < e ==> rest(s[k])
    ensures NameEnd(s, i, start, rest) == Some(e)
  {
    var t := s[i + 1..];
    assert forall k :: 0 <= k < e - i - 1 ==> t[k] == s[i + 1 + k];
    assert e < |s| ==> t[e - i - 1] == s[e];
    SpanExact(t, e - i - 1, rest);
  }

  /** A comment line without a colon has no opcode */
  lemma {:induction false} HasOpcodeOfComment(sp: string, c: char, text: string, nvcc: bool)
    requires AllChars(sp, IsSpace) && (c == '#' || c == ';') && ':' !in text
    ensures !HasOpcode(sp + [c] + text, nvcc)
  {
    var s := sp + [c] + text;
    SpacesNoComment(sp);
    NotInConcat(sp, [c], text, ':');
    OpcodeCodeWithoutColon(s);
    CommentCode(s, sp, c);
    assert !Contains(sp, ".inst") by {
      if Contains(sp, ".inst") {
        ContainsOnlySpaces(sp);
      }
    }
    SpanAllSpaces(sp);
  }

  lemma {:induction false} CommentCode(s: string, sp: string, c: char)
    requires StartsWith(s, sp + [c]) && '#' !in sp && ';' !in sp && (c == '#' || c == ';')
    ensures BeforeComment(s) == sp
  {
    assert forall k :: 0 <= k < |sp| ==> s[k] == sp[k];
    assert s[|sp|] == c;
  }

  lemma {:induction false} SpanAllSpaces(s: string)
    requires AllChars(s, IsSpace)
    ensures Span(s, IsSpace) == |s|
    decreases |s|
  {
    if s != [] {
      SpanAllSpaces(s[1..]);
    }
  }

  lemma {:induction false} ContainsOnlySpaces(s: string)
    requires AllChars(s, IsSpace)
    ensures !Contains(s, ".inst")
    decreases |s|
  {
    if s != [] {
      assert !StartsWith(s, ".inst") by {
        assert IsSpace(s[0]);
      }
      ContainsOnlySpaces(s[1..]);
    }
  }

  /** A symbol: `[.A-Z_a-z][\w$.]*` */
  predicate IsSymbol(name: string) {
    |name| > 0 && IsSymbolStart(name[0]) && forall k :: 0 < k < |name| ==> IsSymbolRest(name[k])
  }

  /** `\s*([.A-Z_a-z][\w$.]*)` at the start of `v`: the symbol after optional white space */
  function SymbolAfterSpace(v: string): (r: Option<string>)
    ensures r.Some? ==> IsSymbol(r.value)
  {
    var i := Span(v, IsSpace);
    match NameEnd(v, i, IsSymbolStart, IsSymbolRest)
    case Some(e) =>
      assert forall k :: 0 <= k < e - i ==> v[i..e][k] == v[i + k];
      Some(v[i..e])
    case None => None
  }

  /** White space and then a symbol: that symbol is found */
  lemma {:induction false} SymbolAfterSpaceOf(sp: string, name: string, rest: string)
    requires AllChars(sp, IsSpace) && IsSymbol(name) && (rest == [] || !IsSymbolRest(rest[0]))
    ensures SymbolAfterSpace(sp + name + rest) == Some(name)
  {
    var v := sp + name + rest;
    var n, e := |sp|, |sp| + |name|;
    assert forall k :: 0 <= k < n ==> v[k] == sp[k];
    assert v[n] == name[0];
    assert forall k :: n < k < e ==> v[k] == name[k - n];
    assert e < |v| ==> v[e] == rest[0];
    SpanExact(v, n, IsSpace);
    NameEndAt(v, n, e, IsSymbolStart, IsSymbolRest);
    assert v[n..e] == name;
  }

  /** After `\s*\.`, the rest of the line; None when the line is not a directive of any kind */
  function AfterDot(s: string): (r: Option<string>)
  {
    var t := TrimStart(s);
    if |t| > 0 && t[0] == '.' then Some(t[1..]) else None
  }

  lemma {:induction false} AfterDotOf(sp: string, rest: string)
    requires AllChars(sp, IsSpace)
    ensures AfterDot(sp + "." + rest) == Some(rest)
  {
    var s := sp + "." + rest;
    assert forall k :: 0 <= k < |sp| ==> s[k] == sp[k];
    assert s[|sp|] == '.';
    SpanExact(s, |sp|, IsSpace);
    assert s[|sp|..][1..] == rest;
  }

  /** The length of the keyword of `definesGlobal` at the start of `u`, 0 when there is none */
  function GlobalKeyword(u: string): (k: nat)
    ensures k <= |u|
  {
    if StartsWith(u, "global") then 6 else if StartsWith(u, "globl") then 5
    else if StartsWith(u, "GLB") then 3 else if StartsWith(u, "export") then 6 else 0
  }

  /** `definesGlobal`, `/^\s*\.(?:globa?l|GLB|export)\s*([.A-Z_a-z][\w$.]*)/`: the keywords differ by their first letters, so at most one applies */
  function DefinesGlobal(s: string): (r: Option<string>)
    ensures r.Some? ==> IsSymbol(r.value)
  {
    match AfterDot(s)
    case Some(u) =>
      var k := GlobalKeyword(u);
      if k == 0 then None else SymbolAfterSpace(u[k..])
    case None => None
  }

  /**
   * `definesWeak`, `/^\s*\.(?:weakext|weak)\s*([.A-Z_a-z][\w$.]*)/`. When
   * no symbol follows `weakext`, the engine backtracks to `weak`, and the
   * symbol starts at `ext`.
   */
  function DefinesWeak(s: string): (r: Option<string>)
    ensures r.Some? ==> IsSymbol(r.value)
  {
    match AfterDot(s)
    case Some(u) => WeakSymbol(u)
    case None => None
  }

  function WeakSymbol(u: string): (r: Option<string>)
    ensures r.Some? ==> IsSymbol(r.value)
  {
    var long := if StartsWith(u, "weakext") then SymbolAfterSpace(u[7..]) else None;
    if long.Some? then long
    else if StartsWith(u, "weak") then SymbolAfterSpace(u[4..])
    else None
  }

  lemma {:induction false} GlobalKeywordOf(keyword: string, v: string)
    requires keyword in {"global", "globl", "GLB", "export"}
    ensures GlobalKeyword(keyword + v) == |keyword| && (keyword + v)[|keyword|..] == v
  {
    var u := keyword + v;
    assert u[..|keyword|] == keyword;
    assert u[0] == keyword[0];
    if keyword == "globl" {
      assert u[4] == 'l';
    }
  }

  /** Each of the four global directives names the symbol after it */
  lemma {:induction false} DefinesGlobalOf(sp: string, keyword: string, sp2: string, name: string, rest: string)
    requires AllChars(sp, IsSpace) && AllChars(sp2, IsSpace)
    requires keyword in {"global", "globl", "GLB", "export"}
    requires IsSymbol(name) && (rest == [] || !IsSymbolRest(rest[0]))
    ensures DefinesGlobal(sp + "." + (keyword + (sp2 + name + rest))) == Some(name)
  {
    var u := keyword + (sp2 + name + rest);
    AfterDotOf(sp, u);
    GlobalKeywordOf(keyword, sp2 + name + rest);
    SymbolAfterSpaceOf(sp2, name, rest);
  }

  lemma {:induction false} WeakSymbolOf(keyword: string, sp2: string, name: string, rest: string)
    requires AllChars(sp2, IsSpace)
    requires keyword == "weakext" || (keyword == "weak" && |sp2| > 0)
    requires IsSymbol(name) && (rest == [] || !IsSymbolRest(rest[0]))
    ensures WeakSymbol(keyword + (sp2 + name + rest)) == Some(name)
  {
    var v := sp2 + name + rest;
    SymbolAfterSpaceOf(sp2, name, rest);
    if keyword == "weak" {
      WeakSymbolShort(v);
    } else {
      WeakSymbolLong(v);
    }
  }

  lemma {:induction false} WeakSymbolLong(v: string)
    requires SymbolAfterSpace(v).Some?
    ensures WeakSymbol("weakext" + v) == SymbolAfterSpace(v)
  {
    var u := "weakext" + v;
    assert u[..7] == "weakext" && u[7..] == v;
  }

  lemma {:induction false} WeakSymbolShort(v: string)
    requires |v| > 0 && IsSpace(v[0])
    ensures WeakSymbol("weak" + v) == SymbolAfterSpace(v)
  {
    var u := "weak" + v;
    SpaceIsNotPrintable(v[0]);
    assert !StartsWith(u, "weakext") by {
      if |u| >= 7 {
        assert u[..7][4] == v[0] != "weakext"[4];
      }
    }
    assert StartsWith(u, "weak") && u[4..] == v;
  }

  /** `.weak name` and `.weakext name` name the symbol after them */
  lemma {:induction false} DefinesWeakOf(sp: string, keyword: string, sp2: string, name: string, rest: string)
    requires AllChars(sp, IsSpace) && AllChars(sp2, IsSpace)
    requires keyword == "weakext" || (keyword == "weak" && |sp2| > 0)
    requires IsSymbol(name) && (rest == [] || !IsSymbolRest(rest[0]))
    ensures DefinesWeak(sp + "." + (keyword + (sp2 + name + rest))) == Some(name)
  {
    AfterDotOf(sp, keyword + (sp2 + name + rest));
    WeakSymbolOf(keyword, sp2, name, rest);
  }

  /** A bare `.weakext` weakly declares the symbol `ext` */
  lemma {:induction false} DefinesWeakExtAlone(sp: string)
    requires AllChars(sp, IsSpace)
    ensures DefinesWeak(sp + "." + "weakext") == Some("ext")
  {
    AfterDotOf(sp, "weakext");
    WeakExtAlone("weakext", "ext");
  }

  /** Without a symbol after `weakext`, the `weak` alternative takes `ext` as the symbol */
  lemma {:induction false} WeakExtAlone(u: string, ext: string)
    requires u == "weakext" && ext == "ext"
    ensures WeakSymbol(u) == Some(ext)
  {
    assert u[7..] == [];
    assert u[4..] == [] + ext + [];
    SymbolAfterSpaceOf([], ext, []);
  }

  /** The directive keywords `dataDefn` recognises after `\s*\.` */
  const DataKeywords: seq<string> := [
    "string", "asciz", "ascii", "byte", "1byte", "2byte", "4byte", "8byte",
    "short", "word", "xword", "long", "quad", "value", "zero"]

  predicate StartsWithAny(s: string, prefixes: seq<string>) {
    exists k :: 0 <= k < |prefixes| && StartsWith(s, prefixes[k])
  }

  /** `dataDefn`, `/^\s*\.(string|asciz|ascii|[1248]?byte|short|x?word|long|quad|value|zero)/` */
  predicate DataDefn(s: string) {
    match AfterDot(s)
    case Some(u) => StartsWithAny(u, DataKeywords)
    case None => false
  }

  /** `directive`, `/^\s*\..*$/`: a dot after white space, and no line terminator after it */
  predicate Directive(s: string) {
    match AfterDot(s)
    case Some(u) => AllChars(u, IsDot)
    case None => false
  }

  /** A data directive is a directive */
  lemma {:induction false} DataDefnOf(sp: string, k: nat, rest: string)
    requires AllChars(sp, IsSpace) && k < |DataKeywords|
    ensures DataDefn(sp + "." + (DataKeywords[k] + rest))
  {
    AfterDotOf(sp, DataKeywords[k] + rest);
    assert StartsWith(DataKeywords[k] + rest, DataKeywords[k]);
  }

  /** `cudaEndDef`, `/^\s*\)\s*$/` */
  predicate CudaEndDef(s: string) {
    var t := TrimStart(s);
    |t| > 0 && t[0] == ')' && AllChars(t[1..], IsSpace)
  }

  /** `indentedLabelDef`, `/^\s*([$.A-Z_a-z][\w$.]*):/` */
  predicate IndentedLabelDef(s: string) {
    var i := Span(s, IsSpace);
    match NameEnd(s, i, IsDollarSymbolStart, IsSymbolRest)
    case Some(e) => e < |s| && s[e] == ':'
    case None => false
  }

  /** `fixLabelIndentation(line)`: an indented label definition loses its indentation */
  function FixLabelIndentation(line: string): (r: string)
    ensures EndsWith(line, r)
    ensures IndentedLabelDef(line) ==> r == [] || !IsSpace(r[0])
    ensures !IndentedLabelDef(line) ==> r == line
  {
    if IndentedLabelDef(line) then TrimStart(line) else line
  }

  /** `#APP` or `# Begin ASM` anywhere: inline assembly starts */
  predicate StartsCustomAssembly(s: string) {
    Contains(s, "#APP") || Contains(s, "# Begin ASM")
  }

  /** `#NO_APP` or `# End ASM` anywhere: inline assembly ends */
  predicate EndsCustomAssembly(s: string) {
    Contains(s, "#NO_APP") || Contains(s, "# End ASM")
  }

  /** `labelFindFor`: true when some line is a MIPS label definition, so symbols may start with `$` */
  function UsesMipsLabels(lines: seq<string>): (r: bool)
    ensures r <==> exists i :: 0 <= i < |lines| && MipsLabelDefinition(lines[i])
  {
    if lines == [] then false
    else
      assert forall i :: 0 < i < |lines| ==> lines[i] == lines[1..][i - 1];
      MipsLabelDefinition(lines[0]) || UsesMipsLabels(lines[1..])
  }

  /** Where the matches of `labelFind` may start */
  function LabelStart(mips: bool): char -> bool {
    if mips then IsDollarSymbolStart else IsSymbolStart
  }

  /** One match of a global pattern: where it starts and what it matched */
  datatype Token = Token(index: nat, text: string)

  function TokenEnd(t: Token): nat {
    t.index + |t.text|
  }

  /**
   * A token sits at its index in `s`, starts with a start character, goes
   * on with rest characters, and cannot be extended
   */
  predicate TokenIn(s: string, t: Token, start: char -> bool, rest: char -> bool) {
    TokenEnd(t) <= |s| && s[t.index..TokenEnd(t)] == t.text && |t.text| > 0 && start(t.text[0])
    && (forall i :: 0 < i < |t.text| ==> rest(t.text[i]))
    && (TokenEnd(t) == |s| || !rest(s[TokenEnd(t)]))
  }

  /** Tokens of `s` from index `from` on, in order and not overlapping */
  predicate TokensIn(s: string, from: nat, r: seq<Token>, start: char -> bool, rest: char -> bool) {
    (forall k :: 0 <= k < |r| ==> from <= r[k].index && TokenIn(s, r[k], start, rest))
    && (forall k :: 0 < k < |r| ==> TokenEnd(r[k - 1]) <= r[k].index)
  }

  lemma {:induction false} TokensCons(s: string, from: nat, t: Token, tail: seq<Token>, start: char -> bool, rest: char -> bool)
    requires from <= t.index && TokenIn(s, t, start, rest) && TokensIn(s, TokenEnd(t), tail, start, rest)
    ensures TokensIn(s, from, [t] + tail, start, rest)
  {
    var r := [t] + tail;
    assert forall k :: 0 < k < |r| ==> r[k] == tail[k - 1];
  }

  /** The first start character at or after `from`, or the end */
  function NextStart(s: string, from: nat, start: char -> bool): (j: nat)
    requires from <= |s|
    ensures from <= j <= |s| && (j == |s| || start(s[j]))
    ensures forall k :: from <= k < j ==> !start(s[k])
  {
    var n := Span(s[from..], c => !start(c));
    assert forall k :: from <= k < from + n ==> s[k] == s[from..][k - from];
    assert from + n < |s| ==> s[from + n] == s[from..][n];
    from + n
  }

  /** The token starting at `j` */
  function TokenAt(s: string, j: nat, start: char -> bool, rest: char -> bool): (t: Token)
    requires j < |s| && start(s[j])
    ensures t.index == j && TokenIn(s, t, start, rest)
  {
    var e := NameEnd(s, j, start, rest).value;
    assert forall i :: 0 < i < e - j ==> s[j..e][i] == s[j + i];
    Token(j, s[j..e])
  }

  /**
   * The matches of a global pattern `[start][rest]*` from index `from` on,
   * as `match` with the `g` flag or a `replace` callback sees them: each
   * match is a start character and the longest run of rest characters,
   * and the search resumes where the match ended.
   */
  function FindAll(s: string, from: nat, start: char -> bool, rest: char -> bool): (r: seq<Token>)
    requires from <= |s|
    ensures TokensIn(s, from, r, start, rest)
    decreases |s| - from
  {
    var j := NextStart(s, from, start);
    if j == |s| then []
    else
      var t := TokenAt(s, j, start, rest);
      var tail := FindAll(s, TokenEnd(t), start, rest);
      TokensCons(s, from, t, tail, start, rest);
      [t] + tail
  }

  predicate Covered(r: seq<Token>, p: nat) {
    exists k :: 0 <= k < |r| && r[k].index <= p < TokenEnd(r[k])
  }

  lemma {:induction false} CoveredCons(t: Token, tail: seq<Token>, p: nat)
    requires (t.index <= p < TokenEnd(t)) || Covered(tail, p)
    ensures Covered([t] + tail, p)
  {
    var r := [t] + tail;
    if t.index <= p < TokenEnd(t) {
      assert r[0] == t;
    } else {
      var k :| 0 <= k < |tail| && tail[k].index <= p < TokenEnd(tail[k]);
      assert r[k + 1] == tail[k];
    }
  }

  /** No start character goes unmatched: every one lies inside some token */
  lemma {:induction false} FindAllCovers(s: string, from: nat, start: char -> bool, rest: char -> bool, p: nat)
    requires from <= p < |s| && start(s[p])
    ensures Covered(FindAll(s, from, start, rest), p)
    decreases |s| - from
  {
    var j := NextStart(s, from, start);
    var t := TokenAt(s, j, start, rest);
    var tail := FindAll(s, TokenEnd(t), start, rest);
    assert FindAll(s, from, start, rest) == [t] + tail;
    if p >= TokenEnd(t) {
      FindAllCovers(s, TokenEnd(t), start, rest, p);
    }
    CoveredCons(t, tail, p);
  }

  /** The texts of the tokens */
  function Texts(tokens: seq<Token>): (r: set<string>)
    ensures forall k :: 0 <= k < |tokens| ==> tokens[k].text in r
    ensures forall t :: t in r ==> exists k :: 0 <= k < |tokens| && tokens[k].text == t
  {
    set k | 0 <= k < |tokens| :: tokens[k].text
  }

  /** The first group of `cudaBeginDef`: the PTX keyword of the header */
  datatype CudaKind = Entry | Func

  function CudaKeyword(k: CudaKind): string {
    match k
    case Entry => "entry"
    case Func => "func"
  }

  /**
   * The patterns this model leaves uninterpreted, as the tests they
   * perform: `definesFunction`, `cudaBeginDef` (with its first group), the
   * two comment-only line patterns, and the removal of one-line block
   * comments.
   */
  datatype Oracles = Oracles(
    definesFunction: string -> bool,
    cudaBeginDef: string -> Option<CudaKind>,
    commentOnly: string -> bool,
    commentOnlyNvcc: string -> bool,
    stripBlockComments: string -> string)
}

=== FILE: binary_mode.dfy ===
/**
 * `processBinaryAsm`: reading objdump's disassembly of a linked binary,
 * keeping the instructions of user functions with their addresses, opcode
 * bytes and source positions.
 */
module BinaryMode {
  import opened Wrappers
  import opened Strings
  import opened TextUtils
  import opened AsmModel
  import opened SourceTracking
  import opened LabelRefs
  import opened TextMode

  // ---------------------------------------------------------------- the line patterns

  /** `lineRe`: an absolute path up to the first colon, then the digits of a line number, then anything */
  function LineMarker(s: string): (r: Option<(string, nat)>)
    ensures r.Some? ==> |r.value.0| >= 2 && r.value.0[0] == '/' && ':' !in r.value.0
    ensures r.Some? ==> StartsWith(s, r.value.0 + ":")
  {
    if |s| == 0 || s[0] != '/' then None
    else
      match IndexOf(s, ':')
      case None => None
      case Some(c) =>
        if c < 2 then None
        else
          match Number(s[c + 1..])
          case None => None
          case Some((n, _)) =>
            assert forall i :: 0 <= i < c ==> s[..c][i] == s[i];
            assert s[..c + 1] == s[..c] + ":";
            Some((s[..c], n))
  }

  /** `labelRe`, `/^([\da-f]+)\s+<(.+)>:$/`: an address, white space, and the function name between `<` and the closing `>:` */
  function FunctionLabel(s: string): (r: Option<string>)
    ensures r.Some? ==> r.value != [] && AllChars(r.value, IsDot) && EndsWith(s, "<" + r.value + ">:")
  {
    var h := Span(s, IsHexDigit);
    var w := Span(s[h..], IsSpace);
    var open := h + w;
    if h == 0 || w == 0 || |s| < open + 4 || s[open] != '<' || s[|s| - 2..] != ">:" then None
    else
      var name := s[open + 1..|s| - 2];
      if !AllChars(name, IsDot) then None
      else
        assert s[|s| - |name| - 3..] == "<" + name + ">:";
        Some(name)
  }

  /** What `asmOpcodeRe` captures of an instruction line */
  datatype Instruction = Instruction(address: nat, opcodes: string, disasm: string)

  /** The separators objdump draws between the address and the bytes: `[|\\\/>X+-]` or white space */
  predicate IsFiller(c: char) {
    c == '|' || c == '\\' || c == '/' || c == '>' || c == 'X' || c == '+' || c == '-' || IsSpace(c)
  }

  /** `([\da-f]{2} ?)+` taken greedily: the length of the run of byte pairs, each followed by at most one space */
  function PairsEnd(s: string): (n: nat)
    ensures n <= |s|
    ensures n > 0 ==> |s| >= 2 && IsHexDigit(s[0]) && IsHexDigit(s[1])
    decreases |s|
  {
    if |s| >= 2 && IsHexDigit(s[0]) && IsHexDigit(s[1]) then
      var k := if |s| > 2 && s[2] == ' ' then 3 else 2;
      k + PairsEnd(s[k..])
    else 0
  }

  /**
   * `asmOpcodeRe`, `/^\s*(?<address>[\da-f]+):(?:[|\\\/>X+-]|\s)*(?<opcodes>([\da-f]{2} ?)+)\s*(?<disasm>.*)/`:
   * the address before the colon, the byte pairs after the separators,
   * and the rest of the line after white space.
   */
  function InstructionOf(s: string): (r: Option<Instruction>)
    ensures r.Some? ==> SingleLineText(r.value.disasm) && |r.value.opcodes| >= 2
  {
    AddressPart(s[Span(s, IsSpace)..])
  }

  /** From the address on: the digits, the colon, and the bytes and instruction after it */
  function AddressPart(t: string): (r: Option<Instruction>)
    ensures r.Some? ==> SingleLineText(r.value.disasm) && |r.value.opcodes| >= 2
  {
    var h := Span(t, IsHexDigit);
    if h == 0 || h >= |t| || t[h] != ':' then None
    else
      match BytesPart(t[h + 1..])
      case None => None
      case Some(part) =>
        assert AllChars(t[..h], IsAnyHexDigit) by {
          assert forall k :: 0 <= k < h ==> t[..h][k] == t[k];
        }
        Some(Instruction(HexValue(t[..h]), part.0, part.1))
  }

  /** After the colon: the separators, then the byte pairs and the instruction */
  function BytesPart(u: string): (r: Option<(string, string)>)
    ensures r.Some? ==> SingleLineText(r.value.1) && |r.value.0| >= 2
  {
    PairsPart(u[Span(u, IsFiller)..])
  }

  /** After the separators: the greedy run of byte pairs, and the instruction after it */
  function PairsPart(w: string): (r: Option<(string, string)>)
    ensures r.Some? ==> SingleLineText(r.value.1) && |r.value.0| >= 2
  {
    var p := PairsEnd(w);
    if p == 0 then None else Some((w[..p], Disasm(w[p..])))
  }

  /** `\s*(?<disasm>.*)`: the text after the white space, up to a line terminator */
  function Disasm(v: string): (r: string)
    ensures SingleLineText(r)
  {
    var x := v[Span(v, IsSpace)..];
    var e := Span(x, IsDot);
    assert forall k :: 0 <= k < e ==> x[..e][k] == x[k];
    x[..e]
  }

  /** No character of `s` is a line terminator */
  predicate SingleLineText(s: string) {
    AllChars(s, IsDot)
  }

  /** A function header as objdump writes it: the address, white space, and the name in angle brackets before a colon */
  function HeaderLine(address: string, sp: string, name: string): string {
    address + (sp + ("<" + (name + ">:")))
  }

  /** A function header as objdump writes it is read back with its name */
  lemma {:induction false} FunctionLabelOf(address: string, sp: string, name: string)
    requires address != [] && AllChars(address, IsHexDigit)
    requires sp != [] && AllChars(sp, IsSpace)
    requires name != [] && AllChars(name, IsDot)
    ensures FunctionLabel(HeaderLine(address, sp, name)) == Some(name)
  {
    var tail := sp + ("<" + (name + ">:"));
    BracketedName(sp, name);
    FunctionLabelOfTail(address, tail, |sp|);
  }

  /** The header is read back from any tail of white space, `<`, a name and `>:` */
  lemma {:induction false} FunctionLabelOfTail(address: string, tail: string, w: nat)
    requires address != [] && AllChars(address, IsHexDigit)
    requires 0 < w && w + 4 <= |tail| && !IsHexDigit(tail[0]) && Span(tail, IsSpace) == w
    requires tail[w] == '<' && tail[|tail| - 2..] == ">:" && AllChars(tail[w + 1..|tail| - 2], IsDot)
    ensures FunctionLabel(address + tail) == Some(tail[w + 1..|tail| - 2])
  {
    HexRun(address, tail);
    HeaderParts(address, tail, w);
    FunctionLabelFrom(address + tail, |address|, w);
  }

  /** The run of hexadecimal digits stops where white space starts */
  lemma {:induction false} HexRun(address: string, tail: string)
    requires AllChars(address, IsHexDigit) && tail != [] && !IsHexDigit(tail[0])
    ensures Span(address + tail, IsHexDigit) == |address|
  {
    SpanFrom(address + tail, |address|, IsHexDigit);
  }

  /** After the white space come the opening bracket, the name, and the closing `>:` */
  lemma {:induction false} BracketedName(sp: string, name: string)
    requires sp != [] && AllChars(sp, IsSpace) && name != [] && AllChars(name, IsDot)
    ensures var tail := sp + ("<" + (name + ">:"));
      && |tail| >= |sp| + 4
      && Span(tail, IsSpace) == |sp|
      && !IsHexDigit(tail[0])
      && tail[|sp|] == '<'
      && tail[|tail| - 2..] == ">:"
      && tail[|sp| + 1..|tail| - 2] == name
      && AllChars(tail[|sp| + 1..|tail| - 2], IsDot)
  {
    var tail := sp + ("<" + (name + ">:"));
    assert !IsSpace('<');
    SpaceIsNotHex(sp[0]);
    SpanFrom(tail, |sp|, IsSpace);
    assert tail[|sp| + 1..|tail| - 2] == name;
  }

  /** Where the pieces of the tail sit in the whole header */
  lemma {:induction false} HeaderParts(address: string, tail: string, w: nat)
    requires w + 4 <= |tail| && tail[w] == '<' && tail[|tail| - 2..] == ">:"
    ensures var s := address + tail;
      && s[|address|..] == tail
      && s[|address| + w] == '<'
      && s[|s| - 2..] == ">:"
      && s[|address| + w + 1..|s| - 2] == tail[w + 1..|tail| - 2]
  {
    var s := address + tail;
    assert s[|address|..] == tail;
    assert s[|s| - 2..] == tail[|tail| - 2..];
    SliceOfDrop(s, |address|, w + 1, |tail| - 2);
  }

  lemma {:induction false} FunctionLabelFrom(s: string, h: nat, w: nat)
    requires 0 < h && 0 < w && h + w + 4 <= |s|
    requires Span(s, IsHexDigit) == h && Span(s[h..], IsSpace) == w && s[h + w] == '<' && s[|s| - 2..] == ">:"
    requires AllChars(s[h + w + 1..|s| - 2], IsDot)
    ensures FunctionLabel(s) == Some(s[h + w + 1..|s| - 2])
  {
  }

  lemma {:induction false} SpaceIsNotHex(c: char)
    requires IsSpace(c)
    ensures !IsHexDigit(c)
  {
    SpaceIsNotPrintable(c);
  }

  /** A source line marker as objdump writes it is read back with its path and line number */
  lemma {:induction false} LineMarkerOf(path: string, n: nat, rest: string)
    requires |path| >= 2 && path[0] == '/' && ':' !in path
    requires rest == [] || !IsDigit(rest[0])
    ensures LineMarker(path + ":" + ToDecimal(n) + rest) == Some((path, n))
  {
    var tail := ToDecimal(n) + rest;
    var s := path + (":" + tail);
    assert path + ":" + ToDecimal(n) + rest == s;
    var c := |path|;
    assert s[..c] == path && s[c + 1..] == tail;
    NumberOf(n, rest);
    LineMarkerFrom(s, c);
  }

  lemma {:induction false} LineMarkerFrom(s: string, c: nat)
    requires 2 <= c < |s| && s[0] == '/' && s[c] == ':' && ':' !in s[..c]
    requires Number(s[c + 1..]).Some?
    ensures LineMarker(s) == Some((s[..c], Number(s[c + 1..]).value.0))
  {
    assert forall i :: 0 <= i < c ==> s[i] == s[..c][i];
    assert IndexOf(s, ':') == Some(c);
  }

  /** Byte pairs as objdump prints them: each pair of hexadecimal digits followed by one space */
  function Pairs(bytes: seq<string>): (r: string)
    decreases |bytes|
  {
    if bytes == [] then [] else bytes[0] + " " + Pairs(bytes[1..])
  }

  predicate IsBytePair(b: string) {
    |b| == 2 && IsHexDigit(b[0]) && IsHexDigit(b[1])
  }

  /** The greedy run of byte pairs takes the printed bytes whole when white space follows them */
  lemma {:induction false} PairsEndOf(bytes: seq<string>, x: string)
    requires forall k :: 0 <= k < |bytes| ==> IsBytePair(bytes[k])
    requires x == [] || IsSpace(x[0])
    ensures PairsEnd(Pairs(bytes) + x) == |Pairs(bytes)|
    decreases |bytes|
  {
    if bytes == [] {
      if x != [] {
        SpaceIsNotHex(x[0]);
      }
    } else {
      var rest := Pairs(bytes[1..]) + x;
      var s := Pairs(bytes) + x;
      assert s == bytes[0] + (" " + rest);
      assert s[3..] == rest;
      PairsEndOf(bytes[1..], x);
    }
  }

  /** The printed bytes are shown separated by single spaces */
  lemma {:induction false} OpcodesOfPairs(bytes: seq<string>)
    requires forall k :: 0 <= k < |bytes| ==> IsBytePair(bytes[k])
    ensures Opcodes(Pairs(bytes)) == Join(bytes, " ")
  {
    WordsOfPairs(bytes);
  }

  lemma {:induction false} WordsOfPairs(bytes: seq<string>)
    requires forall k :: 0 <= k < |bytes| ==> IsBytePair(bytes[k])
    ensures Words(Pairs(bytes)) == bytes
    decreases |bytes|
  {
    if bytes != [] {
      var rest := Pairs(bytes[1..]);
      WordsOfPairs(bytes[1..]);
      WordsOfWord(bytes[0], " " + rest);
      assert Words(" " + rest) == Words(rest) by {
        assert (" " + rest)[1..] == rest;
      }
      assert Pairs(bytes) == bytes[0] + (" " + rest);
    }
  }

  lemma {:induction false} HexIsNotFiller(c: char)
    requires IsHexDigit(c)
    ensures !IsFiller(c) && !IsSpace(c)
  {
    SpaceIsNotPrintable(c);
  }

  /** An instruction line as objdump writes it: indentation, address, colon, separators, byte pairs, white space, instruction */
  function ObjdumpLine(ind: string, address: string, fill: string, bytes: seq<string>, sp: string, disasm: string): string {
    ind + (address + (":" + (fill + (Pairs(bytes) + (sp + disasm)))))
  }

  /** An instruction line as objdump writes it is read back as its address, its bytes and its instruction text */
  lemma {:induction false} InstructionOfLine(ind: string, address: string, fill: string, bytes: seq<string>, sp: string, disasm: string)
    requires AllChars(ind, IsSpace) && address != [] && AllChars(address, IsHexDigit) && AllChars(fill, IsFiller)
    requires bytes != [] && forall k :: 0 <= k < |bytes| ==> IsBytePair(bytes[k])
    requires sp != [] && AllChars(sp, IsSpace) && AllChars(disasm, IsDot) && (disasm == [] || !IsSpace(disasm[0]))
    ensures AllChars(address, IsAnyHexDigit)
    ensures InstructionOf(ObjdumpLine(ind, address, fill, bytes, sp, disasm))
      == Some(Instruction(HexValue(address), Pairs(bytes), disasm))
  {
    var P := Pairs(bytes);
    PairsStart(bytes);
    PairsEndOf(bytes, sp + disasm);
    DisasmOf(sp, disasm);
    var u := fill + (P + (sp + disasm));
    BytesPartOf(fill, P, sp + disasm, disasm);
    var t := address + (":" + u);
    AddressPartOf(address, u, (P, disasm));
    HexIsNotFiller(address[0]);
    IndentRun(ind, t);
  }

  /** The indentation is skipped up to the address */
  lemma {:induction false} IndentRun(ind: string, t: string)
    requires AllChars(ind, IsSpace) && t != [] && !IsSpace(t[0])
    ensures (ind + t)[Span(ind + t, IsSpace)..] == t
  {
    SpanFrom(ind + t, |ind|, IsSpace);
    assert (ind + t)[|ind|..] == t;
  }

  /** Printed bytes start with a hexadecimal digit */
  lemma {:induction false} PairsStart(bytes: seq<string>)
    requires bytes != [] && IsBytePair(bytes[0])
    ensures Pairs(bytes) != [] && IsHexDigit(Pairs(bytes)[0])
  {
    assert Pairs(bytes) == bytes[0] + (" " + Pairs(bytes[1..]));
  }

  lemma {:induction false} AddressPartOf(address: string, u: string, part: (string, string))
    requires address != [] && AllChars(address, IsHexDigit) && BytesPart(u) == Some(part)
    ensures AllChars(address, IsAnyHexDigit)
    ensures AddressPart(address + (":" + u)) == Some(Instruction(HexValue(address), part.0, part.1))
  {
    HexRun(address, ":" + u);
    AddressPartFrom(address, u, part);
  }

  lemma {:induction false} AddressPartFrom(address: string, u: string, part: (string, string))
    requires address != [] && AllChars(address, IsHexDigit) && BytesPart(u) == Some(part)
    requires Span(address + (":" + u), IsHexDigit) == |address|
    ensures AllChars(address, IsAnyHexDigit)
    ensures AddressPart(address + (":" + u)) == Some(Instruction(HexValue(address), part.0, part.1))
  {
    AroundColon(address, u);
  }

  /** The pieces on either side of a colon */
  lemma {:induction false} AroundColon(a: string, b: string)
    ensures var t := a + (":" + b);
      t[..|a|] == a && t[|a|] == ':' && t[|a| + 1..] == b
  {
  }

  lemma {:induction false} BytesPartOf(fill: string, P: string, v: string, disasm: string)
    requires AllChars(fill, IsFiller) && P != [] && IsHexDigit(P[0])
    requires PairsEnd(P + v) == |P| && Disasm(v) == disasm
    ensures BytesPart(fill + (P + v)) == Some((P, disasm))
  {
    HexIsNotFiller(P[0]);
    FillerRun(fill, P + v);
    BytesPartFrom(fill, P, v);
  }

  lemma {:induction false} FillerRun(fill: string, w: string)
    requires AllChars(fill, IsFiller) && w != [] && !IsFiller(w[0])
    ensures Span(fill + w, IsFiller) == |fill|
  {
    SpanFrom(fill + w, |fill|, IsFiller);
  }

  /** Once the separators end where the bytes begin, the bytes and the instruction are the pieces after them */
  lemma {:induction false} BytesPartFrom(fill: string, P: string, v: string)
    requires Span(fill + (P + v), IsFiller) == |fill| && 0 < |P| && PairsEnd(P + v) == |P|
    ensures BytesPart(fill + (P + v)) == Some((P, Disasm(v)))
  {
    assert (fill + (P + v))[|fill|..] == P + v;
    PairsPartOf(P, v);
  }

  lemma {:induction false} PairsPartOf(P: string, v: string)
    requires 0 < |P| && PairsEnd(P + v) == |P|
    ensures PairsPart(P + v) == Some((P, Disasm(v)))
  {
    assert (P + v)[..|P|] == P;
    assert (P + v)[|P|..] == v;
  }

  lemma {:induction false} DisasmOf(sp: string, disasm: string)
    requires AllChars(sp, IsSpace) && AllChars(disasm, IsDot) && (disasm == [] || !IsSpace(disasm[0]))
    ensures Disasm(sp + disasm) == disasm
  {
    var v := sp + disasm;
    SpanExact(v, |sp|, IsSpace);
    assert v[|sp|..] == disasm;
    SpanExact(disasm, |disasm|, IsDot);
  }

  /** A prefix of `p`-characters stopped by a character without `p` is the run */
  lemma {:induction false} SpanFrom(s: string, i: nat, p: char -> bool)
    requires i < |s| && !p(s[i]) && forall k :: 0 <= k < i ==> p(s[k])
    ensures Span(s, p) == i
  {
    SpanExact(s, i, p);
  }

  // ---------------------------------------------------------------- opcode bytes

  predicate NotSpace(c: char) {
    c != ' '
  }

  /** `s.split(' ').filter(x => !!x)`: the maximal runs without a space, in order */
  function Words(s: string): (r: seq<string>)
    ensures forall k :: 0 <= k < |r| ==> r[k] != [] && ' ' !in r[k]
    decreases |s|
  {
    if s == [] then []
    else if s[0] == ' ' then Words(s[1..])
    else
      var n := Span(s, NotSpace);
      assert forall k :: 0 <= k < n ==> s[..n][k] == s[k];
      [s[..n]] + Words(s[n..])
  }

  /** The opcode bytes as shown: `split(' ').filter(x => !!x).join(' ')` */
  function Opcodes(s: string): string {
    Join(Words(s), " ")
  }

  /** Splitting words joined by single spaces gives them back */
  lemma {:induction false} WordsOfJoin(ws: seq<string>)
    requires forall k :: 0 <= k < |ws| ==> ws[k] != [] && ' ' !in ws[k]
    ensures Words(Join(ws, " ")) == ws
    decreases |ws|
  {
    if |ws| == 1 {
      WordsOfWord(ws[0], "");
      assert ws[0] + "" == ws[0];
    } else if |ws| > 1 {
      var rest := Join(ws[1..], " ");
      WordsOfJoin(ws[1..]);
      WordsOfWord(ws[0], " " + rest);
      assert Words(" " + rest) == Words(rest) by {
        assert (" " + rest)[1..] == rest;
      }
      assert Join(ws, " ") == ws[0] + (" " + rest);
    }
  }

  /** A word followed by a space or nothing comes off whole */
  lemma {:induction false} WordsOfWord(w: string, rest: string)
    requires w != [] && ' ' !in w && (rest == [] || rest[0] == ' ')
    ensures Words(w + rest) == [w] + Words(rest)
  {
    var s := w + rest;
    SpanExact(s, |w|, NotSpace);
    assert s[..|w|] == w && s[|w|..] == rest;
  }

  /** Normalising the opcode bytes twice changes nothing */
  lemma {:induction false} OpcodesIdempotent(s: string)
    ensures Opcodes(Opcodes(s)) == Opcodes(s)
  {
    WordsOfJoin(Words(s));
  }

  // ---------------------------------------------------------------- the loop

  /** `isUserFunction(func)`: every function, unless the hiding pattern is set and matches its name */
  predicate IsUserFunction(hidden: Option<string -> bool>, func: string) {
    hidden.None? || !hidden.value(func)
  }

  /** The state of the loop between two lines: the output, the definitions, the last source position and the current function */
  datatype BinaryState = BinaryState(asm: seq<AsmLine>, defs: map<string, nat>, source: Option<AsmSource>, func: Option<string>)

  const BinaryStart := BinaryState([], map[], None, None)

  /** The output line of a disassembled instruction: its text behind one space, its bytes normalised, no references */
  function InstructionLine(ins: Instruction, source: Option<AsmSource>, filter: AsmFilter): (r: AsmLine)
    ensures r.BinaryLine? && r.labels == [] && |r.text| > 0 && r.text[0] == ' '
  {
    BinaryLine(" " + FilterAsmLine(ins.disasm, filter), source, [], ins.address, Opcodes(ins.opcodes))
  }

  /** One iteration of the loop of `processBinaryAsm` */
  function BinaryStep(hidden: Option<string -> bool>, filter: AsmFilter, st: BinaryState, line: string): (r: BinaryState)
    ensures st.asm <= r.asm && |r.asm| <= |st.asm| + 1
    ensures st.defs.Keys <= r.defs.Keys
  {
    var marker := LineMarker(line);
    var header := FunctionLabel(line);
    if marker.Some? then st.(source := Some(NewSource(Some(marker.value.0), marker.value.1)))
    else if header.Some? then
      var f := header.value;
      if IsUserFunction(hidden, f) then
        st.(func := Some(f), asm := st.asm + [Line(f + ":", None, [])], defs := st.defs[f := |st.asm| + 1])
      else st.(func := Some(f))
    else if st.func.Some? && line == st.func.value + "():" then st
    else if st.func.None? || !IsUserFunction(hidden, st.func.value) then st
    else
      var ins := InstructionOf(line);
      if ins.Some? then st.(asm := st.asm + [InstructionLine(ins.value, st.source, filter)]) else st
  }

  function BinaryRun(hidden: Option<string -> bool>, filter: AsmFilter, lines: seq<string>, st: BinaryState): (r: BinaryState)
    decreases |lines|
  {
    if lines == [] then st else BinaryRun(hidden, filter, lines[1..], BinaryStep(hidden, filter, st, lines[0]))
  }

  /** `asmLines.length === 1 && asmLines[0][0] === '<'`: objdump reported an error instead of a disassembly */
  predicate ErrorDocument(text: string) {
    '\n' !in text && |text| > 0 && text[0] == '<'
  }

  /**
   * What the loop keeps true of the output: each plain line is a function
   * header ending in a colon, each disassembled line starts with a space,
   * no line has references, and each definition is a user function and
   * points at its header `f:`.
   */
  predicate BinaryTidy(hidden: Option<string -> bool>, asm: seq<AsmLine>, defs: map<string, nat>) {
    && (forall i :: 0 <= i < |asm| ==> asm[i].labels == [] && asm[i].text != [])
    && (forall i :: 0 <= i < |asm| && asm[i].BinaryLine? ==> asm[i].text[0] == ' ')
    && (forall i :: 0 <= i < |asm| && asm[i].Line? ==>
      asm[i].source.None? && |asm[i].text| >= 2 && asm[i].text[|asm[i].text| - 1] == ':')
    && (forall f :: f in defs ==>
      && IsUserFunction(hidden, f)
      && 1 <= defs[f] <= |asm|
      && asm[defs[f] - 1] == Line(f + ":", None, []))
  }

  lemma {:induction false} BinaryStepKeeps(hidden: Option<string -> bool>, filter: AsmFilter, st: BinaryState, line: string)
    requires BinaryTidy(hidden, st.asm, st.defs)
    ensures BinaryTidy(hidden, BinaryStep(hidden, filter, st, line).asm, BinaryStep(hidden, filter, st, line).defs)
  {
    var header := FunctionLabel(line);
    var ins := InstructionOf(line);
    StepShape(hidden, filter, st, line);
    if header.Some? && IsUserFunction(hidden, header.value) && LineMarker(line).None? {
      HeaderAppended(hidden, st.asm, st.defs, header.value);
    } else if ins.Some? {
      InstructionAppended(hidden, st.asm, st.defs, InstructionLine(ins.value, st.source, filter));
    }
  }

  /** A step leaves the output alone, appends a user function's header with its definition, or appends an instruction */
  lemma {:induction false} StepShape(hidden: Option<string -> bool>, filter: AsmFilter, st: BinaryState, line: string)
    ensures var r := BinaryStep(hidden, filter, st, line);
      var header := FunctionLabel(line);
      var ins := InstructionOf(line);
      || (r.asm == st.asm && r.defs == st.defs)
      || (LineMarker(line).None? && header.Some? && IsUserFunction(hidden, header.value)
          && r.asm == st.asm + [Line(header.value + ":", None, [])] && r.defs == st.defs[header.value := |st.asm| + 1])
      || (header.None? && ins.Some? && r.defs == st.defs && r.asm == st.asm + [InstructionLine(ins.value, st.source, filter)])
  {
    if LineMarker(line).None? && FunctionLabel(line).None? {
      var r := BinaryStep(hidden, filter, st, line);
      assert r.defs == st.defs;
    }
  }

  lemma {:induction false} HeaderAppended(hidden: Option<string -> bool>, asm: seq<AsmLine>, defs: map<string, nat>, f: string)
    requires BinaryTidy(hidden, asm, defs) && IsUserFunction(hidden, f) && f != []
    ensures BinaryTidy(hidden, asm + [Line(f + ":", None, [])], defs[f := |asm| + 1])
  {
    var r := asm + [Line(f + ":", None, [])];
    var d := defs[f := |asm| + 1];
    forall g | g in d
      ensures IsUserFunction(hidden, g) && 1 <= d[g] <= |r| && r[d[g] - 1] == Line(g + ":", None, [])
    {
      if g != f {
        var k := defs[g] - 1;
        assert d[g] == k + 1 && k < |asm|;
        assert r[k] == asm[k];
      }
    }
  }

  lemma {:induction false} InstructionAppended(hidden: Option<string -> bool>, asm: seq<AsmLine>, defs: map<string, nat>, l: AsmLine)
    requires BinaryTidy(hidden, asm, defs) && l.BinaryLine? && l.labels == [] && l.text != [] && l.text[0] == ' '
    ensures BinaryTidy(hidden, asm + [l], defs)
  {
  }

  lemma {:induction false} BinaryRunKeeps(hidden: Option<string -> bool>, filter: AsmFilter, lines: seq<string>, st: BinaryState)
    requires BinaryTidy(hidden, st.asm, st.defs)
    ensures BinaryTidy(hidden, BinaryRun(hidden, filter, lines, st).asm, BinaryRun(hidden, filter, lines, st).defs)
    decreases |lines|
  {
    if lines != [] {
      BinaryStepKeeps(hidden, filter, st, lines[0]);
      BinaryRunKeeps(hidden, filter, lines[1..], BinaryStep(hidden, filter, st, lines[0]));
    }
  }

  lemma {:induction false} BinaryRunGrows(hidden: Option<string -> bool>, filter: AsmFilter, lines: seq<string>, st: BinaryState)
    ensures |BinaryRun(hidden, filter, lines, st).asm| <= |st.asm| + |lines|
    decreases |lines|
  {
    if lines != [] {
      BinaryRunGrows(hidden, filter, lines[1..], BinaryStep(hidden, filter, st, lines[0]));
    }
  }

  /** Output without references loses nothing to the pruning */
  lemma {:induction false} PruneWithoutReferences(asm: seq<AsmLine>, defs: map<string, nat>)
    requires forall i :: 0 <= i < |asm| ==> asm[i].labels == []
    ensures RemoveUndefined(asm, defs) == asm
  {
    var r := RemoveUndefined(asm, defs);
    forall i | 0 <= i < |asm|
      ensures r[i] == asm[i]
    {
      assert KeepDefined([], defs) == [];
    }
  }

  /**
   * `processBinaryAsm(asmResult, filter)`: an error document comes back
   * whole as its only line; otherwise at most one output line per input
   * line, and a tidy output.
   */
  function ProcessBinaryAsm(hidden: Option<string -> bool>, text: string, filter: AsmFilter): (r: AsmParserResult)
    ensures ErrorDocument(text) ==> r == AsmParserResult([Line(text, None, [])], map[])
    ensures !ErrorDocument(text) ==> |r.asm| <= |SplitOnLF(text)| && BinaryTidy(hidden, r.asm, r.labelDefinitions)
  {
    var lines := SplitOnLF(text);
    LastPiece(text, lines);
    if |lines| == 1 && |lines[0]| > 0 && lines[0][0] == '<' then
      AsmParserResult([Line(lines[0], None, [])], map[])
    else
      var st := BinaryRun(hidden, filter, lines, BinaryStart);
      BinaryRunKeeps(hidden, filter, lines, BinaryStart);
      BinaryRunGrows(hidden, filter, lines, BinaryStart);
      PruneWithoutReferences(st.asm, st.defs);
      AsmParserResult(RemoveUndefined(st.asm, st.defs), st.defs)
  }

  /** An instruction line of a user function is output with its address, its bytes separated by single spaces, and the last source position */
  lemma {:induction false} InstructionKept(hidden: Option<string -> bool>, filter: AsmFilter, st: BinaryState,
                                           ind: string, address: string, fill: string, bytes: seq<string>, sp: string, disasm: string)
    requires st.func.Some? && IsUserFunction(hidden, st.func.value)
    requires AllChars(ind, IsSpace) && address != [] && AllChars(address, IsHexDigit) && AllChars(fill, IsFiller)
    requires bytes != [] && forall k :: 0 <= k < |bytes| ==> IsBytePair(bytes[k])
    requires sp != [] && AllChars(sp, IsSpace) && AllChars(disasm, IsDot) && (disasm == [] || !IsSpace(disasm[0]))
    requires ObjdumpLine(ind, address, fill, bytes, sp, disasm) != st.func.value + "():"
    ensures AllChars(address, IsAnyHexDigit)
    ensures BinaryStep(hidden, filter, st, ObjdumpLine(ind, address, fill, bytes, sp, disasm)).asm
      == st.asm + [BinaryLine(" " + FilterAsmLine(disasm, filter), st.source, [], HexValue(address), Join(bytes, " "))]
  {
    var line := ObjdumpLine(ind, address, fill, bytes, sp, disasm);
    assert line[..|ind| + |address| + 1] == ind + address + ":";
    NotAHeader(ind, address, line);
    InstructionOfLine(ind, address, fill, bytes, sp, disasm);
    OpcodesOfPairs(bytes);
    InstructionStep(hidden, filter, st, line, Instruction(HexValue(address), Pairs(bytes), disasm));
  }

  lemma {:induction false} InstructionStep(hidden: Option<string -> bool>, filter: AsmFilter, st: BinaryState, line: string, ins: Instruction)
    requires LineMarker(line).None? && FunctionLabel(line).None? && InstructionOf(line) == Some(ins)
    requires st.func.Some? && IsUserFunction(hidden, st.func.value) && line != st.func.value + "():"
    ensures BinaryStep(hidden, filter, st, line).asm == st.asm + [InstructionLine(ins, st.source, filter)]
  {
  }

  /** A line that starts with indentation and an address followed by a colon is neither a line marker nor a function header */
  lemma {:induction false} NotAHeader(ind: string, address: string, line: string)
    requires AllChars(ind, IsSpace) && address != [] && AllChars(address, IsHexDigit)
    requires StartsWith(line, ind + address + ":")
    ensures LineMarker(line).None? && FunctionLabel(line).None?
  {
    var c := |ind| + |address|;
    assert line[..c + 1] == ind + address + ":";
    assert line[c] == ':';
    if ind != [] {
      assert line[0] == ind[0];
      SpaceIsNotHex(ind[0]);
      SpaceIsNotPrintable(ind[0]);
      SpanFrom(line, 0, IsHexDigit);
    } else {
      assert line[0] == address[0];
      assert forall k :: 0 <= k < |address| ==> line[k] == address[k];
      SpanFrom(line, |address|, IsHexDigit);
      assert line[|address|..][0] == ':';
      SpanFrom(line[|address|..], 0, IsSpace);
    }
  }

  /** The header of a user function is output as `name:`, becomes the current function and is defined at its 1-based line */
  lemma {:induction false} HeaderRecorded(hidden: Option<string -> bool>, filter: AsmFilter, st: BinaryState, address: string, sp: string, name: string)
    requires address != [] && AllChars(address, IsHexDigit)
    requires sp != [] && AllChars(sp, IsSpace)
    requires name != [] && AllChars(name, IsDot) && IsUserFunction(hidden, name)
    ensures var r := BinaryStep(hidden, filter, st, HeaderLine(address, sp, name));
      && r.asm == st.asm + [Line(name + ":", None, [])]
      && r.defs == st.defs[name := |r.asm|]
      && r.func == Some(name)
  {
    var line := HeaderLine(address, sp, name);
    FunctionLabelOf(address, sp, name);
    assert line[0] == address[0];
    HeaderStep(hidden, filter, st, line, name);
  }

  lemma {:induction false} HeaderStep(hidden: Option<string -> bool>, filter: AsmFilter, st: BinaryState, line: string, name: string)
    requires line != [] && line[0] != '/' && FunctionLabel(line) == Some(name) && IsUserFunction(hidden, name)
    ensures var r := BinaryStep(hidden, filter, st, line);
      && r.asm == st.asm + [Line(name + ":", None, [])]
      && r.defs == st.defs[name := |r.asm|]
      && r.func == Some(name)
  {
  }

  /** Instructions before the first function header are not output */
  lemma {:induction false} NothingBeforeHeader(hidden: Option<string -> bool>, filter: AsmFilter, lines: seq<string>, st: BinaryState)
    requires st.func.None? && forall i :: 0 <= i < |lines| ==> FunctionLabel(lines[i]).None?
    ensures BinaryRun(hidden, filter, lines, st).asm == st.asm
    decreases |lines|
  {
    if lines != [] {
      NothingBeforeHeader(hidden, filter, lines[1..], BinaryStep(hidden, filter, st, lines[0]));
    }
  }

  /** When the hiding pattern matches every function, nothing is output */
  lemma {:induction false} AllHiddenNothingOutput(hidden: Option<string -> bool>, filter: AsmFilter, lines: seq<string>, st: BinaryState)
    requires hidden.Some? && forall f :: hidden.value(f)
    ensures BinaryRun(hidden, filter, lines, st).asm == st.asm
    decreases |lines|
  {
    if lines != [] {
      HiddenStep(hidden, filter, st, lines[0]);
      AllHiddenNothingOutput(hidden, filter, lines[1..], BinaryStep(hidden, filter, st, lines[0]));
    }
  }

  lemma {:induction false} HiddenStep(hidden: Option<string -> bool>, filter: AsmFilter, st: BinaryState, line: string)
    requires hidden.Some? && forall f :: hidden.value(f)
    ensures BinaryStep(hidden, filter, st, line).asm == st.asm
  {
    var header := FunctionLabel(line);
    if header.Some? {
      assert hidden.value(header.value);
    } else if st.func.Some? {
      assert hidden.value(st.func.value);
    }
  }
}

=== FILE: label_refs.dfy ===
/**
 * Label references in an output line (`getUsedLabelsInLine`) and the final
 * pruning of references to labels that have no definition
 * (`removeLabelsWithoutDefinition`).
 */
module LabelRefs {
  import opened Wrappers
  import opened Strings
  import opened AsmModel
  import opened AsmPatterns

  /** How much of `s` the replace of `instructionRe`, `/^\s*[A-Za-z]+/`, removes: nothing unless a letter follows the indentation */
  function InstructionEnd(s: string): (n: nat)
    ensures n <= |s|
    ensures n > 0 ==> IsLetter(s[n - 1]) && (n == |s| || !IsLetter(s[n]))
  {
    var i := Span(s, IsSpace);
    if i < |s| && IsLetter(s[i]) then
      var k := Span(s[i..], IsLetter);
      assert s[i..][0] == s[i];
      assert i + k < |s| ==> s[i + k] == s[i..][k];
      assert s[i + k - 1] == s[i..][k - 1];
      i + k
    else 0
  }

  /** The label of a token found `col - 1` characters into the line */
  function LabelOf(t: Token, col: nat): AsmLabel {
    AsmLabel(t.text, AsmLabelRange(col + t.index, col + TokenEnd(t)))
  }

  function LabelsOf(tokens: seq<Token>, col: nat): (r: seq<AsmLabel>)
    ensures |r| == |tokens| && forall k :: 0 <= k < |tokens| ==> r[k] == LabelOf(tokens[k], col)
  {
    seq(|tokens|, k requires 0 <= k < |tokens| => LabelOf(tokens[k], col))
  }

  /** The 1-based column range of `l` holds its name in `line` */
  predicate PointsInto(line: string, l: AsmLabel) {
    1 <= l.range.startCol <= l.range.endCol <= |line| + 1
    && line[l.range.startCol - 1..l.range.endCol - 1] == l.name
  }

  /** The label ends where `code` ends or before a character that cannot continue an identifier: `[\dA-z]*` is greedy */
  predicate CannotExtend(code: string, l: AsmLabel) {
    1 <= l.range.endCol <= |code| ==> !IsIdentifierRest(code[l.range.endCol - 1])
  }

  /** `[$.@A-Z_a-z][\dA-z]*` as a whole */
  predicate IsIdentifier(name: string) {
    |name| > 0 && IsIdentifierStart(name[0]) && forall i :: 0 < i < |name| ==> IsIdentifierRest(name[i])
  }

  /** Where the parameters of the instruction start: after the comment is cut and the instruction word removed */
  function ParamsStart(line: string): nat {
    InstructionEnd(BeforeComment(line))
  }

  /**
   * `getUsedLabelsInLine(line)`: the identifiers after the instruction word
   * and before the first `#` or `;`, left to right, each with the columns
   * it occupies in the line.
   */
  function UsedLabelsInLine(line: string): (r: seq<AsmLabel>)
    ensures forall k :: 0 <= k < |r| ==> PointsInto(line, r[k]) && IsIdentifier(r[k].name)
    ensures forall k :: 0 <= k < |r| ==>
      ParamsStart(line) < r[k].range.startCol && r[k].range.endCol <= |BeforeComment(line)| + 1
    ensures forall k :: 0 < k < |r| ==> r[k - 1].range.endCol <= r[k].range.startCol
    ensures forall k :: 0 <= k < |r| ==> CannotExtend(BeforeComment(line), r[k])
  {
    var instruction := BeforeComment(line);
    var n := InstructionEnd(instruction);
    var params := instruction[n..];
    var tokens := FindAll(params, 0, IsIdentifierStart, IsIdentifierRest);
    TokenLabels(line, instruction, n, tokens);
    LabelsOf(tokens, n + 1)
  }

  /** Each token of the parameters gives a label that points into the line, is an identifier and cannot be extended */
  lemma {:induction false} TokenLabels(line: string, instruction: string, n: nat, tokens: seq<Token>)
    requires StartsWith(line, instruction) && n <= |instruction|
    requires TokensIn(instruction[n..], 0, tokens, IsIdentifierStart, IsIdentifierRest)
    ensures var r := LabelsOf(tokens, n + 1);
      forall k :: 0 <= k < |r| ==>
        && PointsInto(line, r[k]) && IsIdentifier(r[k].name)
        && CannotExtend(instruction, r[k])
  {
    var r := LabelsOf(tokens, n + 1);
    forall k | 0 <= k < |r|
      ensures PointsInto(line, r[k]) && IsIdentifier(r[k].name)
      ensures CannotExtend(instruction, r[k])
    {
      TokenPointsInto(line, instruction, n, tokens[k]);
    }
  }

  lemma {:induction false} TokenPointsInto(line: string, instruction: string, n: nat, t: Token)
    requires StartsWith(line, instruction) && n <= |instruction|
    requires TokenIn(instruction[n..], t, IsIdentifierStart, IsIdentifierRest)
    ensures PointsInto(line, LabelOf(t, n + 1)) && IsIdentifier(t.text)
    ensures n + TokenEnd(t) < |instruction| ==> !IsIdentifierRest(instruction[n + TokenEnd(t)])
  {
    var a, b := n + t.index, n + TokenEnd(t);
    assert instruction == line[..|instruction|];
    assert b < |instruction| ==> instruction[b] == instruction[n..][TokenEnd(t)];
    SliceOfPrefix(line, |instruction|, a, b);
    SliceOfDrop(instruction, n, t.index, TokenEnd(t));
  }

  /** No identifier in the parameters is missed: each of its start characters lies inside a reported label */
  lemma {:induction false} UsedLabelsCover(line: string, p: nat)
    requires ParamsStart(line) <= p < |BeforeComment(line)| && IsIdentifierStart(line[p])
    ensures Covers(UsedLabelsInLine(line), p + 1)
  {
    var instruction := BeforeComment(line);
    var n := InstructionEnd(instruction);
    assert instruction[p] == line[p] by {
      assert instruction == line[..|instruction|];
    }
    TokensCover(instruction, n, p);
  }

  lemma {:induction false} TokensCover(instruction: string, n: nat, p: nat)
    requires n <= p < |instruction| && IsIdentifierStart(instruction[p])
    ensures Covers(LabelsOf(FindAll(instruction[n..], 0, IsIdentifierStart, IsIdentifierRest), n + 1), p + 1)
  {
    var params := instruction[n..];
    var tokens := FindAll(params, 0, IsIdentifierStart, IsIdentifierRest);
    assert params[p - n] == instruction[p];
    FindAllCovers(params, 0, IsIdentifierStart, IsIdentifierRest, p - n);
    LabelsCover(tokens, n + 1, p - n);
  }

  lemma {:induction false} LabelsCover(tokens: seq<Token>, col: nat, q: nat)
    requires Covered(tokens, q)
    ensures Covers(LabelsOf(tokens, col), col + q)
  {
    var k :| 0 <= k < |tokens| && tokens[k].index <= q < TokenEnd(tokens[k]);
    CoversAt(LabelsOf(tokens, col), k, col + q);
  }

  /** Some label's columns include `col` */
  predicate Covers(labels: seq<AsmLabel>, col: nat) {
    exists k :: 0 <= k < |labels| && labels[k].range.startCol <= col < labels[k].range.endCol
  }

  lemma {:induction false} CoversAt(labels: seq<AsmLabel>, k: nat, col: nat)
    requires k < |labels| && labels[k].range.startCol <= col < labels[k].range.endCol
    ensures Covers(labels, col)
  {
  }

  /** A comment hides every identifier after it */
  lemma {:induction false} CommentHidesLabels(code: string, comment: string)
    requires '#' !in code && ';' !in code
    ensures UsedLabelsInLine(code + "#" + comment) == UsedLabelsInLine(code)
  {
    var s := code + "#" + comment;
    assert BeforeComment(s) == code by {
      assert forall k :: 0 <= k < |code| ==> s[k] == code[k];
      assert s[|code|] == '#';
      SpanExact(s, |code|, c => c != '#' && c != ';');
    }
    assert BeforeComment(code) == code by {
      SpanExact(code, |code|, c => c != '#' && c != ';');
    }
  }

  // ---------------------------------------------------------------- removeLabelsWithoutDefinition

  /** `labelDefinitions.get(name)` is truthy: present and not 0 */
  predicate Defined(defs: map<string, nat>, name: string) {
    name in defs && defs[name] != 0
  }

  /** The labels whose name has a definition, in order */
  function KeepDefined(labels: seq<AsmLabel>, defs: map<string, nat>): (r: seq<AsmLabel>)
    ensures |r| <= |labels|
    ensures forall l :: l in r <==> l in labels && Defined(defs, l.name)
  {
    if labels == [] then []
    else
      var tail := KeepDefined(labels[1..], defs);
      assert forall l :: l in labels <==> l == labels[0] || l in labels[1..];
      if Defined(defs, labels[0].name) then [labels[0]] + tail else tail
  }

  /**
   * The filter keeps order: filtering a concatenation filters each part and
   * concatenates the results, and a single label is kept exactly when it is
   * defined. With `KeepDefinedOne` this determines the result.
   */
  lemma {:induction false} KeepDefinedAppend(a: seq<AsmLabel>, b: seq<AsmLabel>, defs: map<string, nat>)
    ensures KeepDefined(a + b, defs) == KeepDefined(a, defs) + KeepDefined(b, defs)
    decreases |a|
  {
    if a == [] {
      assert a + b == b;
    } else {
      assert (a + b)[0] == a[0] && (a + b)[1..] == a[1..] + b;
      KeepDefinedAppend(a[1..], b, defs);
    }
  }

  lemma {:induction false} KeepDefinedOne(l: AsmLabel, defs: map<string, nat>)
    ensures KeepDefined([l], defs) == if Defined(defs, l.name) then [l] else []
  {
    assert [l][1..] == [];
  }

  /** `removeLabelsWithoutDefinition`: every line keeps its text and position, and only the labels that are defined */
  function RemoveUndefined(asm: seq<AsmLine>, defs: map<string, nat>): (r: seq<AsmLine>)
    ensures |r| == |asm|
    ensures forall i :: 0 <= i < |asm| ==> r[i] == asm[i].(labels := KeepDefined(asm[i].labels, defs))
  {
    seq(|asm|, i requires 0 <= i < |asm| => asm[i].(labels := KeepDefined(asm[i].labels, defs)))
  }

  /** Filtering a filtered list changes nothing */
  lemma {:induction false} KeepDefinedIdempotent(labels: seq<AsmLabel>, defs: map<string, nat>)
    ensures KeepDefined(KeepDefined(labels, defs), defs) == KeepDefined(labels, defs)
    decreases |labels|
  {
    if labels != [] {
      var tail := KeepDefined(labels[1..], defs);
      KeepDefinedIdempotent(labels[1..], defs);
      if Defined(defs, labels[0].name) {
        var r := [labels[0]] + tail;
        assert r[1..] == tail;
      }
    }
  }

  /** Pruning twice is pruning once */
  lemma {:induction false} RemoveUndefinedIdempotent(asm: seq<AsmLine>, defs: map<string, nat>)
    ensures RemoveUndefined(RemoveUndefined(asm, defs), defs) == RemoveUndefined(asm, defs)
  {
    var r := RemoveUndefined(asm, defs);
    forall i | 0 <= i < |asm|
      ensures RemoveUndefined(r, defs)[i] == r[i]
    {
      KeepDefinedIdempotent(asm[i].labels, defs);
    }
  }
}

=== FILE: liveness.dfy ===
/**
 * `findUsedLabels` (src/asm.ts): which labels a listing uses. One scan over
 * the lines records strong uses, and weak ones (a label whose data refers
 * to other labels); ten rounds then make the weak targets of used labels
 * used as well.
 */
module Liveness {
  import opened Wrappers
  import opened Strings
  import opened AsmPatterns

  /** What the scan carries from line to line; weak usages are kept as sets, since only membership is ever read */
  datatype Scan = Scan(
    used: set<string>,
    weak: map<string, set<string>>,
    group: seq<string>,
    inGroup: bool,
    custom: int,
    inFunction: bool)

  const StartScan := Scan({}, map[], [], false, 0, false)

  /** `MaxLabelIterations` */
  const MaxLabelIterations: nat := 10

  /** The nesting depth of inline assembly after this line */
  function CustomDepth(custom: int, raw: string): int {
    if StartsCustomAssembly(raw) then custom + 1
    else if EndsCustomAssembly(raw) then custom - 1
    else custom
  }

  /** The line as the patterns see it: inside inline assembly, label definitions lose their indentation */
  function Seen(custom: int, raw: string): (line: string)
    ensures FixLabelIndentation(raw) == raw ==> line == raw
  {
    if CustomDepth(custom, raw) > 0 then FixLabelIndentation(raw) else raw
  }

  /** The name a `.globl`, `.weak` or CUDA header line declares, trying the patterns in the code's order */
  function Declared(o: Oracles, line: string): Option<string> {
    var g := DefinesGlobal(line);
    if g.Some? then g
    else
      var w := DefinesWeak(line);
      if w.Some? then w
      else match o.cudaBeginDef(line)
        case Some(k) => Some(CudaKeyword(k))
        case None => None
  }

  /** The `labelFind` matches of a line */
  function LabelTokens(line: string, mips: bool): set<string> {
    Texts(FindAll(line, 0, LabelStart(mips), IsSymbolRest))
  }

  function Members(group: seq<string>): set<string> {
    set i | 0 <= i < |group| :: group[i]
  }

  /** Every label of the group refers weakly to the tokens */
  function AddWeak(weak: map<string, set<string>>, group: seq<string>, tokens: set<string>): (r: map<string, set<string>>)
    ensures r.Keys == weak.Keys + Members(group)
    ensures forall l :: l in group ==> r[l] == (if l in weak then weak[l] else {}) + tokens
    ensures forall l :: l in weak && l !in group ==> r[l] == weak[l]
  {
    if group == [] then weak
    else
      var init := group[..|group| - 1];
      var l := group[|group| - 1];
      var w := AddWeak(weak, init, tokens);
      assert forall x :: x in group <==> x in init || x == l;
      assert Members(group) == Members(init) + {l} by {
        assert forall i :: 0 <= i < |init| ==> init[i] == group[i];
      }
      w[l := (if l in w then w[l] else {}) + tokens]
  }

  /** A line whose label references count as uses outright: not a directive, and an instruction or function header when filtering */
  predicate StrongLine(o: Oracles, filterDirectives: bool, line: string) {
    (o.definesFunction(line) || (line != [] && line[0] != '.'))
    && (!filterDirectives || HasOpcode(line, false) || o.definesFunction(line))
  }

  /** What a line's label references become */
  datatype Use = Ignore | Strong | Weak

  /**
   * With filtering on, a data definition that is neither an instruction nor
   * a function header, seen while a label group is open
   */
  predicate GroupedData(o: Oracles, filterDirectives: bool, grouped: bool, line: string) {
    && line != [] && line[0] != '.'
    && filterDirectives && !HasOpcode(line, false) && !o.definesFunction(line)
    && DataDefn(line) && grouped
  }

  /**
   * The tail of the loop body's decision: directives are skipped; with
   * filtering on, only instructions and function headers use labels
   * outright, and data or instructions under a label group use them weakly
   * (outright for data inside a function).
   */
  function Classify(o: Oracles, filterDirectives: bool, inFunction: bool, grouped: bool, line: string): (u: Use)
    ensures StrongLine(o, filterDirectives, line) ==> u == Strong
    ensures u == Weak ==> filterDirectives && grouped && !StrongLine(o, filterDirectives, line)
    ensures GroupedData(o, filterDirectives, grouped, line) ==> u == (if inFunction then Strong else Weak)
    ensures u == Weak <==> GroupedData(o, filterDirectives, grouped, line) && !inFunction
    ensures u == Strong <==> StrongLine(o, filterDirectives, line) || (GroupedData(o, filterDirectives, grouped, line) && inFunction)
  {
    var definesFunction := o.definesFunction(line);
    if !definesFunction && (line == [] || line[0] == '.') then Ignore
    else if !filterDirectives || HasOpcode(line, false) || definesFunction then Strong
    else
      var isDataDefinition := DataDefn(line);
      var isOpcode := HasOpcode(line, false);
      if (isDataDefinition || isOpcode) && grouped then
        if inFunction && isDataDefinition then Strong else Weak
      else Ignore
  }

  /** The label references of the line, once classified, join the used labels or the weak usages of the group */
  function UseTokens(o: Oracles, filterDirectives: bool, mips: bool, st: Scan, line: string): (r: Scan)
    ensures r.group == st.group && r.inGroup == st.inGroup && r.custom == st.custom && r.inFunction == st.inFunction
    ensures r.used == st.used || r.used == st.used + LabelTokens(line, mips)
    ensures r.weak == st.weak || (filterDirectives && st.group != [] && r.weak == AddWeak(st.weak, st.group, LabelTokens(line, mips)))
    ensures StrongLine(o, filterDirectives, line) ==> LabelTokens(line, mips) <= r.used
    ensures var tokens := LabelTokens(line, mips);
      GroupedData(o, filterDirectives, st.group != [], line) && tokens != {} ==>
        if st.inFunction then r.used == st.used + tokens && r.weak == st.weak
        else r.used == st.used && r.weak == AddWeak(st.weak, st.group, tokens)
  {
    var tokens := LabelTokens(line, mips);
    if tokens == {} then st
    else match Classify(o, filterDirectives, st.inFunction, st.group != [], line)
      case Strong => st.(used := st.used + tokens)
      case Weak => st.(weak := AddWeak(st.weak, st.group, tokens))
      case Ignore => st
  }

  /**
   * The head of the loop body: the inline-assembly depth, the function
   * flag, the label group and the declared names.
   */
  function Enter(o: Oracles, st: Scan, raw: string): (r: Scan)
    ensures st.used <= r.used && r.weak == st.weak && r.custom == CustomDepth(st.custom, raw)
    ensures Declared(o, Seen(st.custom, raw)).Some? ==> Declared(o, Seen(st.custom, raw)).value in r.used
    ensures LabelDef(Seen(st.custom, raw)).None? ==> r.group == st.group && !r.inGroup
    ensures LabelDef(Seen(st.custom, raw)).Some? ==>
      r.inGroup && |r.group| > 0 && r.group[..|r.group| - 1] == (if st.inGroup then st.group else [])
  {
    var inFunction :=
      if StartsCustomAssembly(raw) || EndsCustomAssembly(raw) then st.inFunction
      else if Contains(raw, ".cfi_startproc") then true
      else if Contains(raw, ".cfi_endproc") then false
      else st.inFunction;
    var line := Seen(st.custom, raw);
    var def := LabelDef(line);
    var group := if def.Some? then (if st.inGroup then st.group else []) + [Captured(line, def.value)] else st.group;
    var declared := Declared(o, line);
    var used := if declared.Some? then st.used + {declared.value} else st.used;
    Scan(used, st.weak, group, def.Some?, CustomDepth(st.custom, raw), inFunction)
  }

  /** One turn of the scan loop */
  function ScanLine(o: Oracles, filterDirectives: bool, mips: bool, st: Scan, raw: string): (r: Scan)
    ensures st.used <= r.used
    ensures Declared(o, Seen(st.custom, raw)).Some? ==> Declared(o, Seen(st.custom, raw)).value in r.used
    ensures !filterDirectives ==> r.weak == st.weak
    ensures StrongLine(o, filterDirectives, Seen(st.custom, raw)) ==> LabelTokens(Seen(st.custom, raw), mips) <= r.used
    ensures var e, line := Enter(o, st, raw), Seen(st.custom, raw); var tokens := LabelTokens(line, mips);
      GroupedData(o, filterDirectives, e.group != [], line) && tokens != {} ==>
        if e.inFunction then tokens <= r.used else r.weak == AddWeak(st.weak, e.group, tokens)
  {
    UseTokens(o, filterDirectives, mips, Enter(o, st, raw), Seen(st.custom, raw))
  }

  /** Every step keeps the used labels */
  ghost predicate GrowsUsed(step: (Scan, string) -> Scan) {
    forall s: Scan, line: string :: s.used <= step(s, line).used
  }

  /** No step records a weak usage */
  ghost predicate KeepsWeak(step: (Scan, string) -> Scan) {
    forall s: Scan, line: string :: step(s, line).weak == s.weak
  }

  /** The loop over the lines, for any loop body */
  function Fold(step: (Scan, string) -> Scan, lines: seq<string>, st: Scan): (r: Scan)
    ensures GrowsUsed(step) ==> st.used <= r.used
    ensures KeepsWeak(step) ==> r.weak == st.weak
    decreases |lines|
  {
    if lines == [] then st else Fold(step, lines[1..], step(st, lines[0]))
  }

  function Step(o: Oracles, filterDirectives: bool, mips: bool): (Scan, string) -> Scan {
    (s, line) => ScanLine(o, filterDirectives, mips, s, line)
  }

  /** The scan loop from state `st` */
  function ScanAll(o: Oracles, filterDirectives: bool, mips: bool, lines: seq<string>, st: Scan): (r: Scan)
    ensures st.used <= r.used
    ensures !filterDirectives ==> r.weak == st.weak
  {
    assert GrowsUsed(Step(o, filterDirectives, mips));
    assert !filterDirectives ==> KeepsWeak(Step(o, filterDirectives, mips));
    Fold(Step(o, filterDirectives, mips), lines, st)
  }

  /** The inline-assembly depth after the lines, from depth `custom` */
  function DepthAfter(custom: int, lines: seq<string>): int
    decreases |lines|
  {
    if lines == [] then custom else DepthAfter(CustomDepth(custom, lines[0]), lines[1..])
  }

  /** Line `i` as the scan's patterns see it, at the depth the lines before it leave */
  function SeenAt(lines: seq<string>, i: nat): string
    requires i < |lines|
  {
    Seen(DepthAfter(StartScan.custom, lines[..i]), lines[i])
  }

  /** A turn of the scan sets the depth as `CustomDepth` does */
  lemma {:induction false} ScanLineDepth(o: Oracles, filterDirectives: bool, mips: bool, st: Scan, raw: string)
    ensures ScanLine(o, filterDirectives, mips, st, raw).custom == CustomDepth(st.custom, raw)
  {
  }

  /** The line makes `x` used from any state at depth `depth` */
  ghost predicate MakesUsed(o: Oracles, filterDirectives: bool, mips: bool, line: string, depth: int, x: string) {
    forall s: Scan :: s.custom == depth ==> x in ScanLine(o, filterDirectives, mips, s, line).used
  }

  /**
   * A label that line `i` makes used, from any state at the depth the lines
   * before it leave, stays used to the end of the loop
   */
  lemma {:induction false} ScanKeepsAt(o: Oracles, filterDirectives: bool, mips: bool, lines: seq<string>, st: Scan, i: nat, x: string)
    requires i < |lines| && MakesUsed(o, filterDirectives, mips, lines[i], DepthAfter(st.custom, lines[..i]), x)
    ensures x in ScanAll(o, filterDirectives, mips, lines, st).used
    decreases i
  {
    if i == 0 {
      KeepsFirst(o, filterDirectives, mips, lines, st, x);
    } else {
      var next := ScanLine(o, filterDirectives, mips, st, lines[0]);
      MakesUsedNext(o, filterDirectives, mips, lines, st, i, x);
      ScanKeepsAt(o, filterDirectives, mips, lines[1..], next, i - 1, x);
      ScanAllCons(o, filterDirectives, mips, lines, st);
    }
  }

  lemma {:induction false} KeepsFirst(o: Oracles, filterDirectives: bool, mips: bool, lines: seq<string>, st: Scan, x: string)
    requires lines != [] && MakesUsed(o, filterDirectives, mips, lines[0], DepthAfter(st.custom, lines[..0]), x)
    ensures x in ScanAll(o, filterDirectives, mips, lines, st).used
  {
    assert lines[..0] == [];
    var next := ScanLine(o, filterDirectives, mips, st, lines[0]);
    assert x in next.used;
    ScanAllCons(o, filterDirectives, mips, lines, st);
  }

  /** What line `i` does from the right depth, line `i - 1` of the rest does from the depth after the first line */
  lemma {:induction false} MakesUsedNext(o: Oracles, filterDirectives: bool, mips: bool, lines: seq<string>, st: Scan, i: nat, x: string)
    requires 0 < i < |lines| && MakesUsed(o, filterDirectives, mips, lines[i], DepthAfter(st.custom, lines[..i]), x)
    ensures var next := ScanLine(o, filterDirectives, mips, st, lines[0]);
      MakesUsed(o, filterDirectives, mips, lines[1..][i - 1], DepthAfter(next.custom, lines[1..][..i - 1]), x)
  {
    ScanLineDepth(o, filterDirectives, mips, st, lines[0]);
    DepthAfterCons(st.custom, lines, i);
    assert lines[1..][i - 1] == lines[i];
  }

  lemma {:induction false} ScanAllCons(o: Oracles, filterDirectives: bool, mips: bool, lines: seq<string>, st: Scan)
    requires lines != []
    ensures ScanAll(o, filterDirectives, mips, lines, st)
      == ScanAll(o, filterDirectives, mips, lines[1..], ScanLine(o, filterDirectives, mips, st, lines[0]))
  {
  }

  lemma {:induction false} DepthAfterCons(custom: int, lines: seq<string>, i: nat)
    requires 0 < i <= |lines|
    ensures DepthAfter(custom, lines[..i]) == DepthAfter(CustomDepth(custom, lines[0]), lines[1..][..i - 1])
  {
    assert lines[..i][1..] == lines[1..][..i - 1];
  }

  // ---------------------------------------------------------------- the scan around one line

  /** The scan's state when it reaches line `i` */
  function Before(o: Oracles, filterDirectives: bool, lines: seq<string>, i: nat): Scan
    requires i <= |lines|
  {
    ScanAll(o, filterDirectives, UsesMipsLabels(lines), lines[..i], StartScan)
  }

  /** Every label with weak usages in `a` keeps them in `b` */
  predicate WeakBelow(a: map<string, set<string>>, b: map<string, set<string>>) {
    forall l :: l in a ==> l in b && a[l] <= b[l]
  }

  /** The scan runs the lines before `i`, then the rest */
  lemma {:induction false} ScanAllSplit(o: Oracles, filterDirectives: bool, mips: bool, lines: seq<string>, st: Scan, i: nat)
    requires i <= |lines|
    ensures ScanAll(o, filterDirectives, mips, lines, st)
      == ScanAll(o, filterDirectives, mips, lines[i..], ScanAll(o, filterDirectives, mips, lines[..i], st))
  {
    FoldSplit(Step(o, filterDirectives, mips), lines, st, i);
  }

  lemma {:induction false} FoldSplit(step: (Scan, string) -> Scan, lines: seq<string>, st: Scan, i: nat)
    requires i <= |lines|
    ensures Fold(step, lines, st) == Fold(step, lines[i..], Fold(step, lines[..i], st))
    decreases i
  {
    if i == 0 {
      assert lines[..0] == [] && lines[0..] == lines;
    } else {
      var next := step(st, lines[0]);
      FoldSplit(step, lines[1..], next, i - 1);
      assert lines[..i][0] == lines[0];
      assert lines[..i][1..] == lines[1..][..i - 1];
      assert lines[1..][i - 1..] == lines[i..];
    }
  }

  /** The scan's depth is the inline-assembly depth after the lines */
  lemma {:induction false} ScanAllDepth(o: Oracles, filterDirectives: bool, mips: bool, lines: seq<string>, st: Scan)
    ensures ScanAll(o, filterDirectives, mips, lines, st).custom == DepthAfter(st.custom, lines)
    decreases |lines|
  {
    if lines != [] {
      ScanLineDepth(o, filterDirectives, mips, st, lines[0]);
      ScanAllCons(o, filterDirectives, mips, lines, st);
      ScanAllDepth(o, filterDirectives, mips, lines[1..], ScanLine(o, filterDirectives, mips, st, lines[0]));
    }
  }

  /** A turn of the scan only adds weak usages */
  lemma {:induction false} ScanLineWeak(o: Oracles, filterDirectives: bool, mips: bool, st: Scan, raw: string)
    ensures WeakBelow(st.weak, ScanLine(o, filterDirectives, mips, st, raw).weak)
  {
  }

  /** The whole scan only adds weak usages */
  lemma {:induction false} ScanAllWeak(o: Oracles, filterDirectives: bool, mips: bool, lines: seq<string>, st: Scan)
    ensures WeakBelow(st.weak, ScanAll(o, filterDirectives, mips, lines, st).weak)
    decreases |lines|
  {
    if lines != [] {
      var next := ScanLine(o, filterDirectives, mips, st, lines[0]);
      ScanLineWeak(o, filterDirectives, mips, st, lines[0]);
      ScanAllCons(o, filterDirectives, mips, lines, st);
      ScanAllWeak(o, filterDirectives, mips, lines[1..], next);
    }
  }

  /** Line `i` is seen by the scan as `SeenAt` says, and the scan goes on from the state after it */
  lemma {:induction false} AroundLine(o: Oracles, filterDirectives: bool, lines: seq<string>, i: nat)
    requires i < |lines|
    ensures var b, mips := Before(o, filterDirectives, lines, i), UsesMipsLabels(lines);
      && Seen(b.custom, lines[i]) == SeenAt(lines, i)
      && ScanAll(o, filterDirectives, mips, lines, StartScan)
        == ScanAll(o, filterDirectives, mips, lines[i + 1..], ScanLine(o, filterDirectives, mips, b, lines[i]))
  {
    var mips := UsesMipsLabels(lines);
    var b := Before(o, filterDirectives, lines, i);
    ScanAllDepth(o, filterDirectives, mips, lines[..i], StartScan);
    ScanAllSplit(o, filterDirectives, mips, lines, StartScan, i);
    ScanAllCons(o, filterDirectives, mips, lines[i..], b);
    assert lines[i..][0] == lines[i] && lines[i..][1..] == lines[i + 1..];
  }

  /**
   * A data line under a label group, with filtering on: inside a function
   * (between `.cfi_startproc` and `.cfi_endproc`) its references are used
   * outright; outside one, every label of the group refers to them weakly
   * when the scan ends.
   */
  lemma {:induction false} GroupedDataRecorded(o: Oracles, lines: seq<string>, i: nat, t: string)
    requires i < |lines|
    requires var e := Enter(o, Before(o, true, lines, i), lines[i]);
      GroupedData(o, true, e.group != [], SeenAt(lines, i)) && t in LabelTokens(SeenAt(lines, i), UsesMipsLabels(lines))
    ensures var e, scan := Enter(o, Before(o, true, lines, i), lines[i]), ScanAll(o, true, UsesMipsLabels(lines), lines, StartScan);
      && (e.inFunction ==> t in FindUsedLabels(o, lines, true))
      && (!e.inFunction ==> forall l :: l in e.group ==> l in scan.weak && t in scan.weak[l])
  {
    var mips := UsesMipsLabels(lines);
    var b := Before(o, true, lines, i);
    AroundLine(o, true, lines, i);
    var next := ScanLine(o, true, mips, b, lines[i]);
    ScanAllWeak(o, true, mips, lines[i + 1..], next);
  }

  /**
   * The weak targets of such a line are used whenever a label of its group
   * is used one round before the last, in particular whenever the scan
   * itself found a label of the group used
   */
  lemma {:induction false} GroupedDataFollowsGroup(o: Oracles, lines: seq<string>, i: nat, t: string, l: string)
    requires i < |lines|
    requires var e := Enter(o, Before(o, true, lines, i), lines[i]);
      GroupedData(o, true, e.group != [], SeenAt(lines, i)) && t in LabelTokens(SeenAt(lines, i), UsesMipsLabels(lines))
      && !e.inFunction && l in e.group
    requires var scan := ScanAll(o, true, UsesMipsLabels(lines), lines, StartScan);
      l in Close(scan.used, scan.weak, MaxLabelIterations - 1)
    ensures t in FindUsedLabels(o, lines, true)
  {
    var scan := ScanAll(o, true, UsesMipsLabels(lines), lines, StartScan);
    GroupedDataRecorded(o, lines, i, t);
    CloseStep(scan.used, scan.weak, MaxLabelIterations - 1, l, t);
  }

  /** A weak target of a label used after `n` rounds is used after one more */
  lemma {:induction false} CloseStep(u: set<string>, weak: map<string, set<string>>, n: nat, l: string, t: string)
    requires l in Close(u, weak, n) && l in weak && t in weak[l]
    ensures t in Close(u, weak, n + 1)
    decreases n
  {
    if n == 0 {
      assert t in Targets(u, weak);
    } else {
      CloseStep(Round(u, weak), weak, n - 1, l, t);
    }
  }

  /** The weak targets of used labels */
  function Targets(used: set<string>, weak: map<string, set<string>>): set<string> {
    set l, t | l in used && l in weak && t in weak[l] :: t
  }

  /** One round of the closure loop: `toAdd` joins the used labels */
  function Round(used: set<string>, weak: map<string, set<string>>): (r: set<string>)
    ensures used <= r
  {
    used + Targets(used, weak)
  }

  /** `n` rounds of the closure; `if (!toAdd)` never holds, so the loop always runs all of them */
  function Close(used: set<string>, weak: map<string, set<string>>, n: nat): (r: set<string>)
    ensures used <= r
    decreases n
  {
    if n == 0 then used else Close(Round(used, weak), weak, n - 1)
  }

  /** `findUsedLabels(asmLines, filterDirectives)` */
  function FindUsedLabels(o: Oracles, lines: seq<string>, filterDirectives: bool): (r: set<string>)
    ensures ScanAll(o, filterDirectives, UsesMipsLabels(lines), lines, StartScan).used <= r
  {
    var scan := ScanAll(o, filterDirectives, UsesMipsLabels(lines), lines, StartScan);
    Close(scan.used, scan.weak, MaxLabelIterations)
  }

  /** A chain of weak usages: each label's data refers to the next */
  predicate WeakPath(weak: map<string, set<string>>, p: seq<string>) {
    forall i :: 0 <= i < |p| - 1 ==> p[i] in weak && p[i + 1] in weak[p[i]]
  }

  lemma {:induction false} RoundMonotone(u: set<string>, v: set<string>, weak: map<string, set<string>>)
    requires u <= v
    ensures Round(u, weak) <= Round(v, weak)
  {
  }

  /** More used labels going in, more coming out */
  lemma {:induction false} CloseMonotone(u: set<string>, v: set<string>, weak: map<string, set<string>>, n: nat)
    requires u <= v
    ensures Close(u, weak, n) <= Close(v, weak, n)
    decreases n
  {
    if n > 0 {
      RoundMonotone(u, v, weak);
      CloseMonotone(Round(u, weak), Round(v, weak), weak, n - 1);
    }
  }

  /** Once a round adds nothing, further rounds add nothing */
  lemma {:induction false} CloseAtFixpoint(u: set<string>, weak: map<string, set<string>>, n: nat)
    requires Round(u, weak) == u
    ensures Close(u, weak, n) == u
  {
    if n > 0 {
      CloseAtFixpoint(u, weak, n - 1);
    }
  }

  /** The end of a weak chain of at most `n` steps from a used label is used after `n` rounds */
  lemma {:induction false} CloseReaches(u: set<string>, weak: map<string, set<string>>, n: nat, p: seq<string>)
    requires |p| > 0 && p[0] in u && |p| <= n + 1 && WeakPath(weak, p)
    ensures p[|p| - 1] in Close(u, weak, n)
    decreases n
  {
    if |p| > 1 {
      assert p[1] in Targets(u, weak);
      var q := p[1..];
      assert WeakPath(weak, q) by {
        forall i | 0 <= i < |q| - 1
          ensures q[i] in weak && q[i + 1] in weak[q[i]]
        {
          assert q[i] == p[i + 1] && q[i + 1] == p[i + 2];
        }
      }
      CloseReaches(Round(u, weak), weak, n - 1, q);
      assert q[|q| - 1] == p[|p| - 1];
    }
  }

  /** Every label used after `n` rounds ends a weak chain of at most `n` steps from a label used before them */
  lemma {:induction false} CloseWitness(u: set<string>, weak: map<string, set<string>>, n: nat, l: string) returns (p: seq<string>)
    requires l in Close(u, weak, n)
    ensures |p| > 0 && p[0] in u && |p| <= n + 1 && WeakPath(weak, p) && p[|p| - 1] == l
    decreases n
  {
    if n == 0 {
      p := [l];
    } else {
      var q := CloseWitness(Round(u, weak), weak, n - 1, l);
      if q[0] in u {
        p := q;
      } else {
        var x, t :| x in u && x in weak && t in weak[x] && t == q[0];
        p := [x] + q;
        assert WeakPath(weak, p) by {
          forall i | 0 <= i < |p| - 1
            ensures p[i] in weak && p[i + 1] in weak[p[i]]
          {
            if i > 0 {
              assert p[i] == q[i - 1] && p[i + 1] == q[i];
            }
          }
        }
      }
    }
  }

  /** A name that a `.globl`, `.weak` or CUDA header line declares, as the scan sees the line, is used */
  lemma {:induction false} DeclaredIsUsed(o: Oracles, lines: seq<string>, filterDirectives: bool, i: nat)
    requires i < |lines| && Declared(o, SeenAt(lines, i)).Some?
    ensures Declared(o, SeenAt(lines, i)).value in FindUsedLabels(o, lines, filterDirectives)
  {
    var x := Declared(o, SeenAt(lines, i)).value;
    var mips, depth := UsesMipsLabels(lines), DepthAfter(StartScan.custom, lines[..i]);
    forall s: Scan | s.custom == depth
      ensures x in ScanLine(o, filterDirectives, mips, s, lines[i]).used
    {
    }
    ScanKeepsAt(o, filterDirectives, mips, lines, StartScan, i, x);
  }

  /** The labels an instruction line refers to, as the scan sees the line, are used */
  lemma {:induction false} OpcodeReferencesAreUsed(o: Oracles, lines: seq<string>, filterDirectives: bool, i: nat, t: string)
    requires i < |lines| && SeenAt(lines, i) != [] && SeenAt(lines, i)[0] != '.' && HasOpcode(SeenAt(lines, i), false)
    requires t in LabelTokens(SeenAt(lines, i), UsesMipsLabels(lines))
    ensures t in FindUsedLabels(o, lines, filterDirectives)
  {
    assert StrongLine(o, filterDirectives, SeenAt(lines, i));
    StrongReferencesAreUsed(o, lines, filterDirectives, i, t);
  }

  /** The labels a line of `StrongLine` refers to, as the scan sees the line, are used */
  lemma {:induction false} StrongReferencesAreUsed(o: Oracles, lines: seq<string>, filterDirectives: bool, i: nat, t: string)
    requires i < |lines| && StrongLine(o, filterDirectives, SeenAt(lines, i))
    requires t in LabelTokens(SeenAt(lines, i), UsesMipsLabels(lines))
    ensures t in FindUsedLabels(o, lines, filterDirectives)
  {
    var mips, depth := UsesMipsLabels(lines), DepthAfter(StartScan.custom, lines[..i]);
    forall s: Scan | s.custom == depth
      ensures t in ScanLine(o, filterDirectives, mips, s, lines[i]).used
    {
    }
    ScanKeepsAt(o, filterDirectives, mips, lines, StartScan, i, t);
  }

  /** Without directive filtering no weak usage is recorded, so the used labels are exactly what the scan found */
  lemma {:induction false} UnfilteredUsesScanOnly(o: Oracles, lines: seq<string>)
    ensures FindUsedLabels(o, lines, false) == ScanAll(o, false, UsesMipsLabels(lines), lines, StartScan).used
  {
    var scan := ScanAll(o, false, UsesMipsLabels(lines), lines, StartScan);
    assert scan.weak == map[];
    CloseAtFixpoint(scan.used, scan.weak, MaxLabelIterations);
  }

  /** `p` is a weak chain of at most `n` steps from a label of `u` to `l` */
  predicate ChainTo(u: set<string>, weak: map<string, set<string>>, n: nat, p: seq<string>, l: string) {
    |p| > 0 && p[0] in u && |p| <= n + 1 && WeakPath(weak, p) && p[|p| - 1] == l
  }

  /**
   * The used labels are exactly the ends of weak chains of at most `n`
   * steps that start from a label the scan found used.
   */
  lemma {:induction false} CloseIsReachable(u: set<string>, weak: map<string, set<string>>, n: nat, l: string)
    ensures l in Close(u, weak, n) <==> exists p :: ChainTo(u, weak, n, p, l)
  {
    if l in Close(u, weak, n) {
      var p := CloseWitness(u, weak, n, l);
      assert ChainTo(u, weak, n, p, l);
    }
    if exists p :: ChainTo(u, weak, n, p, l) {
      var p :| ChainTo(u, weak, n, p, l);
      CloseReaches(u, weak, n, p);
    }
  }
}

=== FILE: llvm_dump.dfy ===
/**
 * `Pipeline.parseLLVMDump`: the text LLVM prints with `-print-before-all`
 * and `-print-after-all` is cut at every header line
 * `*** IR Dump Before/After ... ***` (back-end passes prefix it with `# `),
 * and consecutive pairs of sections become one `Pass` each, front-end
 * passes and back-end passes in two separately numbered lists.
 */
module LlvmDump {
  import opened Wrappers
  import opened Strings

  /** The `Pass` record: the pass name, the IR around it and its position in its list */
  datatype Pass = Pass(name: string, beforeIr: string, afterIr: string, index: nat, backend: bool)

  /** One line matching `^(# )?\*\*\* (.+) \*\*\*\:?$` */
  datatype Header = Header(sharp: bool, name: string, colon: bool)

  const Open: string := "*** "
  const SharpOpen: string := "# *** "
  const Close: string := " ***"
  const ColonClose: string := " ***:"

  function OpenOf(sharp: bool): string {
    if sharp then SharpOpen else Open
  }

  function CloseOf(colon: bool): string {
    if colon then ColonClose else Close
  }

  function HeaderText(h: Header): string {
    OpenOf(h.sharp) + h.name + CloseOf(h.colon)
  }

  /** A header may carry any non-empty name that stays on one line */
  predicate ValidHeader(h: Header) {
    h.name != [] && AllChars(h.name, IsDot)
  }

  /**
   * Recognises a header on a line without line terminators. The greedy
   * `(.+)` takes everything between `*** ` and the last ` ***`, the `:`
   * being optional; the `# ` group is used only when `# *** ` begins the line.
   */
  function ParseHeader(line: string): (r: Option<Header>)
  {
    var sharp := StartsWith(line, SharpOpen);
    var colon := !EndsWith(line, Close);
    var pre, post := OpenOf(sharp), CloseOf(colon);
    if StartsWith(line, pre) && EndsWith(line, post) && |pre| + |post| < |line| then
      Some(Header(sharp, line[|pre|..|line| - |post|], colon))
    else None
  }

  lemma {:induction false} Sandwich(line: string, pre: string, post: string)
    requires StartsWith(line, pre) && EndsWith(line, post) && |pre| + |post| <= |line|
    ensures line == pre + line[|pre|..|line| - |post|] + post
  {
    assert line == line[..|pre|] + line[|pre|..|line| - |post|] + line[|line| - |post|..];
  }

  /** A recognised header is exactly its line */
  lemma {:induction false} ParseHeaderText(line: string)
    requires AllChars(line, IsDot) && ParseHeader(line).Some?
    ensures var h := ParseHeader(line).value; ValidHeader(h) && HeaderText(h) == line
  {
    var h := ParseHeader(line).value;
    var pre, post := OpenOf(h.sharp), CloseOf(h.colon);
    Sandwich(line, pre, post);
    AllCharsSlice(line, |pre|, |line| - |post|, IsDot);
  }

  /** Every valid header line is recognised as itself */
  lemma {:induction false} HeaderTextParses(h: Header)
    requires ValidHeader(h)
    ensures ParseHeader(HeaderText(h)) == Some(h)
  {
    var pre, post := OpenOf(h.sharp), CloseOf(h.colon);
    var line := HeaderText(h);
    assert line[..|pre|] == pre;
    assert line[|line| - |post|..] == post;
    assert StartsWith(line, SharpOpen) == h.sharp by {
      if !h.sharp {
        assert line[0] == '*' != SharpOpen[0];
      }
    }
    assert EndsWith(line, Close) == !h.colon by {
      if h.colon {
        assert line[|line| - 1] == ':' != Close[|Close| - 1];
      }
    }
    assert line[|pre|..|line| - |post|] == h.name;
  }

  /** A section of the dump: its header line and the text up to the next header */
  datatype Section = Section(header: Header, body: string)

  /** `data.split(re)` before it is flattened into an array: the text before the first header, then the sections */
  datatype Dump = Dump(preamble: string, sections: seq<Section>)

  /** Where the line starting at `i` ends: the first line terminator at or after `i`, or the end */
  function LineEnd(s: string, i: nat): (j: nat)
    requires i <= |s|
    ensures i <= j <= |s|
  {
    i + Span(s[i..], IsDot)
  }

  /** The first line of `s` holds no line terminator */
  lemma {:induction false} FirstLine(s: string)
    ensures AllChars(s[..LineEnd(s, 0)], IsDot)
  {
    assert s[..LineEnd(s, 0)] == s[0..][..LineEnd(s, 0)];
  }

  /**
   * `data.split(/^(# )?\*\*\* (.+) \*\*\*\:?$/m)`, line by line: `s`
   * begins at the start of a line. A header line opens a section whose body
   * starts with the header's line terminator; any other line, with its
   * terminator, joins the text before the next header.
   */
  function SplitDump(s: string): (d: Dump)
    ensures d.preamble <= s
    ensures d.sections == [] ==> d.preamble == s
    decreases |s|
  {
    var j := LineEnd(s, 0);
    var after := if j == |s| then Dump([], []) else SplitDump(s[j + 1..]);
    var tail := if j == |s| then [] else [s[j]] + after.preamble;
    PreambleOfLine(s, j, after);
    match ParseHeader(s[..j])
    case Some(h) => Dump([], [Section(h, tail)] + after.sections)
    case None => Dump(s[..j] + tail, after.sections)
  }

  /** A first line that is not a header, its terminator and the preamble after it are a prefix of the text, all of it when no header follows */
  lemma {:induction false} PreambleOfLine(s: string, j: nat, after: Dump)
    requires j <= |s|
    requires j < |s| ==> after.preamble <= s[j + 1..] && (after.sections == [] ==> after.preamble == s[j + 1..])
    requires j == |s| ==> after == Dump([], [])
    ensures var p := s[..j] + (if j == |s| then [] else [s[j]] + after.preamble);
      p <= s && (after.sections == [] ==> p == s)
  {
    if j < |s| {
      var q := after.preamble;
      assert s == s[..j] + [s[j]] + s[j + 1..];
      assert s[..j] + ([s[j]] + q) == (s[..j] + [s[j]]) + q;
      assert (s[..j] + [s[j]]) + s[j + 1..][..|q|] == s[..j + 1 + |q|];
    } else {
      assert s[..j] == s;
    }
  }

  function Concat(ss: seq<Section>): string
    decreases |ss|
  {
    if ss == [] then [] else HeaderText(ss[0].header) + ss[0].body + Concat(ss[1..])
  }

  function Reassemble(d: Dump): string {
    d.preamble + Concat(d.sections)
  }

  /** Splitting loses nothing: the pieces put back together give the dump */
  lemma {:induction false} SplitDumpRoundTrip(s: string)
    ensures Reassemble(SplitDump(s)) == s
    decreases |s|
  {
    var j := LineEnd(s, 0);
    var after := if j == |s| then Dump([], []) else SplitDump(s[j + 1..]);
    if j < |s| {
      SplitDumpRoundTrip(s[j + 1..]);
    }
    var tail := if j == |s| then [] else [s[j]] + after.preamble;
    Rejoin(s, j, after.preamble, Concat(after.sections));
    if ParseHeader(s[..j]).Some? {
      FirstLine(s);
      ParseHeaderText(s[..j]);
      ConcatCons(Section(ParseHeader(s[..j]).value, tail), after.sections);
    }
  }

  /** The first line, its terminator and the rest make up the text */
  lemma {:induction false} Rejoin(s: string, j: nat, p: string, c: string)
    requires j <= |s|
    requires j < |s| ==> p + c == s[j + 1..]
    requires j == |s| ==> p == [] && c == []
    ensures var tail := if j == |s| then [] else [s[j]] + p;
      && s[..j] + tail + c == s
      && s[..j] + (tail + c) == s
  {
    if j < |s| {
      assert s == s[..j] + [s[j]] + s[j + 1..];
    }
  }

  lemma {:induction false} ConcatCons(sec: Section, ss: seq<Section>)
    ensures Concat([sec] + ss) == HeaderText(sec.header) + sec.body + Concat(ss)
  {
    assert ([sec] + ss)[1..] == ss;
  }

  predicate HeadersValid(d: Dump) {
    forall k :: 0 <= k < |d.sections| ==> ValidHeader(d.sections[k].header)
  }

  /** Every section's header is a valid header */
  lemma {:induction false} SplitDumpHeadersValid(s: string)
    ensures HeadersValid(SplitDump(s))
    decreases |s|
  {
    var j := LineEnd(s, 0);
    var after := if j == |s| then Dump([], []) else SplitDump(s[j + 1..]);
    if j < |s| {
      SplitDumpHeadersValid(s[j + 1..]);
    }
    if ParseHeader(s[..j]).Some? {
      FirstLine(s);
      ParseHeaderText(s[..j]);
      var tail := if j == |s| then [] else [s[j]] + after.preamble;
      HeadersValidCons(Section(ParseHeader(s[..j]).value, tail), after.sections);
    }
  }

  lemma {:induction false} HeadersValidCons(sec: Section, ss: seq<Section>)
    requires ValidHeader(sec.header) && HeadersValid(Dump([], ss))
    ensures HeadersValid(Dump([], [sec] + ss))
  {
    assert forall k :: 0 < k < |ss| + 1 ==> ([sec] + ss)[k] == ss[k - 1];
  }

  /** An element of the array `split` returns: a capture group that did not take part is `undefined` */
  datatype Piece = Undefined | Str(text: string)

  function SectionPieces(ss: seq<Section>): (r: seq<Piece>)
    ensures |r| == 3 * |ss|
    decreases |ss|
  {
    if ss == [] then []
    else
      var h := ss[0].header;
      [if h.sharp then Str("# ") else Undefined, Str(h.name), Str(ss[0].body)] + SectionPieces(ss[1..])
  }

  /** The flat array: the preamble, then for each header its `# ` group, its name group and the text after it */
  function Pieces(d: Dump): seq<Piece> {
    [Str(d.preamble)] + SectionPieces(d.sections)
  }

  /** `pass[k]`, `undefined` past the end */
  function At(pass: seq<Piece>, k: nat): Piece {
    if k < |pass| then pass[k] else Undefined
  }

  /** `s.substring(from)`: empty when `from` is past the end */
  function Substring(s: string, from: nat): (r: string)
    ensures |s| >= from ==> |r| == |s| - from
    ensures |s| <= from ==> r == []
  {
    if from <= |s| then s[from..] else []
  }

  /** The two lists a pipeline holds, and whether the parse ended in an exception */
  datatype Lists = Lists(passList: seq<Pass>, backendList: seq<Pass>, threw: bool)

  /** `this.passList.push(...)` or `this.backendList.push(...)`, numbered by the list's length */
  function Push(acc: Lists, name: string, before: string, after: string, backend: bool): Lists {
    if backend then acc.(backendList := acc.backendList + [Pass(name, before, after, |acc.backendList|, true)])
    else acc.(passList := acc.passList + [Pass(name, before, after, |acc.passList|, false)])
  }

  /** What one turn of the loop reads: `pass[i]`, `pass[i + 1]`, `pass[i + 2]`, `pass[i + 4]` and `pass[i + 5]` */
  datatype Group = Group(sharp: Piece, name: string, ir: string, ir2: string)

  /**
   * The pieces a turn reads at `i`, or None when `name2.substring(14)`
   * would throw because the second header is missing.
   */
  function GroupAt(pass: seq<Piece>, i: nat): Option<Group> {
    var name, ir, name2, ir2 := At(pass, i + 1), At(pass, i + 2), At(pass, i + 4), At(pass, i + 5);
    if name.Str? && ir.Str? && name2.Str? && ir2.Str? then Some(Group(At(pass, i), name.text, ir.text, ir2.text))
    else None
  }

  /**
   * The loop `for (i = 1; i < pass.length; i += 6)`. An exception ends the
   * parse with the passes pushed so far. The name and `# ` comparisons only
   * log, so they do not appear.
   */
  function ParseFrom(pass: seq<Piece>, i: nat, acc: Lists): (r: Lists)
    ensures acc.passList <= r.passList && acc.backendList <= r.backendList
    decreases |pass| - i
  {
    if i >= |pass| then acc
    else match GroupAt(pass, i)
      case None => acc.(threw := true)
      case Some(g) => ParseFrom(pass, i + 6, Push(acc, Substring(g.name, 15), g.ir, g.ir2, !g.sharp.Undefined?))
  }

  /** `parseLLVMDump(data)` on a pipeline whose lists are `front` and `back`: the passes already there stay, in place */
  function ParseLlvmDump(data: string, front: seq<Pass>, back: seq<Pass>): (r: Lists)
    ensures front <= r.passList && back <= r.backendList
  {
    ParseFrom(Pieces(SplitDump(data)), 1, Lists(front, back, false))
  }

  // Reference definition: one pass per pair of sections, then numbering per list.

  /** The passes pairs of sections describe, before numbering */
  function PairUp(ss: seq<Section>): (r: seq<Pass>)
    ensures |r| == |ss| / 2
    decreases |ss|
  {
    if |ss| < 2 then []
    else [Pass(Substring(ss[0].header.name, 15), ss[0].body, ss[1].body, 0, ss[0].header.sharp)] + PairUp(ss[2..])
  }

  function OfKind(ps: seq<Pass>, backend: bool): (r: seq<Pass>)
    ensures |r| <= |ps|
    ensures forall k :: 0 <= k < |r| ==> r[k].backend == backend
    decreases |ps|
  {
    if ps == [] then []
    else (if ps[0].backend == backend then [ps[0]] else []) + OfKind(ps[1..], backend)
  }

  /** Appends `ps` to `list`, each numbered by the length of the list it joins */
  function Enumerate(list: seq<Pass>, ps: seq<Pass>): (r: seq<Pass>)
    ensures |r| == |list| + |ps|
    decreases |ps|
  {
    if ps == [] then list else Enumerate(list + [ps[0].(index := |list|)], ps[1..])
  }

  /** Passes numbered 0, 1, 2, ... by position */
  predicate Numbered(list: seq<Pass>) {
    forall k :: 0 <= k < |list| ==> list[k].index == k
  }

  lemma {:induction false} EnumerateKeepsNumbering(list: seq<Pass>, ps: seq<Pass>)
    requires Numbered(list)
    ensures Numbered(Enumerate(list, ps))
    ensures Enumerate(list, ps)[..|list|] == list
    ensures forall k :: 0 <= k < |ps| ==> Enumerate(list, ps)[|list| + k] == ps[k].(index := |list| + k)
    decreases |ps|
  {
    if ps != [] {
      var list' := list + [ps[0].(index := |list|)];
      EnumerateKeepsNumbering(list', ps[1..]);
      assert list'[..|list|] == list;
      var r := Enumerate(list, ps);
      assert r[..|list|] == r[..|list'|][..|list|];
    }
  }

  lemma {:induction false} EnumerateSnoc(list: seq<Pass>, ps: seq<Pass>, p: Pass)
    ensures Enumerate(list, ps + [p]) == Enumerate(list, ps) + [p.(index := |list| + |ps|)]
    decreases |ps|
  {
    if ps == [] {
      assert [] + [p] == [p];
    } else {
      assert (ps + [p])[1..] == ps[1..] + [p];
      EnumerateSnoc(list + [ps[0].(index := |list|)], ps[1..], p);
    }
  }

  lemma {:induction false} OfKindSnoc(ps: seq<Pass>, p: Pass, backend: bool)
    ensures OfKind(ps + [p], backend) == OfKind(ps, backend) + (if p.backend == backend then [p] else [])
    decreases |ps|
  {
    if ps == [] {
      assert [] + [p] == [p];
    } else {
      assert (ps + [p])[1..] == ps[1..] + [p];
      OfKindSnoc(ps[1..], p, backend);
    }
  }

  /** The sections, in pairs from the front, as the loop consumes them */
  function Consume(ss: seq<Section>, acc: Lists): Lists
    decreases |ss|
  {
    if |ss| == 0 then acc
    else if |ss| == 1 then acc.(threw := true)
    else Consume(ss[2..], Push(acc, Substring(ss[0].header.name, 15), ss[0].body, ss[1].body, ss[0].header.sharp))
  }

  /** The index arithmetic of the loop walks the sections two at a time */
  lemma {:induction false} ParseFromConsumes(x: Piece, ss: seq<Section>, acc: Lists)
    requires !acc.threw
    ensures ParseFrom([x] + SectionPieces(ss), 1, acc) == Consume(ss, acc)
    decreases |ss|
  {
    if |ss| == 1 {
      ParseFromLast(x, ss, acc);
    } else if |ss| >= 2 {
      ParseFromPair(x, ss, acc);
      ParseFromConsumes(Str(ss[1].body), ss[2..], Push(acc, Substring(ss[0].header.name, 15), ss[0].body, ss[1].body, ss[0].header.sharp));
    }
  }

  /** A header without a partner: `name2` is `undefined` */
  lemma {:induction false} ParseFromLast(x: Piece, ss: seq<Section>, acc: Lists)
    requires |ss| == 1
    ensures ParseFrom([x] + SectionPieces(ss), 1, acc) == acc.(threw := true)
  {
    assert At([x] + SectionPieces(ss), 5).Undefined?;
  }

  lemma {:induction false} SectionPiecesPair(ss: seq<Section>)
    requires |ss| >= 2
    ensures var h0, h1 := ss[0].header, ss[1].header;
      SectionPieces(ss) == [if h0.sharp then Str("# ") else Undefined, Str(h0.name), Str(ss[0].body)]
        + [if h1.sharp then Str("# ") else Undefined, Str(h1.name), Str(ss[1].body)] + SectionPieces(ss[2..])
  {
    assert ss[1..][1..] == ss[2..];
  }

  /** One turn of the loop: the first two sections become one pass, and the loop goes on at the third */
  lemma {:induction false} ParseFromPair(x: Piece, ss: seq<Section>, acc: Lists)
    requires |ss| >= 2
    ensures ParseFrom([x] + SectionPieces(ss), 1, acc)
      == ParseFrom([Str(ss[1].body)] + SectionPieces(ss[2..]), 1,
                   Push(acc, Substring(ss[0].header.name, 15), ss[0].body, ss[1].body, ss[0].header.sharp))
  {
    var pass := [x] + SectionPieces(ss);
    GroupOfPair(x, ss);
    ParseFromShift(pass, 6, 7, Push(acc, Substring(ss[0].header.name, 15), ss[0].body, ss[1].body, ss[0].header.sharp));
  }

  lemma {:induction false} GroupOfPair(x: Piece, ss: seq<Section>)
    requires |ss| >= 2
    ensures var pass := [x] + SectionPieces(ss);
      && GroupAt(pass, 1) == Some(Group(if ss[0].header.sharp then Str("# ") else Undefined, ss[0].header.name, ss[0].body, ss[1].body))
      && pass[6..] == [Str(ss[1].body)] + SectionPieces(ss[2..])
  {
    var h0, h1 := ss[0].header, ss[1].header;
    SectionPiecesPair(ss);
    var a := [if h0.sharp then Str("# ") else Undefined, Str(h0.name), Str(ss[0].body)];
    var b := [if h1.sharp then Str("# ") else Undefined, Str(h1.name), Str(ss[1].body)];
    Layout(x, a, b, SectionPieces(ss[2..]));
    assert b[2..] == [Str(ss[1].body)];
  }

  /** Where the pieces of `[x] + a + b + c` sit, for three-piece `a` and `b` */
  lemma {:induction false} Layout(x: Piece, a: seq<Piece>, b: seq<Piece>, c: seq<Piece>)
    requires |a| == 3 && |b| == 3
    ensures var pass := [x] + (a + b + c);
      && pass[1] == a[0] && pass[2] == a[1] && pass[3] == a[2]
      && pass[4] == b[0] && pass[5] == b[1] && pass[6..] == b[2..] + c
  {
  }

  /** The loop only looks at the array from its current index on */
  lemma {:induction false} ParseFromShift(pass: seq<Piece>, d: nat, i: nat, acc: Lists)
    requires d <= i && d <= |pass|
    ensures ParseFrom(pass, i, acc) == ParseFrom(pass[d..], i - d, acc)
    decreases |pass| - i
  {
    if i < |pass| {
      assert GroupAt(pass, i) == GroupAt(pass[d..], i - d) by {
        forall k | i <= k <= i + 5
          ensures At(pass, k) == At(pass[d..], k - d)
        {
        }
      }
      match GroupAt(pass, i)
      case Some(g) =>
        ParseFromShift(pass, d, i + 6, Push(acc, Substring(g.name, 15), g.ir, g.ir2, !g.sharp.Undefined?));
      case None =>
    }
  }

  /** Pair by pair, the loop builds exactly the reference lists */
  lemma {:induction false} ConsumeSpec(ss: seq<Section>, acc: Lists)
    requires !acc.threw
    ensures var r := Consume(ss, acc);
      && r.passList == Enumerate(acc.passList, OfKind(PairUp(ss), false))
      && r.backendList == Enumerate(acc.backendList, OfKind(PairUp(ss), true))
      && r.threw == (|ss| % 2 == 1)
    decreases |ss|
  {
    if |ss| >= 2 {
      var p := Pass(Substring(ss[0].header.name, 15), ss[0].body, ss[1].body, 0, ss[0].header.sharp);
      var acc' := Push(acc, p.name, p.beforeIr, p.afterIr, p.backend);
      ConsumeSpec(ss[2..], acc');
      assert PairUp(ss) == [p] + PairUp(ss[2..]);
      PushSpec(acc, p, PairUp(ss[2..]), false);
      PushSpec(acc, p, PairUp(ss[2..]), true);
    }
  }

  /** Pushing one pass and then the rest is the reference list for the pass followed by the rest */
  lemma {:induction false} PushSpec(acc: Lists, p: Pass, ps: seq<Pass>, backend: bool)
    ensures var acc' := Push(acc, p.name, p.beforeIr, p.afterIr, p.backend);
      var list := if backend then acc.backendList else acc.passList;
      var list' := if backend then acc'.backendList else acc'.passList;
      Enumerate(list', OfKind(ps, backend)) == Enumerate(list, OfKind([p] + ps, backend))
  {
    var list := if backend then acc.backendList else acc.passList;
    OfKindCons(p, ps, backend);
    if p.backend == backend {
      EnumerateAppend(list, [p], OfKind(ps, backend));
      assert Enumerate(list, [p]) == list + [p.(index := |list|)];
    } else {
      assert [] + OfKind(ps, backend) == OfKind(ps, backend);
    }
  }

  lemma {:induction false} OfKindCons(p: Pass, ps: seq<Pass>, backend: bool)
    ensures OfKind([p] + ps, backend) == (if p.backend == backend then [p] else []) + OfKind(ps, backend)
  {
    assert ([p] + ps)[1..] == ps;
  }

  lemma {:induction false} EnumerateAppend(list: seq<Pass>, a: seq<Pass>, b: seq<Pass>)
    ensures Enumerate(list, a + b) == Enumerate(Enumerate(list, a), b)
    decreases |a|
  {
    if a == [] {
      assert a + b == b;
    } else {
      assert (a + b)[1..] == a[1..] + b;
      EnumerateAppend(list + [a[0].(index := |list|)], a[1..], b);
    }
  }

  /**
   * What `parseLLVMDump` adds: one pass per pair of consecutive sections,
   * front-end passes (no `# `) to the first list and back-end passes to the
   * second, each numbered by its list's length; an odd number of headers
   * ends in an exception after the complete pairs.
   */
  lemma {:induction false} ParseLlvmDumpSpec(data: string, front: seq<Pass>, back: seq<Pass>)
    ensures var ss := SplitDump(data).sections;
      var r := ParseLlvmDump(data, front, back);
      && r.passList == Enumerate(front, OfKind(PairUp(ss), false))
      && r.backendList == Enumerate(back, OfKind(PairUp(ss), true))
      && r.threw == (|ss| % 2 == 1)
  {
    var d := SplitDump(data);
    ParseFromConsumes(Str(d.preamble), d.sections, Lists(front, back, false));
    ConsumeSpec(d.sections, Lists(front, back, false));
  }

  /** Lists that start numbered stay numbered, and every header pair lands in exactly one of them */
  lemma {:induction false} ParseLlvmDumpNumbering(data: string, front: seq<Pass>, back: seq<Pass>)
    requires Numbered(front) && Numbered(back)
    ensures var r := ParseLlvmDump(data, front, back);
      && Numbered(r.passList) && Numbered(r.backendList)
      && |r.passList| + |r.backendList| == |front| + |back| + |SplitDump(data).sections| / 2
  {
    var ps := PairUp(SplitDump(data).sections);
    ParseLlvmDumpSpec(data, front, back);
    EnumerateKeepsNumbering(front, OfKind(ps, false));
    EnumerateKeepsNumbering(back, OfKind(ps, true));
    OfKindSplits(ps);
  }

  lemma {:induction false} OfKindSplits(ps: seq<Pass>)
    ensures |OfKind(ps, false)| + |OfKind(ps, true)| == |ps|
    decreases |ps|
  {
    if ps != [] {
      OfKindSplits(ps[1..]);
    }
  }
}

=== FILE: paths.dfy ===
/**
 * The two pure helpers of the document provider: `pathWithoutExtension`, and
 * the `${name}` substitution step of `resolvePath` with its variable table
 * passed in as a map (the table's values come from the workspace and from
 * `Path`, which are not part of this model).
 */
module Paths {
  import opened Wrappers
  import opened Strings

  /**
   * `path.slice(0, path.lastIndexOf('.')) || path`. Without a `.` the end
   * index is -1, which `slice` reads as "all but the last character"; an
   * empty slice falls back to the whole path.
   */
  function PathWithoutExtension(path: string): (r: string)
    ensures StartsWith(path, r)
    ensures r == [] <==> path == []
  {
    var dot := LastIndexOf(path, '.');
    var cut := if dot >= 0 then path[..dot] else if path == [] then [] else path[..|path| - 1];
    if cut == [] then path else cut
  }

  /** `stem.ext` loses `.ext` when the stem is not empty and the extension holds no `.` */
  lemma {:induction false} WithoutExtensionDropsExtension(stem: string, ext: string)
    requires stem != [] && '.' !in ext
    ensures PathWithoutExtension(stem + ['.'] + ext) == stem
  {
    var path := stem + ['.'] + ext;
    var dot := LastIndexOf(path, '.');
    assert path[|stem|] == '.';
    assert forall i :: |stem| < i < |path| ==> path[i] == ext[i - |stem| - 1];
    assert dot == |stem|;
    assert path[..dot] == stem;
  }

  /** A path whose only `.` is its first character is returned unchanged */
  lemma {:induction false} WithoutExtensionLeadingDot(ext: string)
    requires '.' !in ext
    ensures PathWithoutExtension(['.'] + ext) == ['.'] + ext
  {
    var path := ['.'] + ext;
    assert forall i :: 0 < i < |path| ==> path[i] == ext[i - 1];
    assert path[0] == '.';
    assert LastIndexOf(path, '.') == 0;
  }

  /** Without any `.`, the last character goes, unless that leaves nothing */
  lemma {:induction false} WithoutExtensionNoDot(path: string)
    requires '.' !in path
    ensures |path| >= 2 ==> PathWithoutExtension(path) == path[..|path| - 1]
    ensures |path| < 2 ==> PathWithoutExtension(path) == path
  {
    assert LastIndexOf(path, '.') == -1;
  }

  predicate IsNameChar(c: char) {
    c != '}' && !IsLineTerminator(c)
  }

  /**
   * Where `\$\{(.*?)\}` closes when it opens at the start of `t`: the
   * index of the first `}` after the `${`, provided no line terminator
   * comes before it (the lazy `.*?` cannot cross one).
   */
  function PlaceholderEnd(t: string): (r: Option<nat>)
    ensures r.Some? ==> 2 <= r.value < |t| && t[r.value] == '}'
    ensures r.Some? ==> forall i :: 2 <= i < r.value ==> IsNameChar(t[i])
  {
    if |t| >= 2 && t[0] == '$' && t[1] == '{' then
      var n := Span(t[2..], IsNameChar);
      if 2 + n < |t| && t[2 + n] == '}' then Some(2 + n) else None
    else None
  }

  /** `c` occurs in the value of some variable */
  predicate InValues(vars: map<string, string>, c: char) {
    exists name :: name in vars && c in vars[name]
  }

  /**
   * `rule.replace(/\$\{(.*?)\}/g, ...)`: every `${name}` whose name is a
   * key of `vars` becomes its value; any other placeholder stays as written.
   */
  function Substitute(rule: string, vars: map<string, string>): (r: string)
    ensures forall c :: c in r ==> c in rule || InValues(vars, c)
    decreases |rule|
  {
    if rule == [] then []
    else match PlaceholderEnd(rule)
      case Some(k) =>
        var name := rule[2..k];
        (if name in vars then vars[name] else rule[..k + 1]) + Substitute(rule[k + 1..], vars)
      case None => [rule[0]] + Substitute(rule[1..], vars)
  }

  predicate NoPlaceholderOpen(s: string) {
    forall i :: 0 <= i < |s| - 1 ==> !(s[i] == '$' && s[i + 1] == '{')
  }

  /** Text without any `${` comes back unchanged */
  lemma {:induction false} SubstituteWithoutPlaceholders(rule: string, vars: map<string, string>)
    requires NoPlaceholderOpen(rule)
    ensures Substitute(rule, vars) == rule
    decreases |rule|
  {
    if rule != [] {
      assert PlaceholderEnd(rule).None? by {
        if |rule| >= 2 {
          assert !(rule[0] == '$' && rule[1] == '{');
        }
      }
      assert NoPlaceholderOpen(rule[1..]) by {
        forall i | 0 <= i < |rule[1..]| - 1
          ensures !(rule[1..][i] == '$' && rule[1..][i + 1] == '{')
        {
          assert rule[1..][i] == rule[i + 1] && rule[1..][i + 1] == rule[i + 2];
        }
      }
      SubstituteWithoutPlaceholders(rule[1..], vars);
      assert rule == [rule[0]] + rule[1..];
    }
  }

  /** With no variables at all, every placeholder stays verbatim */
  lemma {:induction false} SubstituteNothingKnown(rule: string)
    ensures Substitute(rule, map[]) == rule
    decreases |rule|
  {
    if rule != [] {
      SubstituteNothingKnown(rule[1..]);
      match PlaceholderEnd(rule)
      case Some(k) =>
        SubstituteNothingKnown(rule[k + 1..]);
        assert rule == rule[..k + 1] + rule[k + 1..];
      case None =>
        assert rule == [rule[0]] + rule[1..];
    }
  }

  /** Text free of `$` passes through, and substitution resumes after it */
  lemma {:induction false} SubstitutePlainPrefix(a: string, rest: string, vars: map<string, string>)
    requires '$' !in a
    ensures Substitute(a + rest, vars) == a + Substitute(rest, vars)
    decreases |a|
  {
    if a != [] {
      var s := a + rest;
      assert s[0] == a[0] && a[0] != '$';
      assert PlaceholderEnd(s).None?;
      assert s[1..] == a[1..] + rest;
      SubstitutePlainPrefix(a[1..], rest, vars);
      assert a == [a[0]] + a[1..];
    } else {
      assert a + rest == rest;
    }
  }

  /** One `${name}` after `$`-free text: a known name becomes its value, an unknown one stays as written */
  lemma {:induction false} SubstituteOne(a: string, name: string, b: string, vars: map<string, string>)
    requires '$' !in a
    requires forall i :: 0 <= i < |name| ==> IsNameChar(name[i])
    ensures var p := ['$', '{'] + name + ['}'];
      Substitute(a + p + b, vars) == a + (if name in vars then vars[name] else p) + Substitute(b, vars)
  {
    var p := ['$', '{'] + name + ['}'];
    var v := if name in vars then vars[name] else p;
    assert a + p + b == a + (p + b);
    SubstitutePlainPrefix(a, p + b, vars);
    SubstituteAtPlaceholder(name, b, vars);
    Regroup(a, v, Substitute(b, vars));
  }

  lemma {:induction false} Regroup(a: string, v: string, r: string)
    ensures a + (v + r) == a + v + r
  {
  }

  lemma {:induction false} SubstituteAtPlaceholder(name: string, b: string, vars: map<string, string>)
    requires forall i :: 0 <= i < |name| ==> IsNameChar(name[i])
    ensures var p := ['$', '{'] + name + ['}'];
      Substitute(p + b, vars) == (if name in vars then vars[name] else p) + Substitute(b, vars)
  {
    var p := ['$', '{'] + name + ['}'];
    var t := p + b;
    PlaceholderOf(name, b);
    assert t[2..2 + |name|] == name;
    assert t[..2 + |name| + 1] == p;
    assert t[2 + |name| + 1..] == b;
  }

  lemma {:induction false} PlaceholderOf(name: string, b: string)
    requires forall i :: 0 <= i < |name| ==> IsNameChar(name[i])
    ensures PlaceholderEnd(['$', '{'] + name + ['}'] + b) == Some(2 + |name|)
  {
    var t := ['$', '{'] + name + ['}'] + b;
    assert t[2..] == name + ['}'] + b;
    var n := Span(t[2..], IsNameChar);
    assert forall i :: 0 <= i < |name| ==> t[2..][i] == name[i];
    assert t[2..][|name|] == '}';
    assert n == |name|;
  }
}

=== FILE: source_tracking.dfy ===
/**
 * The source-position directives of a compiler's assembly listing, as the
 * text-mode pass of `AsmParser` reads them: `.file` tables (`parseFiles`),
 * `.loc` and `.d2line` (`handleSource`), `.stabn` (`handleStabs`) and the
 * 6502 `.dbg line` form (`handle6502`). Each recogniser is a hand-written
 * matcher for one regular expression of src/asm.ts.
 */
module SourceTracking {
  import opened Wrappers
  import opened Strings
  import opened AsmModel
  import opened AsmPatterns

  /** `kw` at the start of `s`: what follows it */
  function Keyword(s: string, kw: string): (r: Option<string>)
    ensures r.Some? <==> StartsWith(s, kw)
    ensures r.Some? ==> s == kw + r.value
  {
    if StartsWith(s, kw) then Some(s[|kw|..]) else None
  }

  /** `\s+` at the start of `s`: what follows the whole run */
  function Spaces(s: string): (r: Option<string>)
    ensures r.Some? ==> |r.value| < |s| && r.value == TrimStart(s)
    ensures r.None? <==> s == [] || !IsSpace(s[0])
  {
    var n := Span(s, IsSpace);
    if n == 0 then None else Some(s[n..])
  }

  /** `\d+` at the start of `s`: the value of the whole run, and what follows it */
  function Number(s: string): (r: Option<(nat, string)>)
    ensures r.None? <==> s == [] || !IsDigit(s[0])
    ensures r.Some? ==> |r.value.1| < |s| && (r.value.1 == [] || !IsDigit(r.value.1[0]))
  {
    var n := Span(s, IsDigit);
    if n == 0 then None
    else
      assert AllChars(s[..n], IsDigit) by {
        assert forall k :: 0 <= k < n ==> s[..n][k] == s[k];
      }
      Some((DecimalValue(s[..n]), s[n..]))
  }

  /** `"([^"]+)"` at the start of `s`: the quoted text, and what follows the closing quote */
  function Quoted(s: string): (r: Option<(string, string)>)
    ensures r.Some? ==> r.value.0 != [] && '"' !in r.value.0 && s == "\"" + r.value.0 + "\"" + r.value.1
  {
    match Keyword(s, "\"")
    case None => None
    case Some(t) =>
      var n := Span(t, c => c != '"');
      if 0 < n < |t| then
        assert t == t[..n] + "\"" + t[n + 1..];
        Some((t[..n], t[n + 1..]))
      else None
  }

  /** What follows `^\s*\.` and the directive's name */
  function Directive(line: string, name: string): (r: Option<string>)
  {
    match AfterDot(line)
    case None => None
    case Some(u) => Keyword(u, name)
  }

  // ---------------------------------------------------------------- .file

  /** `.file N "dir"` or `.file N "dir" "name"` */
  datatype FileDirective = FileDirective(index: nat, dir: string, name: Option<string>)

  /** The second quoted part of `fileFind`, `(\s+"([^"]+)")?`: absent unless it matches whole */
  function SecondName(s: string): (r: Option<string>)
    ensures r.Some? ==> r.value != []
  {
    match Spaces(s)
    case None => None
    case Some(t) =>
      match Quoted(t)
      case None => None
      case Some(q) => Some(q.0)
  }

  /** `fileFind`, `/^\s*\.file\s+(\d+)\s+"([^"]+)"(\s+"([^"]+)")?.*` */
  function FileFind(line: string): (r: Option<FileDirective>)
    ensures r.Some? ==> r.value.dir != [] && '"' !in r.value.dir
    ensures r.Some? && r.value.name.Some? ==> r.value.name.value != []
  {
    match Directive(line, "file")
    case None => None
    case Some(a) =>
      match Spaces(a)
      case None => None
      case Some(b) =>
        match Number(b)
        case None => None
        case Some(index) =>
          match Spaces(index.1)
          case None => None
          case Some(c) =>
            match Quoted(c)
            case None => None
            case Some(dir) => Some(FileDirective(index.0, dir.0, SecondName(dir.1)))
  }

  /** The path a directive names: clang's `dir/name`, or the one quoted part */
  function FilePath(d: FileDirective): (r: string)
    ensures r != [] || d.dir == []
  {
    match d.name
    case Some(name) => d.dir + "/" + name
    case None => d.dir
  }

  /** The `.file` directive each line holds, if any */
  function FileDirectives(lines: seq<string>): (ds: seq<Option<FileDirective>>)
    ensures |ds| == |lines| && forall i :: 0 <= i < |lines| ==> ds[i] == FileFind(lines[i])
  {
    if lines == [] then []
    else FileDirectives(lines[..|lines| - 1]) + [FileFind(lines[|lines| - 1])]
  }

  /** Directives as `fileFind` yields them: the quoted directory part is never empty */
  predicate WellFormed(ds: seq<Option<FileDirective>>) {
    forall i :: 0 <= i < |ds| && ds[i].Some? ==> ds[i].value.dir != []
  }

  /** The table built from a run of directives: a later one with the same number replaces an earlier one */
  function Table(ds: seq<Option<FileDirective>>): (files: map<nat, string>)
    requires WellFormed(ds)
    ensures forall n :: n in files ==> files[n] != []
  {
    if ds == [] then map[]
    else
      var files := Table(ds[..|ds| - 1]);
      match ds[|ds| - 1]
      case None => files
      case Some(d) => files[d.index := FilePath(d)]
  }

  /** `parseFiles`: file number to path, over every line of the listing */
  function ParseFiles(lines: seq<string>): (files: map<nat, string>)
    ensures forall n :: n in files ==> files[n] != []
  {
    Table(FileDirectives(lines))
  }

  predicate Names(d: Option<FileDirective>, n: nat) {
    d.Some? && d.value.index == n
  }

  /** The table has an entry for exactly the numbers some directive names */
  lemma {:induction false} TableKeys(ds: seq<Option<FileDirective>>, n: nat)
    requires WellFormed(ds)
    ensures n in Table(ds) <==> exists i :: 0 <= i < |ds| && Names(ds[i], n)
    decreases |ds|
  {
    if ds != [] {
      var init := ds[..|ds| - 1];
      TableKeys(init, n);
      if exists i :: 0 <= i < |init| && Names(init[i], n) {
        var i :| 0 <= i < |init| && Names(init[i], n);
        assert ds[i] == init[i];
      }
      if exists i :: 0 <= i < |ds| && Names(ds[i], n) {
        var i :| 0 <= i < |ds| && Names(ds[i], n);
        if i < |init| {
          assert init[i] == ds[i];
        }
      }
    }
  }

  /** The path of the last directive with a given number is the one the table keeps */
  lemma {:induction false} TableLastWins(ds: seq<Option<FileDirective>>, i: nat, d: FileDirective)
    requires WellFormed(ds) && i < |ds| && ds[i] == Some(d)
    requires forall j :: i < j < |ds| ==> !Names(ds[j], d.index)
    ensures d.index in Table(ds) && Table(ds)[d.index] == FilePath(d)
    decreases |ds|
  {
    var init := ds[..|ds| - 1];
    if i < |ds| - 1 {
      assert init[i] == ds[i];
      assert !Names(ds[|ds| - 1], d.index);
      TableLastWins(init, i, d);
    }
  }

  /** `parseFiles` maps exactly the numbers some `.file` line names */
  lemma {:induction false} ParseFilesKeys(lines: seq<string>, n: nat)
    ensures n in ParseFiles(lines) <==> exists i :: 0 <= i < |lines| && Names(FileFind(lines[i]), n)
  {
    var ds := FileDirectives(lines);
    TableKeys(ds, n);
    if exists i :: 0 <= i < |lines| && Names(FileFind(lines[i]), n) {
      var i :| 0 <= i < |lines| && Names(FileFind(lines[i]), n);
      assert Names(ds[i], n);
    }
  }

  /** The last `.file` line with a given number decides its path */
  lemma {:induction false} LastFileDirectiveWins(lines: seq<string>, i: nat, d: FileDirective)
    requires i < |lines| && FileFind(lines[i]) == Some(d)
    requires forall j :: i < j < |lines| ==> !Names(FileFind(lines[j]), d.index)
    ensures d.index in ParseFiles(lines) && ParseFiles(lines)[d.index] == FilePath(d)
  {
    var ds := FileDirectives(lines);
    TableLastWins(ds, i, d);
  }

  // ---------------------------------------------------------------- .loc and .d2line

  /** The groups of `sourceTag`, the last one through `parseInt` */
  datatype Loc = Loc(file: nat, line: nat, column: Option<int>)

  /** A directive begins, after white space, with its dot and name */
  lemma {:induction false} DirectiveStarts(line: string, name: string, dotted: string)
    requires dotted == "." + name
    ensures Directive(line, name).Some? ==> StartsWith(TrimStart(line), dotted)
  {
    var t := TrimStart(line);
    if Directive(line, name).Some? {
      assert t[0] == '.' && StartsWith(t[1..], name);
      assert t[..1 + |name|] == [t[0]] + t[1..][..|name|];
    }
  }

  /** `sourceTag`, `/^\s*\.loc\s+(\d+)\s+(\d+)\s+(.*)/`: the trailing `\s+` is required */
  function LocTag(line: string): (r: Option<Loc>)
    ensures r.Some? ==> StartsWith(TrimStart(line), ".loc")
  {
    DirectiveStarts(line, "loc", ".loc");
    match Directive(line, "loc")
    case None => None
    case Some(a) => LocOperands(a)
  }

  /** What `sourceTag` reads after `.loc`: white space, the file number, white space, the line number, white space, the rest */
  function LocOperands(a: string): Option<Loc> {
    match Spaces(a)
    case None => None
    case Some(b) =>
      match Number(b)
      case None => None
      case Some(file) =>
        match Spaces(file.1)
        case None => None
        case Some(c) =>
          match Number(c)
          case None => None
          case Some(ln) =>
            match Spaces(ln.1)
            case None => None
            case Some(rest) => Some(Loc(file.0, ln.0, JsParseInt(rest)))
  }

  /** `sourceD2Tag`, `/^\s*\.d2line\s+(\d+),?\s*(\d*).*`: only the first number is read */
  function D2Tag(line: string): Option<nat> {
    match Directive(line, "d2line")
    case None => None
    case Some(a) =>
      match Spaces(a)
      case None => None
      case Some(b) =>
        match Number(b)
        case None => None
        case Some(n) => Some(n.0)
  }

  /** `stdInLooking`, `/.*<stdin>|^-$|example\.[^/]+$|<source>/` */
  predicate StdInLooking(file: string) {
    Contains(file, "<stdin>") || file == "-" || (exists i :: 0 <= i < |file| && ExampleAt(file, i)) || Contains(file, "<source>")
  }

  /** `example\.[^/]+$` matching at index `i` */
  predicate ExampleAt(file: string, i: nat) {
    i + 8 < |file| && file[i..i + 8] == "example." && '/' !in file[i + 8..]
  }

  /**
   * `handleSource`: a `.loc` whose file number is in the table starts a new
   * position (the file hidden when it looks like standard input, the column
   * kept only when it parses to a non-zero number); one whose number is not
   * in the table clears the position; a `.d2line` sets a line without file.
   */
  function HandleSource(files: map<nat, string>, source: Option<AsmSource>, line: string): (r: Option<AsmSource>)
    ensures AfterDot(line).None? ==> r == source
    ensures r != source && r.Some? && r.value.file.Some? ==>
      r.value.file.value in files.Values && !StdInLooking(r.value.file.value)
  {
    match LocTag(line)
    case Some(loc) =>
      if loc.file in files && files[loc.file] != [] then
        var file := files[loc.file];
        var s := NewSource(if StdInLooking(file) then None else Some(file), loc.line);
        Some(if loc.column.Some? && loc.column.value != 0 then s.(column := loc.column.value) else s)
      else None
    case None =>
      match D2Tag(line)
      case Some(n) => Some(NewSource(None, n))
      case None => source
  }

  // ---------------------------------------------------------------- .stabn

  datatype Stab = Stab(kind: nat, line: nat)

  /** `sourceStab`, `/^\s*\.stabn\s+(\d+),0,(\d+),.*` */
  function StabTag(line: string): Option<Stab> {
    match Directive(line, "stabn")
    case None => None
    case Some(a) =>
      match Spaces(a)
      case None => None
      case Some(b) =>
        match Number(b)
        case None => None
        case Some(kind) =>
          match Keyword(kind.1, ",0,")
          case None => None
          case Some(c) =>
            match Number(c)
            case None => None
            case Some(ln) =>
              match Keyword(ln.1, ",")
              case None => None
              case Some(_) => Some(Stab(kind.0, ln.0))
  }

  /**
   * Source position and previous label, as the pass carries them; the pass
   * only tests the previous label for truthiness, and every label it records
   * is a non-empty match, so a flag stands for it.
   */
  datatype Position = Position(source: Option<AsmSource>, prevLabel: bool)

  /** `handleStabs`: type 68 (N_SLINE) sets a line without file; 100 (N_SO) and 132 (N_SOL) forget position and label */
  function HandleStabs(pos: Position, line: string): (r: Position)
    ensures AfterDot(line).None? ==> r == pos
    ensures r.prevLabel ==> pos.prevLabel
    ensures !r.prevLabel && pos.prevLabel ==> r.source.None?
  {
    match StabTag(line)
    case None => pos
    case Some(stab) =>
      if stab.kind == 68 then pos.(source := Some(NewSource(None, stab.line)))
      else if stab.kind == 100 || stab.kind == 132 then Position(None, false)
      else pos
  }

  // ---------------------------------------------------------------- 6502

  /** `source6502Dbg`, `/^\s*\.dbg\s+line,\s*"([^"]+)",\s*(\d+)/`: file and line */
  function Dbg6502(line: string): Option<(string, nat)> {
    match Directive(line, "dbg")
    case None => None
    case Some(a) =>
      match Spaces(a)
      case None => None
      case Some(b) =>
        match Keyword(b, "line,")
        case None => None
        case Some(c) =>
          match Quoted(TrimStart(c))
          case None => None
          case Some(q) =>
            match Keyword(q.1, ",")
            case None => None
            case Some(d) =>
              match Number(TrimStart(d))
              case None => None
              case Some(n) => Some((q.0, n.0))
  }

  /** `source6502DbgEnd`, `/^\s*\.dbg\s+line[^,]/` */
  predicate Dbg6502End(line: string) {
    match Directive(line, "dbg")
    case None => false
    case Some(a) =>
      match Spaces(a)
      case None => false
      case Some(b) =>
        match Keyword(b, "line")
        case None => false
        case Some(c) => c != [] && c[0] != ','
  }

  /** `handle6502` */
  function Handle6502(source: Option<AsmSource>, line: string): (r: Option<AsmSource>)
    ensures AfterDot(line).None? ==> r == source
    ensures r != source && r.Some? && r.value.file.Some? ==> !StdInLooking(r.value.file.value)
  {
    match Dbg6502(line)
    case Some(d) => Some(NewSource(if StdInLooking(d.0) then None else Some(d.0), d.1))
    case None => if Dbg6502End(line) then None else source
  }

  // ---------------------------------------------------------------- directives as compilers print them

  /** One blank before text that does not start with white space */
  lemma {:induction false} SpaceOf(x: string)
    requires x == [] || !IsSpace(x[0])
    ensures Spaces(" " + x) == Some(x)
  {
    var s := " " + x;
    assert IsSpace(s[0]);
    SpanExact(s, 1, IsSpace);
    assert s[1..] == x;
  }

  /** One blank before a number */
  lemma {:induction false} SpaceBeforeNumber(n: nat, x: string)
    ensures Spaces(" " + (ToDecimal(n) + x)) == Some(ToDecimal(n) + x)
  {
    var d := ToDecimal(n);
    assert (d + x)[0] == d[0] && IsDigit(d[0]);
    SpaceIsNotPrintable(d[0]);
    SpaceOf(d + x);
  }

  /** A number on its own, and after one blank */
  lemma {:induction false} NumberAlone(l: nat)
    ensures Spaces(" " + ToDecimal(l)) == Some(ToDecimal(l)) && Number(ToDecimal(l)) == Some((l, []))
  {
    var n := ToDecimal(l);
    assert n + [] == n;
    SpaceBeforeNumber(l, []);
    NumberOf(l, []);
  }

  /** One blank before a double quote */
  lemma {:induction false} SpaceBeforeQuote(x: string)
    ensures Spaces(" " + ("\"" + x)) == Some("\"" + x)
  {
    SpaceIsNotPrintable('"');
    SpaceOf("\"" + x);
  }

  lemma {:induction false} NumberOf(n: nat, x: string)
    requires x == [] || !IsDigit(x[0])
    ensures Number(ToDecimal(n) + x) == Some((n, x))
  {
    var d := ToDecimal(n);
    var s := d + x;
    assert forall k :: 0 <= k < |d| ==> s[k] == d[k];
    SpanExact(s, |d|, IsDigit);
    assert s[..|d|] == d && s[|d|..] == x;
  }

  lemma {:induction false} KeywordOf(kw: string, x: string)
    ensures Keyword(kw + x, kw) == Some(x)
  {
    assert (kw + x)[..|kw|] == kw && (kw + x)[|kw|..] == x;
  }

  lemma {:induction false} DirectiveOf(sp: string, name: string, x: string)
    requires AllChars(sp, IsSpace)
    ensures Directive(sp + "." + (name + x), name) == Some(x)
  {
    AfterDotOf(sp, name + x);
    KeywordOf(name, x);
  }

  lemma {:induction false} QuotedOf(q: string, x: string)
    requires q != [] && '"' !in q
    ensures Quoted("\"" + (q + ("\"" + x))) == Some((q, x))
  {
    var t := q + ("\"" + x);
    KeywordOf("\"", t);
    assert forall k :: 0 <= k < |q| ==> t[k] == q[k];
    SpanExact(t, |q|, c => c != '"');
    assert t[..|q|] == q && t[|q| + 1..] == x;
  }

  /** `.loc F L rest` with single spaces: the file and line numbers, and `parseInt` of the rest */
  lemma {:induction false} LocTagOf(sp: string, f: nat, l: nat, rest: string)
    requires AllChars(sp, IsSpace) && (rest == [] || !IsSpace(rest[0]))
    ensures LocTag(sp + ".loc " + ToDecimal(f) + " " + ToDecimal(l) + " " + rest) == Some(Loc(f, l, JsParseInt(rest)))
  {
    var e := " " + rest;
    var d := ToDecimal(l) + e;
    var c := " " + d;
    var b := ToDecimal(f) + c;
    var a := " " + b;
    var line := sp + ".loc " + ToDecimal(f) + " " + ToDecimal(l) + " " + rest;
    LocShape(sp, ToDecimal(f), ToDecimal(l), rest);
    DirectiveOf(sp, "loc", a);
    SpaceBeforeNumber(f, c);
    NumberOf(f, c);
    SpaceBeforeNumber(l, e);
    NumberOf(l, e);
    SpaceOf(rest);
    LocTagFrom(line, a, b, c, d, e, Loc(f, l, JsParseInt(rest)), rest);
  }

  lemma {:induction false} LocShape(sp: string, nf: string, nl: string, rest: string)
    ensures sp + ".loc " + nf + " " + nl + " " + rest == sp + "." + ("loc" + (" " + (nf + (" " + (nl + (" " + rest))))))
  {
  }

  /** How `LocTag` composes the matches of its parts */
  lemma {:induction false} LocTagFrom(line: string, a: string, b: string, c: string, d: string, e: string, loc: Loc, rest: string)
    requires Directive(line, "loc") == Some(a) && Spaces(a) == Some(b) && Number(b) == Some((loc.file, c))
    requires Spaces(c) == Some(d) && Number(d) == Some((loc.line, e)) && Spaces(e) == Some(rest)
    requires loc.column == JsParseInt(rest)
    ensures LocTag(line) == Some(loc)
  {
    assert LocOperands(a) == Some(loc);
  }

  /**
   * A `.loc` for a file in the table gives that line, and that file unless
   * it looks like standard input, with the column when it is a non-zero number
   */
  lemma {:induction false} HandleSourceOfLoc(files: map<nat, string>, source: Option<AsmSource>, sp: string, f: nat, l: nat, rest: string)
    requires AllChars(sp, IsSpace) && (rest == [] || !IsSpace(rest[0]))
    requires f in files && files[f] != []
    ensures var r := HandleSource(files, source, sp + ".loc " + ToDecimal(f) + " " + ToDecimal(l) + " " + rest);
      var col := JsParseInt(rest);
      var file := if StdInLooking(files[f]) then None else Some(files[f]);
      r == Some(AsmSource(file, l, if col.Some? && col.value != 0 then col.value else 0))
  {
    LocTagOf(sp, f, l, rest);
  }

  /** A `.loc` for a number missing from the table forgets the position */
  lemma {:induction false} HandleSourceUnknownFile(files: map<nat, string>, source: Option<AsmSource>, sp: string, f: nat, l: nat, rest: string)
    requires AllChars(sp, IsSpace) && (rest == [] || !IsSpace(rest[0]))
    requires f !in files
    ensures HandleSource(files, source, sp + ".loc " + ToDecimal(f) + " " + ToDecimal(l) + " " + rest).None?
  {
    LocTagOf(sp, f, l, rest);
  }

  /** A `.loc` line is neither a `.stabn` nor a `.dbg` line, so only `handleSource` reads it */
  lemma {:induction false} LocIsNoOtherDirective(line: string)
    requires LocTag(line).Some?
    ensures StabTag(line).None? && Dbg6502(line).None? && !Dbg6502End(line)
  {
    var u := LocAfterDot(line);
    NeitherStabNorDbg(line, u);
  }

  lemma {:induction false} NeitherStabNorDbg(line: string, u: string)
    requires AfterDot(line) == Some(u) && |u| > 0 && u[0] == 'l'
    ensures StabTag(line).None? && Dbg6502(line).None? && !Dbg6502End(line)
  {
    OtherKeyword(u, "stabn");
    OtherKeyword(u, "dbg");
  }

  /** What follows the dot of a `.loc` line starts with its `l` */
  lemma {:induction false} LocAfterDot(line: string) returns (u: string)
    requires LocTag(line).Some?
    ensures AfterDot(line) == Some(u) && |u| > 0 && u[0] == 'l'
  {
    var t := TrimStart(line);
    assert t[..4] == ".loc";
    assert t[0] == '.' && t[1] == 'l';
    u := t[1..];
  }

  /** A keyword whose first letter differs is not at the start */
  lemma {:induction false} OtherKeyword(u: string, kw: string)
    requires |u| > 0 && |kw| > 0 && u[0] != kw[0]
    ensures Keyword(u, kw).None?
  {
  }

  /** `.file N "path"`, and clang's `.file N "dir" "name"` */
  lemma {:induction false} FileFindOf(sp: string, n: nat, dir: string, name: Option<string>)
    requires AllChars(sp, IsSpace) && dir != [] && '"' !in dir
    requires name.Some? ==> name.value != [] && '"' !in name.value
    ensures var tail := if name.Some? then " \"" + name.value + "\"" else "";
      FileFind(sp + ".file " + ToDecimal(n) + " \"" + dir + "\"" + tail) == Some(FileDirective(n, dir, name))
  {
    var tail := if name.Some? then " \"" + name.value + "\"" else "";
    var q := "\"" + (dir + ("\"" + tail));
    var c := " " + q;
    var b := ToDecimal(n) + c;
    var a := " " + b;
    var line := sp + ".file " + ToDecimal(n) + " \"" + dir + "\"" + tail;
    FileShape(sp, ToDecimal(n), dir, tail);
    DirectiveOf(sp, "file", a);
    SpaceBeforeNumber(n, c);
    NumberOf(n, c);
    SpaceBeforeQuote(dir + ("\"" + tail));
    QuotedOf(dir, tail);
    SecondNameOf(name);
    FileFindFrom(line, a, b, c, q, FileDirective(n, dir, name), tail);
  }

  lemma {:induction false} FileShape(sp: string, num: string, dir: string, tail: string)
    ensures sp + ".file " + num + " \"" + dir + "\"" + tail == sp + "." + ("file" + (" " + (num + (" " + ("\"" + (dir + ("\"" + tail)))))))
  {
  }

  /** The optional second quoted part, as the listing prints it */
  lemma {:induction false} SecondNameOf(name: Option<string>)
    requires name.Some? ==> name.value != [] && '"' !in name.value
    ensures SecondName(if name.Some? then " \"" + name.value + "\"" else "") == name
  {
    if name.Some? {
      var v := name.value;
      var t := "\"" + (v + ("\"" + []));
      var u := " \"" + v + "\"";
      assert u == " " + t;
      SpaceBeforeQuote(v + ("\"" + []));
      QuotedOf(v, []);
      SecondNameFrom(u, t, v);
    }
  }

  lemma {:induction false} SecondNameFrom(u: string, t: string, v: string)
    requires Spaces(u) == Some(t) && Quoted(t) == Some((v, []))
    ensures SecondName(u) == Some(v)
  {
  }

  /** How `FileFind` composes the matches of its parts */
  lemma {:induction false} FileFindFrom(line: string, a: string, b: string, c: string, q: string, fd: FileDirective, tail: string)
    requires Directive(line, "file") == Some(a) && Spaces(a) == Some(b) && Number(b) == Some((fd.index, c))
    requires Spaces(c) == Some(q) && Quoted(q) == Some((fd.dir, tail)) && SecondName(tail) == fd.name
    ensures FileFind(line) == Some(fd)
  {
  }

  /** `.stabn K,0,L,...` */
  lemma {:induction false} StabTagOf(sp: string, kind: nat, l: nat, rest: string)
    requires AllChars(sp, IsSpace)
    ensures StabTag(sp + ".stabn " + ToDecimal(kind) + ",0," + ToDecimal(l) + "," + rest) == Some(Stab(kind, l))
  {
    var e := "," + rest;
    var d := ToDecimal(l) + e;
    var c := ",0," + d;
    var b := ToDecimal(kind) + c;
    var a := " " + b;
    var line := sp + ".stabn " + ToDecimal(kind) + ",0," + ToDecimal(l) + "," + rest;
    StabShape(sp, ToDecimal(kind), ToDecimal(l), rest);
    DirectiveOf(sp, "stabn", a);
    SpaceBeforeNumber(kind, c);
    NumberOf(kind, c);
    KeywordOf(",0,", d);
    NumberOf(l, e);
    KeywordOf(",", rest);
    StabTagFrom(line, a, b, c, d, e, Stab(kind, l), rest);
  }

  lemma {:induction false} StabShape(sp: string, nk: string, nl: string, rest: string)
    ensures sp + ".stabn " + nk + ",0," + nl + "," + rest == sp + "." + ("stabn" + (" " + (nk + (",0," + (nl + ("," + rest))))))
  {
  }

  /** How `StabTag` composes the matches of its parts */
  lemma {:induction false} StabTagFrom(line: string, a: string, b: string, c: string, d: string, e: string, stab: Stab, rest: string)
    requires Directive(line, "stabn") == Some(a) && Spaces(a) == Some(b) && Number(b) == Some((stab.kind, c))
    requires Keyword(c, ",0,") == Some(d) && Number(d) == Some((stab.line, e)) && Keyword(e, ",") == Some(rest)
    ensures StabTag(line) == Some(stab)
  {
  }

  /** The three stab types the pass acts on */
  lemma {:induction false} HandleStabsOf(pos: Position, sp: string, kind: nat, l: nat, rest: string)
    requires AllChars(sp, IsSpace)
    ensures var r := HandleStabs(pos, sp + ".stabn " + ToDecimal(kind) + ",0," + ToDecimal(l) + "," + rest);
      (kind == 68 ==> r == pos.(source := Some(AsmSource(None, l, 0))))
      && (kind == 100 || kind == 132 ==> r == Position(None, false))
      && (kind != 68 && kind != 100 && kind != 132 ==> r == pos)
  {
    StabTagOf(sp, kind, l, rest);
  }

  /** `.d2line L...` */
  lemma {:induction false} D2TagOf(sp: string, l: nat, rest: string)
    requires AllChars(sp, IsSpace) && (rest == [] || !IsDigit(rest[0]))
    ensures D2Tag(sp + ".d2line " + ToDecimal(l) + rest) == Some(l)
  {
    var b := ToDecimal(l) + rest;
    var a := " " + b;
    var line := sp + ".d2line " + ToDecimal(l) + rest;
    D2Shape(sp, ToDecimal(l), rest);
    DirectiveOf(sp, "d2line", a);
    SpaceBeforeNumber(l, rest);
    NumberOf(l, rest);
    D2TagFrom(line, a, b, l, rest);
  }

  lemma {:induction false} D2Shape(sp: string, num: string, rest: string)
    ensures sp + ".d2line " + num + rest == sp + "." + ("d2line" + (" " + (num + rest)))
  {
  }

  /** How `D2Tag` composes the matches of its parts */
  lemma {:induction false} D2TagFrom(line: string, a: string, b: string, l: nat, rest: string)
    requires Directive(line, "d2line") == Some(a) && Spaces(a) == Some(b) && Number(b) == Some((l, rest))
    ensures D2Tag(line) == Some(l)
  {
  }

  /** `.dbg line, "file", L` */
  lemma {:induction false} Dbg6502Of(sp: string, file: string, l: nat)
    requires AllChars(sp, IsSpace) && file != [] && '"' !in file
    ensures Dbg6502(sp + ".dbg line, \"" + file + "\", " + ToDecimal(l)) == Some((file, l))
  {
    var n := ToDecimal(l);
    var d := " " + n;
    var x := "," + d;
    var q := "\"" + (file + ("\"" + x));
    var c := " " + q;
    var b := "line," + c;
    var a := " " + b;
    var line := sp + ".dbg line, \"" + file + "\", " + n;
    DbgShape(sp, file, n);
    DirectiveOf(sp, "dbg", a);
    SpaceOf(b);
    KeywordOf("line,", c);
    SpaceBeforeQuote(file + ("\"" + x));
    QuotedOf(file, x);
    KeywordOf(",", d);
    NumberAlone(l);
    Dbg6502From(line, a, b, c, q, x, d, n, file, l);
  }

  lemma {:induction false} DbgShape(sp: string, file: string, num: string)
    ensures sp + ".dbg line, \"" + file + "\", " + num ==
      sp + "." + ("dbg" + (" " + ("line," + (" " + ("\"" + (file + ("\"" + ("," + (" " + num)))))))))
  {
  }

  /** How `Dbg6502` composes the matches of its parts */
  lemma {:induction false} Dbg6502From(line: string, a: string, b: string, c: string, q: string, x: string, d: string, n: string, file: string, l: nat)
    requires Directive(line, "dbg") == Some(a) && Spaces(a) == Some(b) && Keyword(b, "line,") == Some(c)
    requires Spaces(c) == Some(q) && Quoted(q) == Some((file, x)) && Keyword(x, ",") == Some(d)
    requires Spaces(d) == Some(n) && Number(n) == Some((l, []))
    ensures Dbg6502(line) == Some((file, l))
  {
  }
}

=== FILE: strings.dfy ===
/**
 * Character classes and string helpers with JavaScript semantics: the
 * building blocks the hand-written recognisers of the listing parser use in
 * place of JavaScript regular expressions, plus `parseInt` and
 * `Number.prototype.toString(16)`.
 */
module Strings {
  import opened Wrappers

  /** The characters a JavaScript `.` does not match; `^`/`$` see them in multiline mode. */
  predicate IsLineTerminator(c: char) {
    c == '\n' || c == '\r' || c == '\U{2028}' || c == '\U{2029}'
  }

  /** The JavaScript `\s` class: WhiteSpace and LineTerminator (also what `trim` removes). */
  const SpaceChars: set<char> := {
    '\t', '\n', '\U{000B}', '\U{000C}', '\r', ' ', '\U{00A0}', '\U{1680}',
    '\U{2000}', '\U{2001}', '\U{2002}', '\U{2003}', '\U{2004}', '\U{2005}',
    '\U{2006}', '\U{2007}', '\U{2008}', '\U{2009}', '\U{200A}',
    '\U{2028}', '\U{2029}', '\U{202F}', '\U{205F}', '\U{3000}', '\U{FEFF}'
  }

  predicate IsSpace(c: char) {
    c in SpaceChars
  }

  /** White space lies outside the printable ASCII range */
  lemma {:induction false} SpaceIsNotPrintable(c: char)
    ensures IsSpace(c) ==> c as int < 0x21 || c as int >= 0xA0
  {
  }

  /** Any character but a line terminator: the JavaScript `.` */
  predicate IsDot(c: char) {
    !IsLineTerminator(c)
  }

  /** `\d` */
  predicate IsDigit(c: char) {
    '0' <= c <= '9'
  }

  /** `[\da-f]`: the lower-case hexadecimal digits objdump prints */
  predicate IsHexDigit(c: char) {
    IsDigit(c) || 'a' <= c <= 'f'
  }

  /** Hexadecimal digits of either case, as `parseInt` accepts them */
  predicate IsAnyHexDigit(c: char) {
    IsHexDigit(c) || 'A' <= c <= 'F'
  }

  /** `[A-Za-z]` */
  predicate IsLetter(c: char) {
    'A' <= c <= 'Z' || 'a' <= c <= 'z'
  }

  /** `\w` */
  predicate IsWordChar(c: char) {
    IsLetter(c) || IsDigit(c) || c == '_'
  }

  predicate AllChars(s: string, p: char -> bool) {
    forall i :: 0 <= i < |s| ==> p(s[i])
  }

  lemma {:induction false} AllCharsSlice(s: string, i: nat, j: nat, p: char -> bool)
    requires i <= j <= |s| && AllChars(s, p)
    ensures AllChars(s[i..j], p)
  {
    assert forall k :: 0 <= k < j - i ==> s[i..j][k] == s[i + k];
  }

  /** Splitting off the first element of the left operand of a concatenation */
  lemma {:induction false} ConsSplit<T>(p: seq<T>, x: seq<T>)
    requires p != []
    ensures p + x == [p[0]] + (p[1..] + x)
  {
    assert p == [p[0]] + p[1..];
  }

  /** A suffix is the slice up to `j` followed by the suffix from `j` */
  lemma {:induction false} SliceSplit<T>(s: seq<T>, i: nat, j: nat)
    requires i <= j <= |s|
    ensures s[i..] == s[i..j] + s[j..]
  {
  }

  lemma {:induction false} SplitAt<T>(s: seq<T>, i: nat)
    requires i <= |s|
    ensures s == s[..i] + s[i..]
  {
  }

  lemma {:induction false} SliceOfSuffix<T>(s: seq<T>, i: nat, j: nat)
    requires i <= j <= |s|
    ensures s[i..][..j - i] == s[i..j]
  {
  }

  lemma {:induction false} SliceOfPrefix<T>(s: seq<T>, m: nat, a: nat, b: nat)
    requires a <= b <= m <= |s|
    ensures s[..m][a..b] == s[a..b]
  {
  }

  lemma {:induction false} SliceOfDrop<T>(s: seq<T>, n: nat, a: nat, b: nat)
    requires n <= |s| && a <= b <= |s| - n
    ensures s[n..][a..b] == s[n + a..n + b]
  {
  }

  predicate StartsWith(s: string, prefix: string) {
    |prefix| <= |s| && s[..|prefix|] == prefix
  }

  predicate EndsWith(s: string, suffix: string) {
    |suffix| <= |s| && s[|s| - |suffix|..] == suffix
  }

  /** `s.includes(p)`, and the `test` of an unanchored literal pattern */
  predicate Contains(s: string, p: string) {
    StartsWith(s, p) || (|s| > 0 && Contains(s[1..], p))
  }

  /** An occurrence at any index is found */
  lemma {:induction false} ContainsAt(s: string, i: nat, p: string)
    requires i + |p| <= |s| && s[i..i + |p|] == p
    ensures Contains(s, p)
    decreases i
  {
    if i > 0 {
      assert s[1..][i - 1..i - 1 + |p|] == p;
      ContainsAt(s[1..], i - 1, p);
    }
  }

  /** An occurrence in a prefix is an occurrence in the whole */
  lemma {:induction false} ContainsInPrefix(s: string, n: nat, p: string)
    requires n <= |s| && Contains(s[..n], p)
    ensures Contains(s, p)
    decreases n
  {
    if StartsWith(s[..n], p) {
      assert s[..|p|] == s[..n][..|p|];
    } else {
      assert s[..n][1..] == s[1..][..n - 1];
      ContainsInPrefix(s[1..], n - 1, p);
    }
  }

  /** Length of the longest prefix of `s` whose characters all satisfy `p`: a greedy `[...]*` */
  function Span(s: string, p: char -> bool): (n: nat)
    ensures n <= |s|
    ensures forall i :: 0 <= i < n ==> p(s[i])
    ensures n == |s| || !p(s[n])
  {
    if s == [] || !p(s[0]) then 0 else 1 + Span(s[1..], p)
  }

  /** The run of `p` ends where `p` first fails */
  lemma {:induction false} SpanExact(s: string, i: nat, p: char -> bool)
    requires i <= |s| && (i == |s| || !p(s[i])) && forall k :: 0 <= k < i ==> p(s[k])
    ensures Span(s, p) == i
    decreases i
  {
    if i > 0 {
      SpanExact(s[1..], i - 1, p);
    }
  }

  /** `s` without its leading `\s*` run */
  function TrimStart(s: string): (r: string)
    ensures |r| <= |s| && r == s[|s| - |r|..]
    ensures r == [] || !IsSpace(r[0])
    ensures forall i :: 0 <= i < |s| - |r| ==> IsSpace(s[i])
  {
    s[Span(s, IsSpace)..]
  }

  /** Index of the first occurrence of `c` in `s` */
  function IndexOf(s: string, c: char): (r: Option<nat>)
    ensures r.None? <==> c !in s
    ensures r.Some? ==> r.value < |s| && s[r.value] == c
    ensures r.Some? ==> forall i :: 0 <= i < r.value ==> s[i] != c
  {
    var n := Span(s, x => x != c);
    if n == |s| then None else Some(n)
  }

  /** `s.lastIndexOf(c)`: -1 when `c` does not occur */
  function LastIndexOf(s: string, c: char): (r: int)
    ensures -1 <= r < |s|
    ensures r >= 0 ==> s[r] == c
    ensures forall i :: r < i < |s| ==> s[i] != c
  {
    if s == [] then -1
    else if s[|s| - 1] == c then |s| - 1
    else LastIndexOf(s[..|s| - 1], c)
  }

  /** `s.split(c, 1)[0]`: the text before the first `c` */
  function Before(s: string, c: char): (r: string)
    ensures StartsWith(s, r)
    ensures c !in r
    ensures |r| < |s| ==> s[|r|] == c
  {
    s[..Span(s, x => x != c)]
  }

  function DigitValue(c: char): (v: nat)
    requires IsAnyHexDigit(c)
    ensures v < 16
    ensures IsDigit(c) ==> v < 10
  {
    if IsDigit(c) then c as int - '0' as int
    else if 'a' <= c <= 'f' then c as int - 'a' as int + 10
    else c as int - 'A' as int + 10
  }

  /** The value of a string of digits in base `radix`, most significant first */
  function ValueIn(digits: string, radix: nat): nat
    requires AllChars(digits, IsAnyHexDigit)
  {
    if digits == [] then 0
    else ValueIn(digits[..|digits| - 1], radix) * radix + DigitValue(digits[|digits| - 1])
  }

  function DecimalValue(digits: string): nat
    requires AllChars(digits, IsDigit)
  {
    ValueIn(digits, 10)
  }

  function HexValue(digits: string): nat
    requires AllChars(digits, IsAnyHexDigit)
  {
    ValueIn(digits, 16)
  }

  /**
   * `parseInt(s)` without a radix: skips leading white space, takes an
   * optional sign, reads hexadecimal after a `0x`/`0X` prefix and decimal
   * otherwise, and stops at the first character that is not a digit.
   * NaN, when no digit follows, is None.
   */
  function JsParseInt(s: string): (r: Option<int>)
    ensures r.Some? ==> exists i :: 0 <= i < |s| && IsAnyHexDigit(s[i])
  {
    var t := TrimStart(s);
    var negative := |t| > 0 && t[0] == '-';
    var u := if |t| > 0 && (t[0] == '-' || t[0] == '+') then t[1..] else t;
    var hex := |u| >= 2 && u[0] == '0' && (u[1] == 'x' || u[1] == 'X');
    var body := if hex then u[2..] else u;
    var n := if hex then Span(body, IsAnyHexDigit) else Span(body, IsDigit);
    if n == 0 then None
    else
      var v := if hex then HexValue(body[..n]) else DecimalValue(body[..n]);
      Some(if negative then -v else v)
  }

  /** A plain run of decimal digits, as a `\d+` group captures it, parses to its decimal value */
  lemma {:induction false} ParseIntOfDigits(s: string)
    requires |s| > 0 && AllChars(s, IsDigit)
    ensures JsParseInt(s) == Some(DecimalValue(s))
  {
    var t := TrimStart(s);
    assert t == s;
    assert !(|s| >= 2 && s[0] == '0' && (s[1] == 'x' || s[1] == 'X'));
    var n := Span(s, IsDigit);
    assert n == |s|;
    assert s[..n] == s;
  }

  /** Text that starts with a letter, `_` or `.` is NaN */
  lemma {:induction false} ParseIntOfWord(s: string)
    requires |s| > 0 && (IsLetter(s[0]) || s[0] == '_' || s[0] == '.')
    ensures JsParseInt(s).None?
  {
    SpaceIsNotPrintable(s[0]);
    assert TrimStart(s) == s;
  }

  function DecimalDigitChar(d: nat): (c: char)
    requires d < 10
    ensures IsDigit(c) && DigitValue(c) == d
  {
    ('0' as int + d) as char
  }

  /** `String(n)` for a natural number: its decimal digits without leading zeros */
  function ToDecimal(n: nat): (r: string)
    ensures |r| > 0 && AllChars(r, IsDigit)
    ensures n > 0 ==> r[0] != '0'
    ensures DecimalValue(r) == n
  {
    if n < 10 then
      var d := DecimalDigitChar(n);
      ValueAppend([], d, 10);
      assert [] + [d] == [d];
      [d]
    else
      var h := ToDecimal(n / 10);
      var d := DecimalDigitChar(n % 10);
      ValueAppend(h, d, 10);
      assert AllChars(h + [d], IsDigit) by {
        assert forall i :: 0 <= i < |h| ==> (h + [d])[i] == h[i];
      }
      h + [d]
  }

  lemma {:induction false} ValueAppend(h: string, d: char, radix: nat)
    requires AllChars(h, IsAnyHexDigit) && IsAnyHexDigit(d)
    ensures AllChars(h + [d], IsAnyHexDigit)
    ensures ValueIn(h + [d], radix) == ValueIn(h, radix) * radix + DigitValue(d)
  {
    assert (h + [d])[..|h|] == h;
  }

  function HexDigitChar(d: nat): (c: char)
    requires d < 16
    ensures IsHexDigit(c) && DigitValue(c) == d
  {
    if d < 10 then ('0' as int + d) as char else ('a' as int + d - 10) as char
  }

  /** `n.toString(16)`: lower-case hexadecimal without leading zeros */
  function ToHex(n: nat): (r: string)
    ensures |r| > 0 && AllChars(r, IsHexDigit)
    ensures n > 0 ==> r[0] != '0'
    ensures HexValue(r) == n
  {
    if n < 16 then
      var d := HexDigitChar(n);
      HexValueAppend([], d);
      assert [] + [d] == [d];
      [d]
    else
      var h := ToHex(n / 16);
      var d := HexDigitChar(n % 16);
      HexValueAppend(h, d);
      h + [d]
  }

  lemma {:induction false} HexValueAppend(h: string, d: char)
    requires AllChars(h, IsAnyHexDigit) && IsAnyHexDigit(d)
    ensures AllChars(h + [d], IsAnyHexDigit)
    ensures HexValue(h + [d]) == HexValue(h) * 16 + DigitValue(d)
  {
    assert (h + [d])[..|h|] == h;
  }
}

=== FILE: text_mode.dfy ===
/**
 * `processAsm`: the pass over a compiler's assembly listing that drops
 * blank runs, comments, unused labels and directives, tracks the source
 * position of each instruction, and records where each used label is
 * defined.
 */
module TextMode {
  import opened Wrappers
  import opened Strings
  import opened TextUtils
  import opened Whitespace
  import opened AsmModel
  import opened AsmPatterns
  import opened Liveness
  import opened SourceTracking
  import opened LabelRefs

  /** What every line of the pass sees: the patterns, the filter, the labels found used and the `.file` table */
  datatype Context = Context(o: Oracles, filter: AsmFilter, used: set<string>, files: map<nat, string>)

  /**
   * Where an output line comes from: the blank line the pass adds, or a
   * line as the patterns saw it, with the CUDA code flag it was seen under,
   * the label it defines and the source position tracked when it was seen
   */
  datatype Origin = Blank | From(line: string, nvcc: bool, def: Option<Def>, pos: Option<AsmSource>)

  /**
   * The state of the loop between two lines: the output so far and, for
   * each output line, the used label it defines and where it comes from;
   * the label definitions; the source position and whether a used label
   * was seen; the two CUDA flags; the inline-assembly depth.
   */
  datatype State = State(
    asm: seq<AsmLine>,
    definers: seq<Option<string>>,
    origins: seq<Origin>,
    defs: map<string, nat>,
    pos: Position,
    inNvccDef: bool,
    inNvccCode: bool,
    custom: int)

  const Start := State([], [], [], map[], Position(None, false), false, false, 0)

  const BlankLine := Line("", None, [])

  /** `line.trim() === ''` */
  predicate IsBlank(line: string) {
    AllChars(line, IsSpace)
  }

  /** `endBlock`, `/\.(cfi_endproc|data|text|section)/`, anywhere in the line */
  predicate EndBlock(line: string) {
    Contains(line, ".cfi_endproc") || Contains(line, ".data") || Contains(line, ".text") || Contains(line, ".section")
  }

  /** The line is a comment the comment-only filter removes, judged by the pattern for the code it is in */
  predicate CommentLine(ctx: Context, inNvccCode: bool, raw: string) {
    ctx.filter.commentOnly
    && ((ctx.o.commentOnly(raw) && !inNvccCode) || (ctx.o.commentOnlyNvcc(raw) && inNvccCode))
  }

  /** A label definition: its name, and whether it is a CUDA function header */
  datatype Def = Def(name: string, cuda: bool)

  /** The label a line defines: `labelDef`, else `assignmentDef`, else a CUDA header named by its keyword */
  function Definition(o: Oracles, line: string): Option<Def> {
    match LabelDef(line)
    case Some(c) => Some(Def(Captured(line, c), false))
    case None =>
      match AssignmentDef(line)
      case Some(c) => Some(Def(Captured(line, c), false))
      case None =>
        match o.cudaBeginDef(line)
        case Some(k) => Some(Def(CudaKeyword(k), true))
        case None => None
  }

  /** `filterAsmLine(line, filter)`: horizontal white space squashed when trimming; a line with text keeps some */
  function FilterAsmLine(line: string, filter: AsmFilter): (r: string)
    ensures line != [] ==> r != []
    ensures !filter.trim ==> r == line
  {
    if filter.trim then Squash(line, true) else line
  }

  // ---------------------------------------------------------------- one line

  /** `maybeAddBlank`: one blank line, unless the output is empty or already ends with one */
  function MaybeAddBlank(st: State): (r: State)
    ensures r.defs == st.defs
    ensures r.asm == st.asm || (st.asm != [] && st.asm[|st.asm| - 1].text != "" && r.asm == st.asm + [BlankLine])
  {
    if st.asm == [] || st.asm[|st.asm| - 1].text == "" then st
    else st.(asm := st.asm + [BlankLine], definers := st.definers + [None], origins := st.origins + [Blank])
  }

  /** The head of the loop body for a line with ink: the inline-assembly depth, the position directives and the end of a block */
  function Track(ctx: Context, st: State, raw: string): (r: State)
    ensures r.(pos := st.pos, custom := st.custom) == st
    ensures EndBlock(raw) ==> r.pos == Position(None, false)
  {
    var s1 := HandleSource(ctx.files, st.pos.source, raw);
    var p2 := HandleStabs(Position(s1, st.pos.prevLabel), raw);
    var s3 := Handle6502(p2.source, raw);
    var pos := if EndBlock(raw) || (st.inNvccCode && '}' in raw) then Position(None, false) else Position(s3, p2.prevLabel);
    st.(pos := pos, custom := CustomDepth(st.custom, raw))
  }

  /** The output line for `line`: tabs expanded, squashed when trimming, its references unless it defines a label, its position when it has an opcode */
  function OutputLine(ctx: Context, st: State, line: string, def: Option<Def>): (r: AsmLine)
    ensures r.Line? && (line != [] ==> r.text != [])
    ensures def.Some? ==> r.labels == []
    ensures def.None? ==> r.labels == UsedLabelsInLine(r.text)
    ensures forall l :: l in r.labels ==> PointsInto(r.text, l)
    ensures r.source.Some? ==> r.source == st.pos.source && HasOpcode(ExpandTabs(line), st.inNvccCode)
    ensures HasOpcode(ExpandTabs(line), st.inNvccCode) ==> r.source == st.pos.source
  {
    var x := ExpandTabs(line);
    var text := FilterAsmLine(x, ctx.filter);
    Line(text, if HasOpcode(x, st.inNvccCode) then st.pos.source else None, if def.Some? then [] else UsedLabelsInLine(text))
  }

  function Push(ctx: Context, st: State, line: string, def: Option<Def>, definer: Option<string>): (r: State)
    ensures r.asm == st.asm + [OutputLine(ctx, st, line, def)] && r.definers == st.definers + [definer]
    ensures r.defs == st.defs
  {
    st.(asm := st.asm + [OutputLine(ctx, st, line, def)], definers := st.definers + [definer], origins := st.origins + [From(line, st.inNvccCode, def, st.pos.source)])
  }

  /** A directive the directive filter drops: not data after a used label, and not an `.inst` */
  predicate DroppedDirective(ctx: Context, st: State, line: string, def: Option<Def>) {
    def.None? && ctx.filter.directives && !(DataDefn(line) && st.pos.prevLabel) && AsmPatterns.Directive(line) && !InstOpcode(line)
  }

  /** The tail of the loop body: the end of a CUDA header, the directive filter, and the push */
  function Finish(ctx: Context, st: State, line: string, def: Option<Def>, definer: Option<string>): (r: State)
  {
    if st.inNvccDef then Push(ctx, st.(inNvccDef := !CudaEndDef(line)), line, def, definer)
    else if DroppedDirective(ctx, st, line, def) then st
    else Push(ctx, st, line, def, definer)
  }

  /** A used label is defined at the output line about to be pushed */
  function Define(st: State, name: string): (r: State)
    ensures r.asm == st.asm && r.definers == st.definers && r.defs == st.defs[name := |st.asm| + 1]
  {
    st.(pos := st.pos.(prevLabel := true), defs := st.defs[name := |st.asm| + 1])
  }

  /** The middle of the loop body: what a label definition does to the line and the state */
  function Classified(ctx: Context, st: State, line: string, def: Option<Def>): (r: State)
  {
    var u := if def.Some? && def.value.cuda then st.(inNvccDef := true, inNvccCode := true) else st;
    match def
    case None => Finish(ctx, u, line, def, None)
    case Some(d) =>
      if d.name in ctx.used then Finish(ctx, Define(u, d.name), line, def, Some(d.name))
      else if ctx.filter.labels then u
      else Finish(ctx, u, line, def, None)
  }

  /** One iteration of the loop of `processAsm`: a line adds at most one output line, after the ones already there */
  function StepLine(ctx: Context, st: State, raw: string): (r: State)
    ensures AppendsAtMostOne(st.asm, r.asm)
  {
    if IsBlank(raw) then MaybeAddBlank(st)
    else
      var t := Track(ctx, st, raw);
      if CommentLine(ctx, t.inNvccCode, raw) then t
      else
        var line := Seen(st.custom, raw);
        ClassifiedAppends(ctx, t, line, Definition(ctx.o, line));
        Classified(ctx, t, line, Definition(ctx.o, line))
  }

  /** A line with ink keeps some after losing its indentation */
  lemma {:induction false} SeenHasInk(custom: int, raw: string)
    requires !IsBlank(raw)
    ensures Seen(custom, raw) != []
  {
    var i :| 0 <= i < |raw| && !IsSpace(raw[i]);
    assert |TrimStart(raw)| > 0;
  }

  function Run(ctx: Context, lines: seq<string>, st: State): (r: State)
    decreases |lines|
  {
    if lines == [] then st else Run(ctx, lines[1..], StepLine(ctx, st, lines[0]))
  }

  // ---------------------------------------------------------------- invariants of the loop

  /** No blank line opens the output or follows another blank line */
  predicate NoBlankRuns(asm: seq<AsmLine>) {
    forall i :: 0 <= i < |asm| && asm[i].text == "" ==> 0 < i && asm[i - 1].text != ""
  }

  /** Every output line is a text-mode line whose references lie in its text, and one without text is the blank line */
  predicate TextLines(asm: seq<AsmLine>) {
    forall i :: 0 <= i < |asm| ==>
      && asm[i].Line?
      && (asm[i].text == "" ==> asm[i] == BlankLine)
      && (forall l :: l in asm[i].labels ==> PointsInto(asm[i].text, l))
  }

  /** Each definition is a used label whose 1-based line is the one recorded as defining it, a line with text and no references */
  predicate DefinitionsAt(used: set<string>, asm: seq<AsmLine>, definers: seq<Option<string>>, defs: map<string, nat>) {
    |definers| == |asm|
    && (forall n :: n in defs ==> n in used && 1 <= defs[n] <= |asm| && definers[defs[n] - 1] == Some(n))
    && (forall i :: 0 <= i < |asm| && definers[i].Some? ==> asm[i].labels == [] && asm[i].text != "")
  }

  predicate Inv(used: set<string>, st: State) {
    NoBlankRuns(st.asm) && TextLines(st.asm) && DefinitionsAt(used, st.asm, st.definers, st.defs)
  }

  lemma {:induction false} StartInv(used: set<string>)
    ensures Inv(used, Start)
  {
  }

  lemma {:induction false} MaybeAddBlankKeeps(used: set<string>, st: State)
    requires Inv(used, st)
    ensures Inv(used, MaybeAddBlank(st))
  {
  }

  /** Appending a line with text whose references lie in it keeps the output's shape */
  lemma {:induction false} AppendShape(asm: seq<AsmLine>, l: AsmLine)
    requires NoBlankRuns(asm) && TextLines(asm)
    requires l.Line? && l.text != [] && forall x :: x in l.labels ==> PointsInto(l.text, x)
    ensures NoBlankRuns(asm + [l]) && TextLines(asm + [l])
  {
  }

  /** Appending a line with text that defines nothing keeps the invariant */
  lemma {:induction false} AppendPlain(used: set<string>, st: State, l: AsmLine, r: State)
    requires Inv(used, st) && l.Line? && l.text != [] && forall x :: x in l.labels ==> PointsInto(l.text, x)
    requires r.asm == st.asm + [l] && r.definers == st.definers + [None] && r.defs == st.defs
    ensures Inv(used, r)
  {
    AppendShape(st.asm, l);
  }

  /** Appending the line that defines a used label, with the definition pointing at it, keeps the invariant */
  lemma {:induction false} AppendDefining(used: set<string>, st: State, l: AsmLine, name: string, r: State)
    requires Inv(used, st) && l.Line? && l.text != [] && l.labels == [] && name in used
    requires r.asm == st.asm + [l] && r.definers == st.definers + [Some(name)] && r.defs == st.defs[name := |st.asm| + 1]
    ensures Inv(used, r)
  {
    AppendShape(st.asm, l);
    DefinitionAppended(used, st.asm, st.definers, st.defs, l, name);
  }

  lemma {:induction false} DefinitionAppended(used: set<string>, asm: seq<AsmLine>, definers: seq<Option<string>>, defs: map<string, nat>, l: AsmLine, name: string)
    requires DefinitionsAt(used, asm, definers, defs) && l.text != [] && l.labels == [] && name in used
    ensures DefinitionsAt(used, asm + [l], definers + [Some(name)], defs[name := |asm| + 1])
  {
  }

  lemma {:induction false} FinishPlainKeeps(ctx: Context, st: State, line: string, def: Option<Def>)
    requires line != [] && Inv(ctx.used, st)
    ensures Inv(ctx.used, Finish(ctx, st, line, def, None))
  {
    var v := if st.inNvccDef then st.(inNvccDef := !CudaEndDef(line)) else st;
    if st.inNvccDef || !DroppedDirective(ctx, st, line, def) {
      AppendPlain(ctx.used, st, OutputLine(ctx, v, line, def), Finish(ctx, st, line, def, None));
    }
  }

  lemma {:induction false} FinishDefinedKeeps(ctx: Context, st: State, line: string, d: Def)
    requires line != [] && Inv(ctx.used, st) && d.name in ctx.used
    ensures Inv(ctx.used, Finish(ctx, Define(st, d.name), line, Some(d), Some(d.name)))
  {
    var u := Define(st, d.name);
    var v := if u.inNvccDef then u.(inNvccDef := !CudaEndDef(line)) else u;
    AppendDefining(ctx.used, st, OutputLine(ctx, v, line, Some(d)), d.name, Finish(ctx, u, line, Some(d), Some(d.name)));
  }

  lemma {:induction false} ClassifiedKeeps(ctx: Context, st: State, line: string, def: Option<Def>)
    requires line != [] && Inv(ctx.used, st)
    ensures Inv(ctx.used, Classified(ctx, st, line, def))
  {
    var u := if def.Some? && def.value.cuda then st.(inNvccDef := true, inNvccCode := true) else st;
    assert Inv(ctx.used, u);
    match def
    case None => FinishPlainKeeps(ctx, u, line, def);
    case Some(d) =>
      if d.name in ctx.used {
        FinishDefinedKeeps(ctx, u, line, d);
      } else if !ctx.filter.labels {
        FinishPlainKeeps(ctx, u, line, def);
      }
  }

  lemma {:induction false} StepKeeps(ctx: Context, st: State, raw: string)
    requires Inv(ctx.used, st)
    ensures Inv(ctx.used, StepLine(ctx, st, raw))
  {
    if IsBlank(raw) {
      MaybeAddBlankKeeps(ctx.used, st);
    } else {
      var t := Track(ctx, st, raw);
      assert Inv(ctx.used, t);
      if !CommentLine(ctx, t.inNvccCode, raw) {
        var line := Seen(st.custom, raw);
        SeenHasInk(st.custom, raw);
        ClassifiedKeeps(ctx, t, line, Definition(ctx.o, line));
      }
    }
  }

  lemma {:induction false} RunKeeps(ctx: Context, lines: seq<string>, st: State)
    requires Inv(ctx.used, st)
    ensures Inv(ctx.used, Run(ctx, lines, st))
    decreases |lines|
  {
    if lines != [] {
      StepKeeps(ctx, st, lines[0]);
      RunKeeps(ctx, lines[1..], StepLine(ctx, st, lines[0]));
    }
  }

  /** `b` is `a`, or `a` and one more line */
  predicate AppendsAtMostOne(a: seq<AsmLine>, b: seq<AsmLine>) {
    |a| <= |b| <= |a| + 1 && b[..|a|] == a
  }

  lemma {:induction false} FinishAppends(ctx: Context, st: State, line: string, def: Option<Def>, definer: Option<string>)
    ensures AppendsAtMostOne(st.asm, Finish(ctx, st, line, def, definer).asm)
  {
    var r := Finish(ctx, st, line, def, definer);
    assert r.asm == st.asm || r.asm[..|st.asm|] == st.asm;
  }

  lemma {:induction false} ClassifiedAppends(ctx: Context, st: State, line: string, def: Option<Def>)
    ensures AppendsAtMostOne(st.asm, Classified(ctx, st, line, def).asm)
  {
    var u := if def.Some? && def.value.cuda then st.(inNvccDef := true, inNvccCode := true) else st;
    match def
    case None => FinishAppends(ctx, u, line, def, None);
    case Some(d) =>
      if d.name in ctx.used {
        FinishAppends(ctx, Define(u, d.name), line, def, Some(d.name));
      } else if !ctx.filter.labels {
        FinishAppends(ctx, u, line, def, None);
      }
  }

  lemma {:induction false} RunAppends(ctx: Context, lines: seq<string>, st: State)
    ensures var r := Run(ctx, lines, st);
      |st.asm| <= |r.asm| <= |st.asm| + |lines| && r.asm[..|st.asm|] == st.asm
    decreases |lines|
  {
    if lines != [] {
      var st' := StepLine(ctx, st, lines[0]);
      RunAppends(ctx, lines[1..], st');
      var r := Run(ctx, lines, st);
      assert r.asm[..|st.asm|] == r.asm[..|st'.asm|][..|st.asm|];
    }
  }

  /** The origins, like the output, are only ever appended to */
  lemma {:induction false} RunOrigins(ctx: Context, lines: seq<string>, st: State)
    ensures var r := Run(ctx, lines, st);
      |st.origins| <= |r.origins| && r.origins[..|st.origins|] == st.origins
    decreases |lines|
  {
    if lines != [] {
      var st' := StepLine(ctx, st, lines[0]);
      StepOrigins(ctx, st, lines[0]);
      RunOrigins(ctx, lines[1..], st');
      var r := Run(ctx, lines, st);
      assert r.origins[..|st.origins|] == r.origins[..|st'.origins|][..|st.origins|];
    }
  }

  lemma {:induction false} StepOrigins(ctx: Context, st: State, raw: string)
    ensures var r := StepLine(ctx, st, raw);
      |st.origins| <= |r.origins| && r.origins[..|st.origins|] == st.origins
  {
    if !IsBlank(raw) {
      var t := Track(ctx, st, raw);
      if !CommentLine(ctx, t.inNvccCode, raw) {
        var line := Seen(st.custom, raw);
        StepBody(ctx, st, raw);
        ClassifiedOrigins(ctx, t, line, Definition(ctx.o, line));
      }
    }
  }

  lemma {:induction false} ClassifiedOrigins(ctx: Context, st: State, line: string, def: Option<Def>)
    ensures var r := Classified(ctx, st, line, def);
      |st.origins| <= |r.origins| && r.origins[..|st.origins|] == st.origins
  {
    var u := if def.Some? && def.value.cuda then st.(inNvccDef := true, inNvccCode := true) else st;
    match def
    case None => FinishOrigins(ctx, u, line, def, None);
    case Some(d) =>
      if d.name in ctx.used {
        FinishOrigins(ctx, Define(u, d.name), line, def, Some(d.name));
      } else if !ctx.filter.labels {
        FinishOrigins(ctx, u, line, def, None);
      }
  }

  lemma {:induction false} FinishOrigins(ctx: Context, st: State, line: string, def: Option<Def>, definer: Option<string>)
    ensures var r := Finish(ctx, st, line, def, definer);
      |st.origins| <= |r.origins| && r.origins[..|st.origins|] == st.origins
  {
    var r := Finish(ctx, st, line, def, definer);
    assert r.origins == st.origins || r.origins[..|st.origins|] == st.origins;
  }

  // ---------------------------------------------------------------- what one line does

  /** A comment the comment-only filter matches produces no output */
  lemma {:induction false} CommentDropped(ctx: Context, st: State, raw: string)
    requires !IsBlank(raw) && CommentLine(ctx, st.inNvccCode, raw)
    ensures StepLine(ctx, st, raw).asm == st.asm
  {
  }

  /** With label filtering on, the definition of a label nothing uses produces no output and no definition */
  lemma {:induction false} UnusedLabelDropped(ctx: Context, st: State, raw: string, d: Def)
    requires !IsBlank(raw) && !CommentLine(ctx, st.inNvccCode, raw) && ctx.filter.labels
    requires Definition(ctx.o, Seen(st.custom, raw)) == Some(d) && d.name !in ctx.used
    ensures StepLine(ctx, st, raw).asm == st.asm && StepLine(ctx, st, raw).defs == st.defs
  {
  }

  /** A line with ink that is no filtered comment goes through the definition step */
  lemma {:induction false} StepBody(ctx: Context, st: State, raw: string)
    requires !IsBlank(raw) && !CommentLine(ctx, st.inNvccCode, raw)
    ensures var line := Seen(st.custom, raw);
      StepLine(ctx, st, raw) == Classified(ctx, Track(ctx, st, raw), line, Definition(ctx.o, line))
  {
  }

  /** The definition of a used label is always output, without references, and recorded at its 1-based line */
  lemma {:induction false} UsedLabelRecorded(ctx: Context, st: State, raw: string, d: Def)
    requires !IsBlank(raw) && !CommentLine(ctx, st.inNvccCode, raw)
    requires Definition(ctx.o, Seen(st.custom, raw)) == Some(d) && d.name in ctx.used
    ensures var r := StepLine(ctx, st, raw);
      && |r.asm| == |st.asm| + 1 && r.asm[..|st.asm|] == st.asm
      && r.asm[|st.asm|].labels == []
      && r.defs == st.defs[d.name := |r.asm|]
  {
    StepBody(ctx, st, raw);
    DefinitionPushed(ctx, Track(ctx, st, raw), Seen(st.custom, raw), d);
  }

  lemma {:induction false} DefinitionPushed(ctx: Context, st: State, line: string, d: Def)
    requires d.name in ctx.used
    ensures var r := Classified(ctx, st, line, Some(d));
      && |r.asm| == |st.asm| + 1 && r.asm[..|st.asm|] == st.asm
      && r.asm[|st.asm|].labels == []
      && r.defs == st.defs[d.name := |r.asm|]
  {
    var u := if d.cuda then st.(inNvccDef := true, inNvccCode := true) else st;
    var v := Define(u, d.name);
    var w := if v.inNvccDef then v.(inNvccDef := !CudaEndDef(line)) else v;
    var r := Classified(ctx, st, line, Some(d));
    assert r == Push(ctx, w, line, Some(d), Some(d.name));
    assert r.asm[..|st.asm|] == st.asm;
  }

  /** With directive filtering on, a directive that defines nothing, is not data after a used label and is no `.inst` produces no output */
  lemma {:induction false} DirectiveDropped(ctx: Context, st: State, raw: string)
    requires !IsBlank(raw) && !CommentLine(ctx, st.inNvccCode, raw) && !st.inNvccDef
    requires var t := Track(ctx, st, raw); var line := Seen(st.custom, raw);
      DroppedDirective(ctx, t, line, Definition(ctx.o, line))
    ensures StepLine(ctx, st, raw).asm == st.asm
  {
  }

  /** The end of a function or section forgets the source position: a line ending a block never carries one */
  lemma {:induction false} EndBlockHasNoSource(ctx: Context, st: State, raw: string)
    requires !IsBlank(raw) && EndBlock(raw)
    ensures NoSourceAfter(StepLine(ctx, st, raw).asm, |st.asm|)
  {
    var t := Track(ctx, st, raw);
    if !CommentLine(ctx, t.inNvccCode, raw) {
      StepBody(ctx, st, raw);
      var line := Seen(st.custom, raw);
      UnknownPositionKept(ctx, t, line, Definition(ctx.o, line));
    }
  }

  /** Without a known position, no line the definition step outputs carries one */
  lemma {:induction false} UnknownPositionKept(ctx: Context, st: State, line: string, def: Option<Def>)
    requires st.pos.source.None?
    ensures NoSourceAfter(Classified(ctx, st, line, def).asm, |st.asm|)
  {
    var u := if def.Some? && def.value.cuda then st.(inNvccDef := true, inNvccCode := true) else st;
    match def
    case None => FinishUnknown(ctx, u, line, def, None);
    case Some(d) =>
      if d.name in ctx.used {
        FinishUnknown(ctx, Define(u, d.name), line, def, Some(d.name));
      } else if !ctx.filter.labels {
        FinishUnknown(ctx, u, line, def, None);
      }
  }

  lemma {:induction false} FinishUnknown(ctx: Context, st: State, line: string, def: Option<Def>, definer: Option<string>)
    requires st.pos.source.None?
    ensures NoSourceAfter(Finish(ctx, st, line, def, definer).asm, |st.asm|)
  {
    if st.inNvccDef {
      PushUnknown(ctx, st.(inNvccDef := !CudaEndDef(line)), line, def, definer);
    } else if !DroppedDirective(ctx, st, line, def) {
      PushUnknown(ctx, st, line, def, definer);
    }
  }

  lemma {:induction false} PushUnknown(ctx: Context, st: State, line: string, def: Option<Def>, definer: Option<string>)
    requires st.pos.source.None?
    ensures NoSourceAfter(Push(ctx, st, line, def, definer).asm, |st.asm|)
  {
  }

  /** No output line from index `k` on carries a source position */
  predicate NoSourceAfter(asm: seq<AsmLine>, k: nat) {
    forall i :: k <= i < |asm| ==> asm[i].source.None?
  }

  // ---------------------------------------------------------------- where each output line comes from

  /**
   * Output line `l` is what `origin` makes of it: the blank line, or the
   * seen line with its tabs expanded and filtered, carrying the tracked
   * source position if that line has an opcode and none otherwise; the
   * definition recorded is the one the patterns find in the line
   */
  predicate MadeFrom(o: Oracles, filter: AsmFilter, l: AsmLine, origin: Origin) {
    match origin
    case Blank => l.text == "" && l.source.None?
    case From(line, nvcc, def, pos) =>
      && def == Definition(o, line)
      && l.text == FilterAsmLine(ExpandTabs(line), filter)
      && l.source == (if HasOpcode(ExpandTabs(line), nvcc) then pos else None)
  }

  /**
   * The references an output line made from `origin` carries before
   * pruning: those found in its text, unless the line defines a label
   */
  function RefsOf(origin: Origin, text: string): seq<AsmLabel> {
    if origin.From? && origin.def.None? then UsedLabelsInLine(text) else []
  }

  /** Every output line carries the references of its origin */
  predicate RefsTraced(asm: seq<AsmLine>, origins: seq<Origin>) {
    |origins| == |asm| && forall i :: 0 <= i < |asm| ==> asm[i].labels == RefsOf(origins[i], asm[i].text)
  }

  /** Every output line carries the references of its origin whose label is defined, in their order */
  predicate PrunedRefsTraced(asm: seq<AsmLine>, origins: seq<Origin>, defs: map<string, nat>) {
    |origins| == |asm| && forall i :: 0 <= i < |asm| ==> asm[i].labels == KeepDefined(RefsOf(origins[i], asm[i].text), defs)
  }

  /** `origin` is a line that defines the label `n` */
  predicate DefinedBy(origin: Origin, n: string) {
    origin.From? && origin.def.Some? && origin.def.value.name == n
  }

  /** Every output line is made from its origin */
  predicate LinesTraced(o: Oracles, filter: AsmFilter, asm: seq<AsmLine>, origins: seq<Origin>) {
    |origins| == |asm| && forall i :: 0 <= i < |asm| ==> MadeFrom(o, filter, asm[i], origins[i])
  }

  /** Every definition points at a line that defines its label */
  predicate DefsTraced(origins: seq<Origin>, defs: map<string, nat>) {
    forall n :: n in defs ==> 1 <= defs[n] <= |origins| && DefinedBy(origins[defs[n] - 1], n)
  }

  predicate Traced(ctx: Context, st: State) {
    LinesTraced(ctx.o, ctx.filter, st.asm, st.origins) && DefsTraced(st.origins, st.defs) && RefsTraced(st.asm, st.origins)
  }

  lemma {:induction false} LinesAppend(o: Oracles, filter: AsmFilter, asm: seq<AsmLine>, origins: seq<Origin>, l: AsmLine, origin: Origin)
    requires LinesTraced(o, filter, asm, origins) && MadeFrom(o, filter, l, origin)
    ensures LinesTraced(o, filter, asm + [l], origins + [origin])
  {
  }

  lemma {:induction false} RefsAppend(asm: seq<AsmLine>, origins: seq<Origin>, l: AsmLine, origin: Origin)
    requires RefsTraced(asm, origins) && l.labels == RefsOf(origin, l.text)
    ensures RefsTraced(asm + [l], origins + [origin])
  {
  }

  lemma {:induction false} DefsAppend(origins: seq<Origin>, defs: map<string, nat>, origin: Origin)
    requires DefsTraced(origins, defs)
    ensures DefsTraced(origins + [origin], defs)
  {
    assert forall i :: 0 <= i < |origins| ==> (origins + [origin])[i] == origins[i];
  }

  lemma {:induction false} DefsAppendDefining(origins: seq<Origin>, defs: map<string, nat>, origin: Origin, n: string)
    requires DefsTraced(origins, defs) && DefinedBy(origin, n)
    ensures DefsTraced(origins + [origin], defs[n := |origins| + 1])
  {
    var all, defs' := origins + [origin], defs[n := |origins| + 1];
    forall m | m in defs'
      ensures 1 <= defs'[m] <= |all| && DefinedBy(all[defs'[m] - 1], m)
    {
      if m == n {
        assert all[defs'[m] - 1] == origin;
      } else {
        assert defs'[m] == defs[m];
        DefsTracedAt(origins, defs, m);
        assert all[defs[m] - 1] == origins[defs[m] - 1];
      }
    }
  }

  lemma {:induction false} DefsTracedAt(origins: seq<Origin>, defs: map<string, nat>, m: string)
    requires DefsTraced(origins, defs) && m in defs
    ensures 1 <= defs[m] <= |origins| && DefinedBy(origins[defs[m] - 1], m)
  {
  }

  /** The output line is made from the line it was pushed for */
  lemma {:induction false} OutputMadeFrom(ctx: Context, st: State, line: string, def: Option<Def>)
    requires def == Definition(ctx.o, line)
    ensures MadeFrom(ctx.o, ctx.filter, OutputLine(ctx, st, line, def), From(line, st.inNvccCode, def, st.pos.source))
    ensures var l := OutputLine(ctx, st, line, def); l.labels == RefsOf(From(line, st.inNvccCode, def, st.pos.source), l.text)
  {
  }

  lemma {:induction false} TracedBlank(ctx: Context, st: State)
    requires Traced(ctx, st)
    ensures Traced(ctx, MaybeAddBlank(st))
  {
    if MaybeAddBlank(st) != st {
      LinesAppend(ctx.o, ctx.filter, st.asm, st.origins, BlankLine, Blank);
      DefsAppend(st.origins, st.defs, Blank);
      RefsAppend(st.asm, st.origins, BlankLine, Blank);
    }
  }

  lemma {:induction false} TracedPush(ctx: Context, st: State, line: string, def: Option<Def>, definer: Option<string>)
    requires Traced(ctx, st) && def == Definition(ctx.o, line)
    ensures Traced(ctx, Push(ctx, st, line, def, definer))
  {
    var origin := From(line, st.inNvccCode, def, st.pos.source);
    OutputMadeFrom(ctx, st, line, def);
    LinesAppend(ctx.o, ctx.filter, st.asm, st.origins, OutputLine(ctx, st, line, def), origin);
    DefsAppend(st.origins, st.defs, origin);
    RefsAppend(st.asm, st.origins, OutputLine(ctx, st, line, def), origin);
  }

  lemma {:induction false} TracedFinish(ctx: Context, st: State, line: string, def: Option<Def>, definer: Option<string>)
    requires Traced(ctx, st) && def == Definition(ctx.o, line)
    ensures Traced(ctx, Finish(ctx, st, line, def, definer))
  {
    if st.inNvccDef {
      TracedPush(ctx, st.(inNvccDef := !CudaEndDef(line)), line, def, definer);
    } else if !DroppedDirective(ctx, st, line, def) {
      TracedPush(ctx, st, line, def, definer);
    }
  }

  /** Recording a definition and pushing the line that makes it points the definition at that line */
  lemma {:induction false} TracedDefining(ctx: Context, st: State, line: string, d: Def)
    requires Traced(ctx, st) && Definition(ctx.o, line) == Some(d)
    ensures Traced(ctx, Finish(ctx, Define(st, d.name), line, Some(d), Some(d.name)))
  {
    var v := Define(st, d.name);
    var w := if v.inNvccDef then v.(inNvccDef := !CudaEndDef(line)) else v;
    assert Finish(ctx, v, line, Some(d), Some(d.name)) == Push(ctx, w, line, Some(d), Some(d.name));
    DefiningPushed(ctx, st, w, line, d);
  }

  lemma {:induction false} DefiningPushed(ctx: Context, st: State, w: State, line: string, d: Def)
    requires Traced(ctx, st) && Definition(ctx.o, line) == Some(d)
    requires w.asm == st.asm && w.origins == st.origins && w.defs == st.defs[d.name := |st.asm| + 1]
    ensures Traced(ctx, Push(ctx, w, line, Some(d), Some(d.name)))
  {
    var origin := From(line, w.inNvccCode, Some(d), w.pos.source);
    OutputMadeFrom(ctx, w, line, Some(d));
    LinesAppend(ctx.o, ctx.filter, st.asm, st.origins, OutputLine(ctx, w, line, Some(d)), origin);
    DefsAppendDefining(st.origins, st.defs, origin, d.name);
    RefsAppend(st.asm, st.origins, OutputLine(ctx, w, line, Some(d)), origin);
  }

  lemma {:induction false} TracedClassified(ctx: Context, st: State, line: string)
    requires Traced(ctx, st)
    ensures Traced(ctx, Classified(ctx, st, line, Definition(ctx.o, line)))
  {
    var def := Definition(ctx.o, line);
    var u := if def.Some? && def.value.cuda then st.(inNvccDef := true, inNvccCode := true) else st;
    match def
    case None => TracedFinish(ctx, u, line, def, None);
    case Some(d) =>
      if d.name in ctx.used {
        TracedDefining(ctx, u, line, d);
      } else if !ctx.filter.labels {
        TracedFinish(ctx, u, line, def, None);
      }
  }

  lemma {:induction false} TracedStep(ctx: Context, st: State, raw: string)
    requires Traced(ctx, st)
    ensures Traced(ctx, StepLine(ctx, st, raw))
  {
    if IsBlank(raw) {
      TracedBlank(ctx, st);
    } else {
      var t := Track(ctx, st, raw);
      assert Traced(ctx, t);
      if !CommentLine(ctx, t.inNvccCode, raw) {
        TracedClassified(ctx, t, Seen(st.custom, raw));
      }
    }
  }

  lemma {:induction false} TracedRun(ctx: Context, lines: seq<string>, st: State)
    requires Traced(ctx, st)
    ensures Traced(ctx, Run(ctx, lines, st))
    decreases |lines|
  {
    if lines != [] {
      TracedStep(ctx, st, lines[0]);
      TracedRun(ctx, lines[1..], StepLine(ctx, st, lines[0]));
    }
  }

  // ---------------------------------------------------------------- from a `.loc` to the next line

  /** A line that leaves the source position alone: blank, or no directive, no end of a block and no `}` */
  predicate KeepsPosition(raw: string) {
    IsBlank(raw) || (AfterDot(raw).None? && !EndBlock(raw) && '}' !in raw)
  }

  /** The definition step never changes the source position: a line ends with the position its head tracked */
  lemma {:induction false} StepSource(ctx: Context, st: State, raw: string)
    requires !IsBlank(raw)
    ensures StepLine(ctx, st, raw).pos.source == Track(ctx, st, raw).pos.source
  {
    var t := Track(ctx, st, raw);
    if !CommentLine(ctx, t.inNvccCode, raw) {
      var line := Seen(st.custom, raw);
      StepBody(ctx, st, raw);
      ClassifiedSource(ctx, t, line, Definition(ctx.o, line));
    }
  }

  lemma {:induction false} ClassifiedSource(ctx: Context, st: State, line: string, def: Option<Def>)
    ensures Classified(ctx, st, line, def).pos.source == st.pos.source
  {
    var u := if def.Some? && def.value.cuda then st.(inNvccDef := true, inNvccCode := true) else st;
    match def
    case None => FinishSource(ctx, u, line, def, None);
    case Some(d) =>
      if d.name in ctx.used {
        FinishSource(ctx, Define(u, d.name), line, def, Some(d.name));
      } else if !ctx.filter.labels {
        FinishSource(ctx, u, line, def, None);
      }
  }

  lemma {:induction false} FinishSource(ctx: Context, st: State, line: string, def: Option<Def>, definer: Option<string>)
    ensures Finish(ctx, st, line, def, definer).pos.source == st.pos.source
  {
  }

  /** Lines that keep the position pass it on unchanged */
  lemma {:induction false} RunKeepsSource(ctx: Context, lines: seq<string>, st: State)
    requires forall k :: 0 <= k < |lines| ==> KeepsPosition(lines[k])
    ensures Run(ctx, lines, st).pos.source == st.pos.source
    decreases |lines|
  {
    if lines != [] {
      if !IsBlank(lines[0]) {
        StepSource(ctx, st, lines[0]);
      }
      RunKeepsSource(ctx, lines[1..], StepLine(ctx, st, lines[0]));
    }
  }

  /** A `.loc` for a file of the table, on a line ending no block, sets the position it names */
  lemma {:induction false} StepLoc(ctx: Context, st: State, raw: string, loc: Loc)
    requires LocTag(raw) == Some(loc) && loc.file in ctx.files && ctx.files[loc.file] != []
    requires !EndBlock(raw) && '}' !in raw
    ensures var file := ctx.files[loc.file];
      StepLine(ctx, st, raw).pos.source == Some(AsmSource(
        if StdInLooking(file) then None else Some(file),
        loc.line,
        if loc.column.Some? && loc.column.value != 0 then loc.column.value else 0))
  {
    LocIsNoOtherDirective(raw);
    assert !IsBlank(raw) by {
      var u := LocAfterDot(raw);
    }
    StepSource(ctx, st, raw);
  }

  /** `s` and `s` followed by `t` split at the end of `s` */
  lemma {:induction false} RunSplit(ctx: Context, s: seq<string>, t: seq<string>, st: State)
    ensures Run(ctx, s + t, st) == Run(ctx, t, Run(ctx, s, st))
    decreases |s|
  {
    if s != [] {
      assert (s + t)[0] == s[0] && (s + t)[1..] == s[1..] + t;
      RunSplit(ctx, s[1..], t, StepLine(ctx, st, s[0]));
    } else {
      assert s + t == t;
    }
  }

  /**
   * After a `.loc` for a file of the table and lines that keep the position,
   * the line output for the next line comes from it with that position: it
   * carries the position if it has an opcode, and none otherwise
   */
  lemma {:induction false} LocReachesNextLine(ctx: Context, st: State, raw: string, loc: Loc, mid: seq<string>, next: string)
    requires Traced(ctx, st)
    requires LocTag(raw) == Some(loc) && loc.file in ctx.files && ctx.files[loc.file] != []
    requires !EndBlock(raw) && '}' !in raw
    requires forall k :: 0 <= k < |mid| ==> KeepsPosition(mid[k])
    requires !IsBlank(next) && KeepsPosition(next)
    ensures var s1 := Run(ctx, [raw] + mid, st); var s2 := StepLine(ctx, s1, next);
      var file := ctx.files[loc.file];
      var src := AsmSource(
        if StdInLooking(file) then None else Some(file),
        loc.line,
        if loc.column.Some? && loc.column.value != 0 then loc.column.value else 0);
      |s1.asm| < |s2.asm| ==>
        && |s1.asm| < |s2.origins|
        && s2.origins[|s1.asm|].From?
        && s2.origins[|s1.asm|].line == Seen(s1.custom, next)
        && s2.origins[|s1.asm|].pos == Some(src)
        && s2.asm[|s1.asm|].source ==
          (if HasOpcode(ExpandTabs(s2.origins[|s1.asm|].line), s2.origins[|s1.asm|].nvcc) then Some(src) else None)
  {
    var s0 := StepLine(ctx, st, raw);
    StepLoc(ctx, st, raw, loc);
    assert ([raw] + mid)[1..] == mid;
    var s1 := Run(ctx, [raw] + mid, st);
    assert s1 == Run(ctx, mid, s0);
    RunKeepsSource(ctx, mid, s0);
    TracedStep(ctx, st, raw);
    TracedRun(ctx, mid, s0);
    var s2 := StepLine(ctx, s1, next);
    TracedStep(ctx, s1, next);
    if |s1.asm| < |s2.asm| {
      var t := Track(ctx, s1, next);
      assert t.pos.source == s1.pos.source;
      assert !CommentLine(ctx, t.inNvccCode, next);
      var line := Seen(s1.custom, next);
      StepBody(ctx, s1, next);
      ClassifiedOrigin(ctx, t, line, Definition(ctx.o, line));
      assert MadeFrom(ctx.o, ctx.filter, s2.asm[|s1.asm|], s2.origins[|s1.asm|]);
    }
  }

  /** A line the definition step outputs comes from that line, with the position of the state */
  lemma {:induction false} ClassifiedOrigin(ctx: Context, st: State, line: string, def: Option<Def>)
    requires |st.origins| == |st.asm|
    ensures var r := Classified(ctx, st, line, def);
      |st.asm| < |r.asm| ==>
        |st.asm| < |r.origins| && r.origins[|st.asm|].From? && r.origins[|st.asm|].line == line && r.origins[|st.asm|].pos == st.pos.source
  {
    var u := if def.Some? && def.value.cuda then st.(inNvccDef := true, inNvccCode := true) else st;
    match def
    case None => FinishOrigin(ctx, u, line, def, None);
    case Some(d) =>
      if d.name in ctx.used {
        FinishOrigin(ctx, Define(u, d.name), line, def, Some(d.name));
      } else if !ctx.filter.labels {
        FinishOrigin(ctx, u, line, def, None);
      }
  }

  lemma {:induction false} FinishOrigin(ctx: Context, st: State, line: string, def: Option<Def>, definer: Option<string>)
    requires |st.origins| == |st.asm|
    ensures var r := Finish(ctx, st, line, def, definer);
      |st.asm| < |r.asm| ==>
        |st.asm| < |r.origins| && r.origins[|st.asm|].From? && r.origins[|st.asm|].line == line && r.origins[|st.asm|].pos == st.pos.source
  {
  }

  // ---------------------------------------------------------------- without filters

  /** No filter that drops lines is on */
  predicate Unfiltered(f: AsmFilter) {
    !f.commentOnly && !f.directives && !f.labels
  }

  /** The number of output lines with text */
  function Inked(asm: seq<AsmLine>): nat {
    if asm == [] then 0 else Inked(asm[..|asm| - 1]) + (if asm[|asm| - 1].text != "" then 1 else 0)
  }

  /** The number of input lines with ink */
  function InkedLines(lines: seq<string>): nat {
    if lines == [] then 0 else (if IsBlank(lines[0]) then 0 else 1) + InkedLines(lines[1..])
  }

  /** Without filters the definition step always outputs the line */
  lemma {:induction false} ClassifiedPushes(ctx: Context, st: State, line: string, def: Option<Def>)
    requires Unfiltered(ctx.filter) && line != []
    ensures var r := Classified(ctx, st, line, def);
      |r.asm| == |st.asm| + 1 && r.asm[..|st.asm|] == st.asm && r.asm[|st.asm|].text != []
  {
    var u := if def.Some? && def.value.cuda then st.(inNvccDef := true, inNvccCode := true) else st;
    var v := if def.Some? && def.value.name in ctx.used then Define(u, def.value.name) else u;
    var w := if v.inNvccDef then v.(inNvccDef := !CudaEndDef(line)) else v;
    var definer := if def.Some? && def.value.name in ctx.used then Some(def.value.name) else None;
    var r := Classified(ctx, st, line, def);
    assert r == Push(ctx, w, line, def, definer);
    assert r.asm[..|st.asm|] == st.asm;
  }

  lemma {:induction false} InkedAppend(asm: seq<AsmLine>, l: AsmLine)
    ensures Inked(asm + [l]) == Inked(asm) + (if l.text != "" then 1 else 0)
  {
    assert (asm + [l])[..|asm|] == asm;
  }

  lemma {:induction false} StepKeepsInk(ctx: Context, st: State, raw: string)
    requires Unfiltered(ctx.filter)
    ensures Inked(StepLine(ctx, st, raw).asm) == Inked(st.asm) + (if IsBlank(raw) then 0 else 1)
  {
    if IsBlank(raw) {
      BlankKeepsInk(st);
    } else {
      InkedLineCounted(ctx, st, raw);
    }
  }

  lemma {:induction false} BlankKeepsInk(st: State)
    ensures Inked(MaybeAddBlank(st).asm) == Inked(st.asm)
  {
    if MaybeAddBlank(st).asm != st.asm {
      InkedAppend(st.asm, BlankLine);
    }
  }

  lemma {:induction false} InkedLineCounted(ctx: Context, st: State, raw: string)
    requires Unfiltered(ctx.filter) && !IsBlank(raw)
    ensures Inked(StepLine(ctx, st, raw).asm) == Inked(st.asm) + 1
  {
    StepBody(ctx, st, raw);
    SeenHasInk(st.custom, raw);
    ClassifiedInk(ctx, Track(ctx, st, raw), Seen(st.custom, raw), Definition(ctx.o, Seen(st.custom, raw)));
  }

  lemma {:induction false} ClassifiedInk(ctx: Context, st: State, line: string, def: Option<Def>)
    requires Unfiltered(ctx.filter) && line != []
    ensures Inked(Classified(ctx, st, line, def).asm) == Inked(st.asm) + 1
  {
    var c := Classified(ctx, st, line, def);
    ClassifiedPushes(ctx, st, line, def);
    assert c.asm == st.asm + [c.asm[|st.asm|]];
    InkedAppend(st.asm, c.asm[|st.asm|]);
  }

  /** Without filters every input line with ink gives exactly one output line with text */
  lemma {:induction false} RunKeepsInk(ctx: Context, lines: seq<string>, st: State)
    requires Unfiltered(ctx.filter)
    ensures Inked(Run(ctx, lines, st).asm) == Inked(st.asm) + InkedLines(lines)
    decreases |lines|
  {
    if lines != [] {
      StepKeepsInk(ctx, st, lines[0]);
      RunKeepsInk(ctx, lines[1..], StepLine(ctx, st, lines[0]));
    }
  }

  /** Pruning references keeps every text */
  lemma {:induction false} InkedPruned(asm: seq<AsmLine>, defs: map<string, nat>)
    ensures Inked(RemoveUndefined(asm, defs)) == Inked(asm)
    decreases |asm|
  {
    if asm != [] {
      var r := RemoveUndefined(asm, defs);
      var init := asm[..|asm| - 1];
      InkedPruned(init, defs);
      assert r[..|r| - 1] == RemoveUndefined(init, defs);
    }
  }

  // ---------------------------------------------------------------- the pass

  /** The listing as the loop sees it: one-line block comments removed under the comment-only filter, then split */
  function InputLines(o: Oracles, text: string, filter: AsmFilter): seq<string> {
    SplitLines(if filter.commentOnly then o.stripBlockComments(text) else text)
  }

  function ContextOf(o: Oracles, filter: AsmFilter, lines: seq<string>): Context {
    Context(o, filter, FindUsedLabels(o, lines, filter.directives), ParseFiles(lines))
  }

  /**
   * What the pass promises of its result: no blank line first or twice in
   * a row, only text-mode lines, every reference defined and inside its
   * line's text, and every definition a used label whose line has text and
   * no references.
   */
  predicate Tidy(r: AsmParserResult, used: set<string>) {
    && NoBlankRuns(r.asm)
    && (forall i :: 0 <= i < |r.asm| ==> r.asm[i].Line?)
    && (forall i, l :: 0 <= i < |r.asm| && l in r.asm[i].labels ==>
      Defined(r.labelDefinitions, l.name) && PointsInto(r.asm[i].text, l))
    && (forall n :: n in r.labelDefinitions ==>
      && n in used
      && 1 <= r.labelDefinitions[n] <= |r.asm|
      && r.asm[r.labelDefinitions[n] - 1].labels == []
      && r.asm[r.labelDefinitions[n] - 1].text != "")
  }

  /** The loop's invariant makes the pruned output tidy */
  lemma {:induction false} PrunedIsTidy(used: set<string>, st: State)
    requires Inv(used, st)
    ensures Tidy(AsmParserResult(RemoveUndefined(st.asm, st.defs), st.defs), used)
  {
  }

  /** `processAsm(asmResult, filter)`: a tidy result with at most one output line per input line */
  function ProcessAsm(o: Oracles, text: string, filter: AsmFilter): (r: AsmParserResult)
    ensures |r.asm| <= |InputLines(o, text, filter)|
    ensures Tidy(r, FindUsedLabels(o, InputLines(o, text, filter), filter.directives))
  {
    var lines := InputLines(o, text, filter);
    var ctx := ContextOf(o, filter, lines);
    var st := Run(ctx, lines, Start);
    RunKeeps(ctx, lines, Start);
    RunAppends(ctx, lines, Start);
    PrunedIsTidy(ctx.used, st);
    AsmParserResult(RemoveUndefined(st.asm, st.defs), st.defs)
  }

  /** Where each line of the result of `processAsm` comes from */
  function Trace(o: Oracles, text: string, filter: AsmFilter): seq<Origin> {
    var lines := InputLines(o, text, filter);
    Run(ContextOf(o, filter, lines), lines, Start).origins
  }

  /**
   * Each output line is the blank line or a seen input line with its tabs
   * expanded and filtered; only a line with an opcode carries a source
   * position; a line defining no label carries, in order, the references
   * found in its text whose label is defined, and other lines none; and
   * each label definition points at a line defining it.
   */
  lemma {:induction false} ProcessAsmTraced(o: Oracles, text: string, filter: AsmFilter)
    ensures var r := ProcessAsm(o, text, filter); var tr := Trace(o, text, filter);
      && LinesTraced(o, filter, r.asm, tr) && DefsTraced(tr, r.labelDefinitions)
      && PrunedRefsTraced(r.asm, tr, r.labelDefinitions)
  {
    var lines := InputLines(o, text, filter);
    var ctx := ContextOf(o, filter, lines);
    var st := Run(ctx, lines, Start);
    TracedRun(ctx, lines, Start);
    PrunedTraced(ctx, st, ProcessAsm(o, text, filter), Trace(o, text, filter));
  }

  /** Pruning references keeps what each line is made from */
  lemma {:induction false} PrunedTraced(ctx: Context, st: State, r: AsmParserResult, tr: seq<Origin>)
    requires Traced(ctx, st) && tr == st.origins
    requires r == AsmParserResult(RemoveUndefined(st.asm, st.defs), st.defs)
    ensures LinesTraced(ctx.o, ctx.filter, r.asm, tr) && DefsTraced(tr, r.labelDefinitions)
    ensures PrunedRefsTraced(r.asm, tr, r.labelDefinitions)
  {
    forall i | 0 <= i < |r.asm|
      ensures MadeFrom(ctx.o, ctx.filter, r.asm[i], tr[i])
      ensures r.asm[i].labels == KeepDefined(RefsOf(tr[i], r.asm[i].text), r.labelDefinitions)
    {
      assert r.asm[i].text == st.asm[i].text && r.asm[i].source == st.asm[i].source;
      assert r.asm[i].labels == KeepDefined(st.asm[i].labels, st.defs);
    }
  }

  /**
   * In the result of `processAsm`, the instruction line that follows a
   * `.loc` for a file of the table, with only lines that keep the position
   * in between, carries the position the `.loc` names, if it is output
   */
  lemma {:induction false} LocReachesInstruction(o: Oracles, text: string, filter: AsmFilter, i: nat, j: nat, loc: Loc, sp: string, mnemonic: string, operands: string)
    requires var lines := InputLines(o, text, filter);
      && i < j < |lines|
      && LocTag(lines[i]) == Some(loc) && loc.file in ParseFiles(lines)
      && !EndBlock(lines[i]) && '}' !in lines[i]
      && (forall k :: i < k < j ==> KeepsPosition(lines[k]))
      && lines[j] == sp + mnemonic + operands && !EndBlock(lines[j]) && '}' !in lines[j]
    requires AllChars(sp, IsSpace) && '\t' !in sp && |mnemonic| > 0 && AllChars(mnemonic, IsLetter)
    requires ':' !in operands && '=' !in operands && '\t' !in operands
    ensures var lines := InputLines(o, text, filter);
      var ctx := ContextOf(o, filter, lines);
      var k := |Run(ctx, lines[..j], Start).asm|;
      var file := ParseFiles(lines)[loc.file];
      var r := ProcessAsm(o, text, filter);
      k < |Run(ctx, lines[..j + 1], Start).asm| ==>
        k < |r.asm| && r.asm[k].source == Some(AsmSource(
          if StdInLooking(file) then None else Some(file),
          loc.line,
          if loc.column.Some? && loc.column.value != 0 then loc.column.value else 0))
  {
    var lines := InputLines(o, text, filter);
    var ctx := ContextOf(o, filter, lines);
    var s1 := Run(ctx, lines[..j], Start);
    InstructionLine(sp, mnemonic, operands, s1.custom);
    assert KeepsPosition(lines[j]) && !IsBlank(lines[j]);
    LocReachesLine(ctx, lines, i, j, loc);
  }

  /**
   * Over a whole listing: the output line of line `j`, which follows a
   * `.loc` at line `i` with only lines that keep the position in between,
   * is made from line `j` as seen and, at the end of the loop, carries that
   * `.loc`'s position when it has an opcode
   */
  lemma {:induction false} LocReachesLine(ctx: Context, lines: seq<string>, i: nat, j: nat, loc: Loc)
    requires i < j < |lines|
    requires LocTag(lines[i]) == Some(loc) && loc.file in ctx.files && ctx.files[loc.file] != []
    requires !EndBlock(lines[i]) && '}' !in lines[i]
    requires forall k :: i < k < j ==> KeepsPosition(lines[k])
    requires !IsBlank(lines[j]) && KeepsPosition(lines[j])
    ensures var s1 := Run(ctx, lines[..j], Start); var k := |s1.asm|;
      var s2 := Run(ctx, lines[..j + 1], Start); var st := Run(ctx, lines, Start);
      var file := ctx.files[loc.file];
      var src := AsmSource(
        if StdInLooking(file) then None else Some(file),
        loc.line,
        if loc.column.Some? && loc.column.value != 0 then loc.column.value else 0);
      k < |s2.asm| ==>
        && k < |st.asm| && k < |st.origins|
        && st.origins[k].From? && st.origins[k].line == Seen(s1.custom, lines[j])
        && st.asm[k].source == (if HasOpcode(ExpandTabs(st.origins[k].line), st.origins[k].nvcc) then Some(src) else None)
  {
    LocAtLine(ctx, lines, i, j, loc);
    var k := |Run(ctx, lines[..j], Start).asm|;
    if k < |Run(ctx, lines[..j + 1], Start).asm| {
      SplitAround(lines, i, j);
      RunKeepsLine(ctx, lines[..j + 1], lines[j + 1..], Start, k);
    }
  }

  /** `LocReachesLine` for the loop up to and including line `j` */
  lemma {:induction false} LocAtLine(ctx: Context, lines: seq<string>, i: nat, j: nat, loc: Loc)
    requires i < j < |lines|
    requires LocTag(lines[i]) == Some(loc) && loc.file in ctx.files && ctx.files[loc.file] != []
    requires !EndBlock(lines[i]) && '}' !in lines[i]
    requires forall k :: i < k < j ==> KeepsPosition(lines[k])
    requires !IsBlank(lines[j]) && KeepsPosition(lines[j])
    ensures var s1 := Run(ctx, lines[..j], Start); var k := |s1.asm|;
      var s2 := Run(ctx, lines[..j + 1], Start);
      var file := ctx.files[loc.file];
      var src := AsmSource(
        if StdInLooking(file) then None else Some(file),
        loc.line,
        if loc.column.Some? && loc.column.value != 0 then loc.column.value else 0);
      k < |s2.asm| ==>
        && k < |s2.origins|
        && s2.origins[k].From? && s2.origins[k].line == Seen(s1.custom, lines[j])
        && s2.asm[k].source == (if HasOpcode(ExpandTabs(s2.origins[k].line), s2.origins[k].nvcc) then Some(src) else None)
  {
    var mid := lines[i + 1..j];
    MidKeeps(lines, i, j, mid);
    RunAround(ctx, lines, i, j);
    TracedRun(ctx, lines[..i], Start);
    LocReachesNextLine(ctx, Run(ctx, lines[..i], Start), lines[i], loc, mid, lines[j]);
  }

  /** The lines between `i` and `j` keep the position */
  lemma {:induction false} MidKeeps(lines: seq<string>, i: nat, j: nat, mid: seq<string>)
    requires i < j <= |lines| && mid == lines[i + 1..j]
    requires forall k :: i < k < j ==> KeepsPosition(lines[k])
    ensures forall m :: 0 <= m < |mid| ==> KeepsPosition(mid[m])
  {
    forall m | 0 <= m < |mid|
      ensures KeepsPosition(mid[m])
    {
      assert mid[m] == lines[i + 1 + m];
    }
  }

  /** The loop up to line `j` runs through line `i`, the lines between, and then takes line `j` */
  lemma {:induction false} RunAround(ctx: Context, lines: seq<string>, i: nat, j: nat)
    requires i < j < |lines|
    ensures Run(ctx, lines[..j], Start) == Run(ctx, [lines[i]] + lines[i + 1..j], Run(ctx, lines[..i], Start))
    ensures Run(ctx, lines[..j + 1], Start) == StepLine(ctx, Run(ctx, lines[..j], Start), lines[j])
  {
    SplitAround(lines, i, j);
    RunSplit(ctx, lines[..i], [lines[i]] + lines[i + 1..j], Start);
    RunSplit(ctx, lines[..j], [lines[j]], Start);
    assert [lines[j]][1..] == [];
  }

  /** Later lines leave every output line and its origin as they were */
  lemma {:induction false} RunKeepsLine(ctx: Context, s: seq<string>, t: seq<string>, st: State, k: nat)
    requires k < |Run(ctx, s, st).asm| && k < |Run(ctx, s, st).origins|
    ensures var a := Run(ctx, s, st); var b := Run(ctx, s + t, st);
      k < |b.asm| && k < |b.origins| && b.asm[k] == a.asm[k] && b.origins[k] == a.origins[k]
  {
    var a := Run(ctx, s, st);
    RunSplit(ctx, s, t, st);
    RunAppends(ctx, t, a);
    RunOrigins(ctx, t, a);
    var b := Run(ctx, s + t, st);
    assert b.asm[k] == b.asm[..|a.asm|][k];
    assert b.origins[k] == b.origins[..|a.origins|][k];
  }

  /** The three ways `lines` splits around a line `i` and a later line `j` */
  lemma {:induction false} SplitAround(lines: seq<string>, i: nat, j: nat)
    requires i < j < |lines|
    ensures lines[..j] == lines[..i] + ([lines[i]] + lines[i + 1..j])
    ensures lines[..j + 1] == lines[..j] + [lines[j]]
    ensures lines == lines[..j + 1] + lines[j + 1..]
  {
  }

  /** Indentation, a mnemonic and operands without tabs: no directive, ink, seen as written, and an opcode line in either mode */
  lemma {:induction false} InstructionLine(sp: string, mnemonic: string, operands: string, custom: int)
    requires AllChars(sp, IsSpace) && '\t' !in sp && |mnemonic| > 0 && AllChars(mnemonic, IsLetter)
    requires ':' !in operands && '=' !in operands && '\t' !in operands
    ensures var s := sp + mnemonic + operands;
      && AfterDot(s).None? && !IsBlank(s) && Seen(custom, s) == s && ExpandTabs(s) == s
      && HasOpcode(s, false) && HasOpcode(s, true)
  {
    var s := sp + mnemonic + operands;
    HasOpcodeOfInstruction(sp, mnemonic, operands);
    assert forall k :: 0 <= k < |sp| ==> s[k] == sp[k];
    assert s[|sp|] == mnemonic[0];
    SpaceIsNotPrintable(mnemonic[0]);
    SpanExact(s, |sp|, IsSpace);
    assert TrimStart(s)[0] == mnemonic[0];
    SpacesNoComment(sp);
    LettersNoComment(mnemonic);
    assert '\t' !in mnemonic by {
      assert forall k :: 0 <= k < |mnemonic| ==> IsLetter(mnemonic[k]);
    }
    NotInConcat(sp, mnemonic, operands, ':');
    NotInConcat(sp, mnemonic, operands, '\t');
    ExpandTabsWithoutTabs(s);
  }

  /** Without filters the listing keeps every line with ink: as many output lines have text as input lines have ink */
  lemma {:induction false} UnfilteredKeepsEveryLine(o: Oracles, text: string, filter: AsmFilter)
    requires Unfiltered(filter)
    ensures Inked(ProcessAsm(o, text, filter).asm) == InkedLines(InputLines(o, text, filter))
  {
    var lines := InputLines(o, text, filter);
    var ctx := ContextOf(o, filter, lines);
    var st := Run(ctx, lines, Start);
    RunKeepsInk(ctx, lines, Start);
    InkedPruned(st.asm, st.defs);
  }
}

=== FILE: text_utils.dfy ===
/**
 * The line helpers of src/utils.ts: splitting a listing into lines and
 * expanding tabs the way the replacement callback does it.
 */
module TextUtils {
  import opened Strings

  /** `parts.join(sep)` */
  function Join(parts: seq<string>, sep: string): string
  {
    if |parts| == 0 then ""
    else if |parts| == 1 then parts[0]
    else parts[0] + sep + Join(parts[1..], sep)
  }

  /** `text.split('\n')`: the pieces between line feeds, at least one */
  function SplitOnLF(text: string): (r: seq<string>)
    ensures |r| >= 1
    ensures forall i :: 0 <= i < |r| ==> '\n' !in r[i]
    decreases |text|
  {
    match IndexOf(text, '\n')
    case None => [text]
    case Some(k) => [text[..k]] + SplitOnLF(text[k + 1..])
  }

  /** Joining the pieces with line feeds gives the text back */
  lemma {:induction false} SplitOnLFJoin(text: string)
    ensures Join(SplitOnLF(text), "\n") == text
    decreases |text|
  {
    match IndexOf(text, '\n')
    case None =>
    case Some(k) =>
      var rest := SplitOnLF(text[k + 1..]);
      SplitOnLFJoin(text[k + 1..]);
      assert SplitOnLF(text) == [text[..k]] + rest;
      assert text == text[..k] + "\n" + text[k + 1..];
      assert ([text[..k]] + rest)[1..] == rest;
  }

  /**
   * `last` ends `text`: the whole of it when `whole`, otherwise a strictly
   * shorter suffix right after a line feed.
   */
  predicate EndPiece(text: string, last: string, whole: bool) {
    && EndsWith(text, last)
    && (whole ==> last == text)
    && (!whole ==> |last| < |text| && text[|text| - |last| - 1] == '\n')
  }

  /** The last piece of `text.split('\n')` is what follows the last line feed */
  lemma {:induction false} LastPiece(text: string, lf: seq<string>)
    requires lf == SplitOnLF(text)
    ensures |lf| >= 1 && EndPiece(text, lf[|lf| - 1], |lf| == 1)
    decreases |text|
  {
    match IndexOf(text, '\n')
    case None =>
    case Some(k) =>
      var rest := text[k + 1..];
      var pieces := SplitOnLF(rest);
      LastPiece(rest, pieces);
      LastPieceStep(text, k, pieces[|pieces| - 1], |pieces| == 1);
      assert lf == [text[..k]] + pieces;
  }

  lemma {:induction false} LastPieceStep(text: string, k: nat, last: string, whole: bool)
    requires k < |text| && text[k] == '\n' && EndPiece(text[k + 1..], last, whole)
    ensures EndPiece(text, last, false)
  {
    var rest := text[k + 1..];
    assert rest[|rest| - |last|..] == text[|text| - |last|..];
    if !whole {
      assert text[|text| - |last| - 1] == rest[|rest| - |last| - 1];
    }
  }

  /** A line that ended in CR LF loses its CR */
  function DropCR(piece: string): (r: string)
    ensures '\n' !in piece ==> '\n' !in r
  {
    if |piece| > 0 && piece[|piece| - 1] == '\r' then piece[..|piece| - 1] else piece
  }

  /** `text.split(/\r?\n/)`: the pieces of SplitOnLF, with one CR dropped before each LF */
  function SplitCRLF(text: string): (r: seq<string>)
    ensures |r| >= 1
    ensures forall i :: 0 <= i < |r| ==> '\n' !in r[i]
    decreases |text|
  {
    match IndexOf(text, '\n')
    case None => [text]
    case Some(k) => [DropCR(text[..k])] + SplitCRLF(text[k + 1..])
  }

  /**
   * `splitLines`: splits on LF or CR LF and drops exactly one trailing empty
   * piece, so a final line feed does not make an extra line.
   */
  function SplitLines(text: string): (r: seq<string>)
    ensures forall i :: 0 <= i < |r| ==> '\n' !in r[i]
    ensures r == DropEmptyLast(SplitOnLF(NormaliseLineEnds(text)))
  {
    SplitCRLFNormalised(text);
    var pieces := SplitCRLF(text);
    if pieces[|pieces| - 1] == "" then pieces[..|pieces| - 1] else pieces
  }

  /** Without carriage returns, joining the lines with LF and putting back a final LF gives the text back */
  lemma {:induction false} SplitLinesRoundTrip(text: string)
    requires '\r' !in text
    ensures Join(SplitLines(text), "\n") + (if EndsWith(text, "\n") then "\n" else "") == text
  {
    NormaliseWithoutCR(text);
    SplitLinesCRLFRoundTrip(text);
  }

  /**
   * The text with every CR that stands right before an LF taken out: the
   * text as it reads once a CR LF line end counts as a plain LF.
   */
  function NormaliseLineEnds(text: string): string
    decreases |text|
  {
    if |text| == 0 then ""
    else if |text| >= 2 && text[0] == '\r' && text[1] == '\n' then NormaliseLineEnds(text[1..])
    else [text[0]] + NormaliseLineEnds(text[1..])
  }

  /**
   * For any text, CR LF line ends included: joining the lines with LF and
   * putting back a final line end gives the text with its CR LF line ends
   * read as LF
   */
  lemma {:induction false} SplitLinesCRLFRoundTrip(text: string)
    ensures Join(SplitLines(text), "\n") + (if EndsWith(text, "\n") then "\n" else "") == NormaliseLineEnds(text)
  {
    var t := NormaliseLineEnds(text);
    SplitCRLFNormalised(text);
    SplitOnLFJoin(t);
    NormaliseKeepsLineEnd(text);
    RoundTripOfPieces(text, t, SplitOnLF(t));
  }

  lemma {:induction false} RoundTripOfPieces(text: string, t: string, lf: seq<string>)
    requires lf == SplitOnLF(t) && SplitCRLF(text) == lf && Join(lf, "\n") == t
    requires EndsWith(text, "\n") <==> EndsWith(t, "\n")
    ensures Join(SplitLines(text), "\n") + (if EndsWith(text, "\n") then "\n" else "") == t
  {
    LastPiece(t, lf);
    SplitLinesOf(text, lf);
    RoundTripFromPieces(t, lf);
  }

  /** `text.split(/\r?\n/)` is `text.split('\n')` of the normalised text */
  lemma {:induction false} SplitCRLFNormalised(text: string)
    ensures SplitCRLF(text) == SplitOnLF(NormaliseLineEnds(text))
    decreases |text|
  {
    match IndexOf(text, '\n')
    case None =>
      NormaliseNoLF(text);
    case Some(k) =>
      var a, rest := text[..k], text[k + 1..];
      assert text == a + "\n" + rest;
      NormaliseLine(a, rest);
      SplitCRLFNormalised(rest);
      SplitOnLFCons(DropCR(a), NormaliseLineEnds(rest));
  }

  /** A piece without LF is left alone */
  lemma {:induction false} NormaliseNoLF(a: string)
    requires '\n' !in a
    ensures NormaliseLineEnds(a) == a
    decreases |a|
  {
    if |a| > 0 {
      NormaliseNoLF(a[1..]);
      assert a == [a[0]] + a[1..];
    }
  }

  /** Text without CR is left alone */
  lemma {:induction false} NormaliseWithoutCR(text: string)
    requires '\r' !in text
    ensures NormaliseLineEnds(text) == text
    decreases |text|
  {
    if |text| > 0 {
      NormaliseWithoutCR(text[1..]);
      assert text == [text[0]] + text[1..];
    }
  }

  /** Normalising a line and its LF drops the line's final CR, as `DropCR` does */
  lemma {:induction false} NormaliseLine(a: string, rest: string)
    requires '\n' !in a
    ensures NormaliseLineEnds(a + "\n" + rest) == DropCR(a) + "\n" + NormaliseLineEnds(rest)
    decreases |a|
  {
    var t := a + "\n" + rest;
    if |a| == 0 {
      assert t == "\n" + rest && t[1..] == rest;
    } else if |a| == 1 && a[0] == '\r' {
      assert t[1..] == "\n" + rest;
      NormaliseLine([], rest);
      assert [] + "\n" + rest == "\n" + rest;
    } else {
      NormaliseLine(a[1..], rest);
      assert t[1..] == a[1..] + "\n" + rest;
      NormaliseLineStep(a, rest);
    }
  }

  lemma {:induction false} NormaliseLineStep(a: string, rest: string)
    requires '\n' !in a && |a| >= 1 && !(|a| == 1 && a[0] == '\r')
    requires NormaliseLineEnds(a[1..] + "\n" + rest) == DropCR(a[1..]) + "\n" + NormaliseLineEnds(rest)
    ensures NormaliseLineEnds(a + "\n" + rest) == DropCR(a) + "\n" + NormaliseLineEnds(rest)
  {
    var t := a + "\n" + rest;
    assert t[1..] == a[1..] + "\n" + rest;
    if |a| >= 2 {
      assert t[1] == a[1] && a[1] in a;
    }
    NormaliseHead(t);
    DropCRCons(a);
    RegroupLine([a[0]], DropCR(a[1..]), NormaliseLineEnds(rest));
  }

  lemma {:induction false} RegroupLine(c: string, d: string, n: string)
    ensures c + (d + "\n" + n) == (c + d) + "\n" + n
  {
  }

  /** A first character that does not open a CR LF is kept */
  lemma {:induction false} NormaliseHead(t: string)
    requires |t| >= 2 && !(t[0] == '\r' && t[1] == '\n')
    ensures NormaliseLineEnds(t) == [t[0]] + NormaliseLineEnds(t[1..])
  {
  }

  lemma {:induction false} DropCRCons(a: string)
    requires |a| >= 1 && !(|a| == 1 && a[0] == '\r')
    ensures DropCR(a) == [a[0]] + DropCR(a[1..])
  {
    if |a| >= 2 {
      assert a[1..][..|a| - 2] == a[..|a| - 1][1..];
    }
  }

  /** Splitting on LF after a piece without LF yields that piece first */
  lemma {:induction false} SplitOnLFCons(p: string, rest: string)
    requires '\n' !in p
    ensures SplitOnLF(p + "\n" + rest) == [p] + SplitOnLF(rest)
  {
    var t := p + "\n" + rest;
    assert t[|p|] == '\n';
    match IndexOf(t, '\n')
    case None =>
    case Some(k) =>
      assert k == |p|;
      assert t[..k] == p && t[k + 1..] == rest;
  }

  /** Normalising keeps whether the text ends in LF */
  lemma {:induction false} NormaliseKeepsLineEnd(text: string)
    ensures EndsWith(text, "\n") <==> EndsWith(NormaliseLineEnds(text), "\n")
  {
    var t := NormaliseLineEnds(text);
    if |text| > 0 {
      NormaliseKeepsLast(text);
      assert text[|text| - 1..] == [text[|text| - 1]];
      assert t[|t| - 1..] == [t[|t| - 1]];
    }
  }

  lemma {:induction false} NormaliseKeepsLast(text: string)
    requires |text| >= 1
    ensures var t := NormaliseLineEnds(text); |t| >= 1 && t[|t| - 1] == text[|text| - 1]
    decreases |text|
  {
    if |text| >= 2 {
      NormaliseKeepsLast(text[1..]);
    }
  }

  /** `lf` without its last piece when that one is empty */
  function DropEmptyLast(lf: seq<string>): seq<string>
    requires |lf| >= 1
  {
    if lf[|lf| - 1] == "" then lf[..|lf| - 1] else lf
  }

  lemma {:induction false} SplitLinesOf(text: string, lf: seq<string>)
    requires SplitCRLF(text) == lf
    ensures |lf| >= 1 && SplitLines(text) == DropEmptyLast(lf)
  {
  }

  lemma {:induction false} RoundTripFromPieces(text: string, lf: seq<string>)
    requires |lf| >= 1 && Join(lf, "\n") == text && '\n' !in lf[|lf| - 1]
    requires EndPiece(text, lf[|lf| - 1], |lf| == 1)
    ensures Join(DropEmptyLast(lf), "\n") + (if EndsWith(text, "\n") then "\n" else "") == text
  {
    if lf[|lf| - 1] == "" {
      RoundTripEmptyLast(text, lf);
    } else {
      RoundTripLastLine(text, lf);
    }
  }

  lemma {:induction false} RoundTripEmptyLast(text: string, lf: seq<string>)
    requires |lf| >= 1 && lf[|lf| - 1] == "" && Join(lf, "\n") == text
    requires |lf| > 1 ==> |text| > 0 && text[|text| - 1] == '\n'
    ensures Join(lf[..|lf| - 1], "\n") + (if EndsWith(text, "\n") then "\n" else "") == text
  {
    JoinDropEmptyLast(lf);
    if |lf| > 1 {
      assert text[|text| - 1..] == [text[|text| - 1]];
    }
  }

  lemma {:induction false} RoundTripLastLine(text: string, lf: seq<string>)
    requires |lf| >= 1 && Join(lf, "\n") == text
    requires var last := lf[|lf| - 1]; last != "" && '\n' !in last && EndsWith(text, last)
    ensures Join(lf, "\n") + (if EndsWith(text, "\n") then "\n" else "") == text
  {
    var last := lf[|lf| - 1];
    assert text[|text| - 1] == last[|last| - 1];
    assert last[|last| - 1] in last;
    assert text[|text| - 1..] == [text[|text| - 1]];
  }

  lemma {:induction false} JoinDropEmptyLast(parts: seq<string>)
    requires |parts| >= 1 && parts[|parts| - 1] == ""
    ensures |parts| >= 2 ==> Join(parts[..|parts| - 1], "\n") + "\n" == Join(parts, "\n")
    ensures |parts| == 1 ==> Join(parts, "\n") == ""
    decreases |parts|
  {
    if |parts| > 2 {
      JoinDropEmptyLast(parts[1..]);
      assert parts[1..][..|parts| - 2] == parts[..|parts| - 1][1..];
    }
  }

  /** Number of tabs in `s` */
  function TabCount(s: string): (n: nat)
    ensures n == 0 <==> '\t' !in s
    ensures n <= |s|
  {
    if s == [] then 0
    else
      assert s == [s[0]] + s[1..];
      (if s[0] == '\t' then 1 else 0) + TabCount(s[1..])
  }

  /**
   * The widths the replacement callback of `expandTabs` gives the tabs of
   * `line` at or after index `i`, `extra` being its running `extraChars`. A
   * tab at offset `i` has `total = i + extra` and `spacesNeeded = (total + 8) & 7`,
   * which is `total % 8` because `total` is never negative; it becomes
   * `8 - spacesNeeded` spaces while `extraChars` grows by `spacesNeeded - 1`.
   */
  function TabWidths(line: string, i: nat, extra: int): (w: seq<nat>)
    requires i <= |line| && i + extra >= 0
    ensures forall k :: 0 <= k < |w| ==> 1 <= w[k] <= 8
    decreases |line| - i
  {
    if i == |line| then []
    else
      if line[i] == '\t' then
        var spacesNeeded := (i + extra) % 8;
        [8 - spacesNeeded] + TabWidths(line, i + 1, extra + spacesNeeded - 1)
      else TabWidths(line, i + 1, extra)
  }

  /** There is one width per tab */
  lemma {:induction false} TabWidthsCount(line: string, i: nat, extra: int)
    requires i <= |line| && i + extra >= 0
    ensures |TabWidths(line, i, extra)| == TabCount(line[i..])
    decreases |line| - i
  {
    if i < |line| {
      assert line[i..][1..] == line[i + 1..];
      assert line[i..][0] == line[i];
      if line[i] == '\t' {
        TabWidthsCount(line, i + 1, extra + (i + extra) % 8 - 1);
      } else {
        TabWidthsCount(line, i + 1, extra);
      }
    }
  }

  /** `n` spaces */
  function Spaces(n: nat): (r: string)
    ensures |r| == n && '\t' !in r
  {
    if n == 0 then "" else " " + Spaces(n - 1)
  }

  /** `line` with its k-th tab replaced by `w[k]` spaces */
  function ReplaceTabs(line: string, w: seq<nat>): (r: string)
    requires |w| == TabCount(line)
    ensures '\t' !in r
    ensures (forall k :: 0 <= k < |w| ==> w[k] >= 1) ==> |r| >= |line|
    decreases |line|
  {
    if line == [] then ""
    else if line[0] == '\t' then Spaces(w[0]) + ReplaceTabs(line[1..], w[1..])
    else [line[0]] + ReplaceTabs(line[1..], w)
  }

  /** `expandTabs`: every tab becomes between one and eight spaces */
  function ExpandTabs(line: string): (r: string)
    ensures '\t' !in r
    ensures |r| >= |line|
  {
    TabWidthsCount(line, 0, 0);
    ReplaceTabs(line, TabWidths(line, 0, 0))
  }

  /** A line without tabs comes back unchanged */
  lemma {:induction false} ReplaceNoTabs(line: string, w: seq<nat>)
    requires '\t' !in line && w == []
    ensures ReplaceTabs(line, w) == line
    decreases |line|
  {
    if line != [] {
      ReplaceNoTabs(line[1..], w);
    }
  }

  lemma {:induction false} ExpandTabsWithoutTabs(line: string)
    requires '\t' !in line
    ensures ExpandTabs(line) == line
  {
    TabWidthsCount(line, 0, 0);
    ReplaceNoTabs(line, TabWidths(line, 0, 0));
  }

  /** The characters other than blanks (spaces and tabs), in order */
  function Visible(s: string): (r: string)
    ensures |r| <= |s|
  {
    if s == [] then ""
    else if s[0] == ' ' || s[0] == '\t' then Visible(s[1..])
    else [s[0]] + Visible(s[1..])
  }

  lemma {:induction false} VisibleAppend(a: string, b: string)
    ensures Visible(a + b) == Visible(a) + Visible(b)
    decreases |a|
  {
    if a == [] {
      assert a + b == b;
    } else {
      assert (a + b)[0] == a[0];
      assert (a + b)[1..] == a[1..] + b;
      VisibleAppend(a[1..], b);
    }
  }

  lemma {:induction false} VisibleSpaces(n: nat)
    ensures Visible(Spaces(n)) == ""
  {
    if n > 0 {
      VisibleSpaces(n - 1);
    }
  }

  /** Replacing tabs by spaces keeps every other non-blank character, in order */
  lemma {:induction false} ReplaceTabsKeepsVisible(line: string, w: seq<nat>)
    requires |w| == TabCount(line)
    ensures Visible(ReplaceTabs(line, w)) == Visible(line)
    decreases |line|
  {
    if line == [] {
    } else if line[0] == '\t' {
      ReplaceTabsKeepsVisible(line[1..], w[1..]);
      VisibleAppend(Spaces(w[0]), ReplaceTabs(line[1..], w[1..]));
      VisibleSpaces(w[0]);
    } else {
      ReplaceTabsKeepsVisible(line[1..], w);
      VisibleAppend([line[0]], ReplaceTabs(line[1..], w));
    }
  }

  lemma {:induction false} ExpandTabsKeepsVisible(line: string)
    ensures Visible(ExpandTabs(line)) == Visible(line)
  {
    TabWidthsCount(line, 0, 0);
    ReplaceTabsKeepsVisible(line, TabWidths(line, 0, 0));
  }

  /** Before the first tab the bookkeeping is untouched */
  lemma {:induction false} TabWidthsSkipPlain(line: string, i: nat, k: nat)
    requires i <= k < |line| && '\t' !in line[i..k]
    ensures TabWidths(line, i, 0) == TabWidths(line, k, 0)
    decreases k - i
  {
    if i < k {
      assert line[i] == line[i..k][0];
      assert line[i + 1..k] == line[i..k][1..];
      TabWidthsSkipPlain(line, i + 1, k);
    }
  }

  lemma {:induction false} ReplaceTabsPlainPrefix(line: string, w: seq<nat>, k: nat)
    requires k <= |line| && '\t' !in line[..k] && |w| == TabCount(line)
    ensures TabCount(line[k..]) == |w|
    ensures ReplaceTabs(line, w) == line[..k] + ReplaceTabs(line[k..], w)
  {
    assert line == line[..k] + line[k..];
    ReplaceTabsPlainConcat(line[..k], line[k..], w);
  }

  /** Text without tabs passes through unchanged */
  lemma {:induction false} ReplaceTabsPlainConcat(p: string, t: string, w: seq<nat>)
    requires '\t' !in p && |w| == TabCount(p + t)
    ensures TabCount(t) == |w|
    ensures ReplaceTabs(p + t, w) == p + ReplaceTabs(t, w)
    decreases |p|
  {
    if p == [] {
      assert p + t == t;
    } else {
      var q := p[1..];
      assert p[0] != '\t' by {
        assert p[0] in p;
      }
      assert '\t' !in q by {
        forall i | 0 <= i < |q|
          ensures q[i] != '\t'
        {
          assert q[i] == p[i + 1];
        }
      }
      ConsSplit(p, t);
      ReplaceTabsPlain(p[0], q + t, w);
      ReplaceTabsPlainConcat(q, t, w);
      ConsSplit(p, ReplaceTabs(t, w));
    }
  }

  /**
   * The first tab, at offset `k`, is widened so that the next character
   * lands on a multiple of eight.
   */
  lemma {:induction false} FirstTabAligns(line: string, k: nat)
    requires k < |line| && line[k] == '\t' && '\t' !in line[..k]
    ensures var w := TabWidths(line, 0, 0);
      |w| > 0 && (k + w[0]) % 8 == 0 && StartsWith(ExpandTabs(line), line[..k] + Spaces(w[0]))
  {
    var w := TabWidths(line, 0, 0);
    FirstTabWidth(line, k);
    TabWidthsCount(line, 0, 0);
    FirstTabPrefix(line, k, w);
  }

  lemma {:induction false} FirstTabWidth(line: string, k: nat)
    requires k < |line| && line[k] == '\t' && '\t' !in line[..k]
    ensures var w := TabWidths(line, 0, 0); |w| > 0 && w[0] == 8 - k % 8
  {
    TabWidthsSkipPlain(line, 0, k);
  }

  lemma {:induction false} FirstTabPrefix(line: string, k: nat, w: seq<nat>)
    requires k < |line| && line[k] == '\t' && '\t' !in line[..k]
    requires |w| == TabCount(line)
    ensures |w| > 0 && StartsWith(ReplaceTabs(line, w), line[..k] + Spaces(w[0]))
  {
    ReplaceTabsPlainPrefix(line, w, k);
    TabHead(line[k..], w);
    PrefixOfConcat(line[..k], Spaces(w[0]), ReplaceTabs(line[k..][1..], w[1..]));
  }

  lemma {:induction false} TabHead(tail: string, w: seq<nat>)
    requires tail != [] && tail[0] == '\t' && |w| == TabCount(tail)
    ensures |w| > 0 && ReplaceTabs(tail, w) == Spaces(w[0]) + ReplaceTabs(tail[1..], w[1..])
  {
    assert tail == ['\t'] + tail[1..];
    ReplaceTabsTab(tail[1..], w);
  }

  lemma {:induction false} PrefixOfConcat(a: string, b: string, c: string)
    ensures StartsWith(a + (b + c), a + b)
  {
    assert a + (b + c) == (a + b) + c;
    assert ((a + b) + c)[..|a + b|] == a + b;
  }


  /**
   * Later tabs follow the `extraChars += spacesNeeded - 1` bookkeeping,
   * which does not keep them on eight-column stops: in `a<TAB>b<TAB>c` the
   * `c` ends up in column 14.
   */
  lemma {:induction false} ExpandTabsSecondTab()
    ensures ExpandTabs("a\tb\tc") == "a" + Spaces(7) + "b" + Spaces(5) + "c"
  {
    SecondTabWidths();
    SecondTabReplaced();
  }

  lemma {:induction false} SecondTabWidths()
    ensures TabWidths("a\tb\tc", 0, 0) == [7, 5]
  {
    var line := "a\tb\tc";
    TabWidthsEnd(line, 2);
    TabWidthsPlainAt(line, 4, 2);
    TabWidthsTabAt(line, 3, 0);
    TabWidthsPlainAt(line, 2, 0);
    TabWidthsTabAt(line, 1, 0);
    TabWidthsPlainAt(line, 0, 0);
  }

  /** `TabWidths` has nothing left to measure at the end of the line */
  lemma {:induction false} TabWidthsEnd(line: string, extra: int)
    requires |line| + extra >= 0
    ensures TabWidths(line, |line|, extra) == []
  {
  }

  /** One step of `TabWidths` over a character that is not a tab */
  lemma {:induction false} TabWidthsPlainAt(line: string, i: nat, extra: int)
    requires i < |line| && i + extra >= 0 && line[i] != '\t'
    ensures TabWidths(line, i, extra) == TabWidths(line, i + 1, extra)
  {
  }

  /** One step of `TabWidths` over a tab */
  lemma {:induction false} TabWidthsTabAt(line: string, i: nat, extra: int)
    requires i < |line| && i + extra >= 0 && line[i] == '\t'
    ensures TabWidths(line, i, extra) == [8 - (i + extra) % 8] + TabWidths(line, i + 1, extra + (i + extra) % 8 - 1)
  {
  }

  lemma {:induction false} SecondTabReplaced()
    ensures ReplaceTabs("a\tb\tc", [7, 5]) == "a" + Spaces(7) + "b" + Spaces(5) + "c"
  {
    var c, bc := "c", "b\tc";
    assert ReplaceTabs(c, []) == c;
    assert "\tc" == ['\t'] + c;
    ReplaceTabsTab(c, [5]);
    assert "b\tc" == ['b'] + "\tc";
    ReplaceTabsPlain('b', "\tc", [5]);
    assert "\tb\tc" == ['\t'] + bc;
    ReplaceTabsTab(bc, [7, 5]);
    assert "a\tb\tc" == ['a'] + "\tb\tc";
    ReplaceTabsPlain('a', "\tb\tc", [7, 5]);
  }

  lemma {:induction false} ReplaceTabsPlain(c: char, rest: string, w: seq<nat>)
    requires c != '\t' && |w| == TabCount(rest)
    ensures TabCount([c] + rest) == |w|
    ensures ReplaceTabs([c] + rest, w) == [c] + ReplaceTabs(rest, w)
  {
    assert ([c] + rest)[1..] == rest;
  }

  lemma {:induction false} ReplaceTabsTab(rest: string, w: seq<nat>)
    requires |w| == TabCount(rest) + 1
    ensures TabCount(['\t'] + rest) == |w|
    ensures ReplaceTabs(['\t'] + rest, w) == Spaces(w[0]) + ReplaceTabs(rest, w[1..])
  {
    assert (['\t'] + rest)[1..] == rest;
  }

  // ---------------------------------------------------------------- tab stops as intended

  /** How many columns character `c` takes when it starts in column `col`: a tab reaches the next multiple of eight */
  function Width(c: char, col: nat): (n: nat)
    ensures 1 <= n <= 8
    ensures c == '\t' ==> (col + n) % 8 == 0
  {
    if c == '\t' then 8 - col % 8 else 1
  }

  /** What character `c` becomes in column `col` */
  function Piece(c: char, col: nat): (r: string)
    ensures |r| == Width(c, col)
    ensures c != '\t' ==> r == [c]
  {
    if c == '\t' then Spaces(Width(c, col)) else [c]
  }

  /**
   * Tab expansion that follows the output column `col`: a tab becomes the
   * spaces up to the next multiple of eight.
   */
  function ExpandFrom(line: string, col: nat): (r: string)
    ensures |r| >= |line|
    decreases |line|
  {
    if line == [] then "" else Piece(line[0], col) + ExpandFrom(line[1..], col + Width(line[0], col))
  }

  /** Tab expansion on eight-column stops, what `expandTabs` is meant to compute */
  function ExpandTabsAligned(line: string): (r: string)
    ensures '\t' !in r
    ensures |r| >= |line|
  {
    ExpandFromNoTab(line, 0);
    ExpandFrom(line, 0)
  }

  /** No tab survives the expansion */
  lemma {:induction false} ExpandFromNoTab(line: string, col: nat)
    ensures '\t' !in ExpandFrom(line, col)
    decreases |line|
  {
    if line != [] {
      var next := col + Width(line[0], col);
      ExpandFromNoTab(line[1..], next);
      assert '\t' !in Piece(line[0], col);
    }
  }

  /** Expanding a concatenation: the second part starts at the column where the first one ends */
  lemma {:induction false} ExpandFromAppend(a: string, b: string, col: nat)
    ensures ExpandFrom(a + b, col) == ExpandFrom(a, col) + ExpandFrom(b, col + |ExpandFrom(a, col)|)
    decreases |a|
  {
    if a == [] {
      AppendNothing(a, b, col);
    } else {
      var next := col + Width(a[0], col);
      ExpandFromAppend(a[1..], b, next);
      ExpandFromCons(a, b, col);
      ExpandFromHead(a, col);
      AppendStep(a, b, col, next, ExpandFrom(a[1..], next));
    }
  }

  lemma {:induction false} AppendNothing(a: string, b: string, col: nat)
    requires a == []
    ensures ExpandFrom(a + b, col) == ExpandFrom(a, col) + ExpandFrom(b, col + |ExpandFrom(a, col)|)
  {
    assert a + b == b;
    assert ExpandFrom(a, col) == "";
  }

  lemma {:induction false} ExpandFromHead(a: string, col: nat)
    requires a != []
    ensures ExpandFrom(a, col) == Piece(a[0], col) + ExpandFrom(a[1..], col + Width(a[0], col))
  {
  }

  /** The step of `ExpandFromAppend`, from the facts about the first character and the rest of `a` */
  lemma {:induction false} AppendStep(a: string, b: string, col: nat, next: nat, x: string)
    requires a != [] && next == col + Width(a[0], col)
    requires ExpandFrom(a, col) == Piece(a[0], col) + x
    requires ExpandFrom(a + b, col) == Piece(a[0], col) + ExpandFrom(a[1..] + b, next)
    requires ExpandFrom(a[1..] + b, next) == x + ExpandFrom(b, next + |x|)
    ensures ExpandFrom(a + b, col) == ExpandFrom(a, col) + ExpandFrom(b, col + |ExpandFrom(a, col)|)
  {
    var p := Piece(a[0], col);
    Regroup(p, x, ExpandFrom(b, next + |x|));
  }

  lemma {:induction false} Regroup(p: string, x: string, y: string)
    ensures p + (x + y) == (p + x) + y && |p + x| == |p| + |x|
  {
  }

  lemma {:induction false} ExpandFromCons(a: string, b: string, col: nat)
    requires a != []
    ensures ExpandFrom(a + b, col) == Piece(a[0], col) + ExpandFrom(a[1..] + b, col + Width(a[0], col))
  {
    assert (a + b)[0] == a[0];
    assert (a + b)[1..] == a[1..] + b;
  }

  /** Whatever precedes a tab, the first character after it that is not a tab starts on a multiple of eight */
  lemma {:induction false} AlignedTabStops(a: string, c: char, b: string)
    requires c != '\t'
    ensures var n := |ExpandTabsAligned(a + "\t")|;
      var r := ExpandTabsAligned(a + "\t" + [c] + b);
      n % 8 == 0 && n < |r| && r[n] == c
  {
    var n := TabEnd(a);
    ExpandFromAppend(a + "\t", [c] + b, 0);
    assert a + "\t" + [c] + b == (a + "\t") + ([c] + b);
    assert ExpandFrom([c] + b, n)[0] == c;
  }

  /** The expansion up to and including a tab ends on a multiple of eight */
  lemma {:induction false} TabEnd(a: string) returns (n: nat)
    ensures n == |ExpandFrom(a + "\t", 0)| && n % 8 == 0
  {
    var e := ExpandFrom(a, 0);
    ExpandFromAppend(a, "\t", 0);
    assert "\t"[1..] == "";
    n := |e| + Width('\t', |e|);
  }

  /** The corrected expansion also changes only white space */
  lemma {:induction false} ExpandFromKeepsVisible(line: string, col: nat)
    ensures Visible(ExpandFrom(line, col)) == Visible(line)
    decreases |line|
  {
    if line != [] {
      var w := Width(line[0], col);
      ExpandFromKeepsVisible(line[1..], col + w);
      VisibleAppend(Piece(line[0], col), ExpandFrom(line[1..], col + w));
      assert line == [line[0]] + line[1..];
      VisibleAppend([line[0]], line[1..]);
      if line[0] == '\t' {
        VisibleSpaces(w);
      }
    }
  }

  /** A line without tabs is left as it is */
  lemma {:induction false} ExpandFromWithoutTabs(line: string, col: nat)
    requires '\t' !in line
    ensures ExpandFrom(line, col) == line
    decreases |line|
  {
    if line != [] {
      assert line == [line[0]] + line[1..];
      ExpandFromWithoutTabs(line[1..], col + 1);
    }
  }

  /**
   * As written, `a<TAB>b<TAB>c` misses the stop: the expansion of `a<TAB>b<TAB>`
   * is 14 characters long and `c` follows it in column 14.
   */
  lemma {:induction false} ExpandTabsMisaligns()
    ensures var n := |ExpandTabs("a\tb\t")|;
      var r := ExpandTabs("a\tb\tc");
      n == 14 && n % 8 != 0 && n < |r| && r[n] == 'c'
  {
    var r := ExpandTabs("a\tb\tc");
    var n := |ExpandTabs("a\tb\t")|;
    ExpandTabsSecondTab();
    SecondTabEndLength();
    CAfterColumn14(r, n);
  }

  lemma {:induction false} SecondTabEndLength()
    ensures |ExpandTabs("a\tb\t")| == 14
  {
    SecondTabEndWidths();
    SecondTabEndReplaced();
  }

  lemma {:induction false} CAfterColumn14(r: string, n: nat)
    requires r == "a" + Spaces(7) + "b" + Spaces(5) + "c" && n == 14
    ensures n % 8 != 0 && n < |r| && r[n] == 'c'
  {
  }

  lemma {:induction false} SecondTabEndWidths()
    ensures TabWidths("a\tb\t", 0, 0) == [7, 5]
  {
    var line := "a\tb\t";
    TabWidthsEnd(line, 2);
    TabWidthsTabAt(line, 3, 0);
    TabWidthsPlainAt(line, 2, 0);
    TabWidthsTabAt(line, 1, 0);
    TabWidthsPlainAt(line, 0, 0);
  }

  lemma {:induction false} SecondTabEndReplaced()
    ensures |ReplaceTabs("a\tb\t", [7, 5])| == 14
  {
    var e := "";
    assert ReplaceTabs(e, []) == e;
    assert "\t" == ['\t'] + e;
    ReplaceTabsTab(e, [5]);
    assert "b\t" == ['b'] + "\t";
    ReplaceTabsPlain('b', "\t", [5]);
    assert "\tb\t" == ['\t'] + "b\t";
    ReplaceTabsTab("b\t", [7, 5]);
    assert "a\tb\t" == ['a'] + "\tb\t";
    ReplaceTabsPlain('a', "\tb\t", [7, 5]);
  }
}

=== FILE: whitespace.dfy ===
/**
 * `squashHorizontalWhitespace` of src/utils.ts. The line is split by
 * `/(.*?)("(?:[^"\\]|\\.)*")(.*)/` into the text before the first complete
 * double-quoted string, the string itself and what follows; outside quotes,
 * `split(/\s+/)` and `join(" ")` turn every white-space run into one space.
 */
module Whitespace {
  import opened Wrappers
  import opened Strings
  import opened TextUtils

  /** No character of `s` is a line terminator, so a JavaScript `.` matches each of them */
  predicate SingleLine(s: string) {
    forall i :: 0 <= i < |s| ==> !IsLineTerminator(s[i])
  }

  /** A stretch of a single-line stretch is on a single line */
  lemma {:induction false} SingleLineSlice(s: string, a: nat, b: nat, c: nat, d: nat)
    requires a <= b <= c <= d <= |s| && SingleLine(s[a..d])
    ensures SingleLine(s[b..c])
  {
    forall k | 0 <= k < c - b
      ensures !IsLineTerminator(s[b..c][k])
    {
      assert s[b..c][k] == s[a..d][k + b - a];
    }
  }

  /**
   * The body of a quoted string, `(?:[^"\\]|\\.)*"`, read from index `i`:
   * the index just past the closing quote. Backtracking cannot help here,
   * since no repetition ends in front of a quote, so the scan is greedy.
   */
  function QuoteEnd(s: string, i: nat): (r: Option<nat>)
    requires i <= |s|
    ensures r.Some? ==> i < r.value <= |s| && s[r.value - 1] == '"'
    decreases |s| - i
  {
    if i == |s| then None
    else if s[i] == '"' then Some(i + 1)
    else if s[i] == '\\' then
      if i + 1 < |s| && !IsLineTerminator(s[i + 1]) then QuoteEnd(s, i + 2) else None
    else QuoteEnd(s, i + 1)
  }

  /** A complete quoted string starts at `q` */
  predicate QuoteAt(s: string, q: nat) {
    q < |s| && s[q] == '"' && QuoteEnd(s, q + 1).Some?
  }

  /** The first index at or after `from` where a complete quoted string starts */
  function FirstQuote(s: string, from: nat): (r: Option<nat>)
    requires from <= |s|
    ensures r.Some? ==> from <= r.value < |s| && QuoteAt(s, r.value)
    ensures r.Some? ==> forall q :: from <= q < r.value ==> !QuoteAt(s, q)
    ensures r.None? ==> forall q :: from <= q < |s| ==> !QuoteAt(s, q)
    decreases |s| - from
  {
    if from == |s| then None
    else if QuoteAt(s, from) then Some(from)
    else FirstQuote(s, from + 1)
  }

  /** Where the stretch of `s` without line terminators that ends at `q` begins */
  function StretchStart(s: string, q: nat): (p: nat)
    requires q <= |s|
    ensures p <= q && SingleLine(s[p..q])
    ensures p == 0 || IsLineTerminator(s[p - 1])
  {
    if q == 0 || IsLineTerminator(s[q - 1]) then q
    else
      var p := StretchStart(s, q - 1);
      assert s[p..q] == s[p..q - 1] + [s[q - 1]];
      p
  }

  /** The three groups of the quote split: `line[start..open]`, `line[open..close]`, `line[close..stop]` */
  datatype QuoteMatch = QuoteMatch(start: nat, open: nat, close: nat, stop: nat)

  /**
   * `line.match(findQuotes)`. The leftmost match starts at the beginning of
   * the terminator-free stretch holding the first complete quoted string;
   * `(.*?)` stops lazily at that string and `(.*)` runs to the next line
   * terminator. Text outside the three groups is not part of the match.
   */
  function FindQuotes(line: string): (m: Option<QuoteMatch>)
    ensures m.Some? ==> m.value.start <= m.value.open < m.value.close <= m.value.stop <= |line|
  {
    match FirstQuote(line, 0)
    case None => None
    case Some(q) =>
      var close := QuoteEnd(line, q + 1).value;
      Some(QuoteMatch(StretchStart(line, q), q, close, close + Span(line[close..], IsDot)))
  }

  /** The quote split matches exactly when some complete quoted string exists */
  lemma {:induction false} FindQuotesMatches(line: string)
    ensures FindQuotes(line).None? <==> forall q :: 0 <= q < |line| ==> !QuoteAt(line, q)
  {
  }

  /** The quoted group is the first complete quoted string */
  lemma {:induction false} FindQuotesFirst(line: string)
    requires FindQuotes(line).Some?
    ensures var m := FindQuotes(line).value;
      && QuoteAt(line, m.open)
      && QuoteEnd(line, m.open + 1) == Some(m.close)
      && (forall q :: 0 <= q < m.open ==> !QuoteAt(line, q))
  {
  }

  /** The groups around the quoted string extend to, but not over, the nearest line terminators */
  lemma {:induction false} FindQuotesStretch(line: string)
    requires FindQuotes(line).Some?
    ensures var m := FindQuotes(line).value;
      && SingleLine(line[m.start..m.open])
      && (m.start == 0 || IsLineTerminator(line[m.start - 1]))
      && SingleLine(line[m.close..m.stop])
      && (m.stop == |line| || IsLineTerminator(line[m.stop]))
  {
    var m := FindQuotes(line).value;
    var n := Span(line[m.close..], IsDot);
    assert m.stop == m.close + n;
    assert forall i :: 0 <= i < n ==> line[m.close..m.stop][i] == line[m.close..][i];
  }

  predicate NotSpace(c: char) {
    !IsSpace(c)
  }

  /** `s.split(/\s+/)`: the pieces between maximal white-space runs, at least one */
  function SplitOnSpaceRuns(s: string): (r: seq<string>)
    ensures |r| >= 1
    decreases |s|
  {
    var n := Span(s, NotSpace);
    if n == |s| then [s]
    else [s[..n]] + SplitOnSpaceRuns(TrimStart(s[n..]))
  }

  /** The squashing of a line without a complete quoted string */
  function SquashPlain(line: string, atStart: bool): string
  {
    var splat := SplitOnSpaceRuns(line);
    if splat[0] == "" && atStart then
      // An indented line keeps a two-space indent
      "  " + Join(splat[1..], " ")
    else
      Join(splat, " ")
  }

  /** `squashHorizontalWhitespace(line, atStart)` */
  function Squash(line: string, atStart: bool): (r: string)
    ensures r == [] <==> line == [] && !atStart
    decreases |line|
  {
    match FindQuotes(line)
    case Some(m) =>
      Squash(line[m.start..m.open], atStart) + line[m.open..m.close] + Squash(line[m.close..m.stop], false)
    case None =>
      SquashPlainCollapses(line, atStart);
      SquashPlain(line, atStart)
  }

  /** Squashing a single line only changes white space: the other characters stay, in order */
  lemma {:induction false} SquashKeepsInk(line: string, atStart: bool)
    requires SingleLine(line)
    ensures Ink(Squash(line, atStart)) == Ink(line)
    decreases |line|
  {
    match FindQuotes(line)
    case Some(m) =>
      QuoteMatchSpansLine(line, m);
      assert line[0..|line|] == line;
      SingleLineSlice(line, 0, m.start, m.open, |line|);
      SingleLineSlice(line, 0, m.close, m.stop, |line|);
      SquashKeepsInk(line[m.start..m.open], atStart);
      SquashKeepsInk(line[m.close..m.stop], false);
      SquashInkAround(line, m, Squash(line[m.start..m.open], atStart), Squash(line[m.close..m.stop], false));
    case None =>
      SquashPlainKeepsInk(line, atStart);
  }

  /** The plain squash only changes white space */
  lemma {:induction false} SquashPlainKeepsInk(line: string, atStart: bool)
    ensures Ink(SquashPlain(line, atStart)) == Ink(line)
  {
    SquashPlainCollapses(line, atStart);
    if atStart && (line == [] || IsSpace(line[0])) {
      var t := TrimStart(line);
      CollapseKeepsInk(t);
      InkAppend("  ", Collapse(t));
      InkOfSpaces("  ");
      InkOfTrimmed(line);
    } else {
      CollapseKeepsInk(line);
    }
  }

  /** Leading white space holds no ink */
  lemma {:induction false} InkOfTrimmed(s: string)
    ensures Ink(TrimStart(s)) == Ink(s)
  {
    var n := |s| - |TrimStart(s)|;
    SplitAt(s, n);
    InkAppend(s[..n], s[n..]);
    InkOfSpaces(s[..n]);
  }

  /** Squashed pieces that keep their ink around a verbatim quoted group keep the ink of a single line */
  lemma {:induction false} SquashInkAround(line: string, m: QuoteMatch, a: string, c: string)
    requires FindQuotes(line) == Some(m) && SingleLine(line)
    requires Ink(a) == Ink(line[m.start..m.open]) && Ink(c) == Ink(line[m.close..m.stop])
    ensures Ink(a + line[m.open..m.close] + c) == Ink(line)
  {
    QuoteMatchSpansLine(line, m);
    var x, q, y := line[..m.open], line[m.open..m.close], line[m.close..];
    assert x == line[m.start..m.open] && y == line[m.close..m.stop];
    assert line == x + q + y;
    InkOfThree(x, q, y);
    InkOfThree(a, q, c);
  }

  lemma {:induction false} InkOfThree(a: string, b: string, c: string)
    ensures Ink(a + b + c) == Ink(a) + Ink(b) + Ink(c)
  {
    InkAppend(a + b, c);
    InkAppend(a, b);
  }

  /**
   * The reference meaning of white-space squashing: every maximal run of
   * `\s` becomes exactly one space, everything else is kept in order.
   */
  function Collapse(s: string): (r: string)
    ensures |r| <= |s| && (r == [] <==> s == [])
    ensures s != [] ==> r[0] == (if IsSpace(s[0]) then ' ' else s[0])
    decreases |s|
  {
    if s == [] then []
    else if IsSpace(s[0]) then " " + Collapse(TrimStart(s))
    else [s[0]] + Collapse(s[1..])
  }

  /** The characters of `s` that are not white space, in order */
  function Ink(s: string): (r: string)
    ensures |r| <= |s|
  {
    if s == [] then []
    else (if IsSpace(s[0]) then [] else [s[0]]) + Ink(s[1..])
  }

  lemma {:induction false} InkMember(s: string, c: char)
    ensures c in Ink(s) <==> c in s && !IsSpace(c)
    decreases |s|
  {
    if s != [] {
      InkMember(s[1..], c);
      assert s == [s[0]] + s[1..];
    }
  }

  lemma {:induction false} InkAppend(a: string, b: string)
    ensures Ink(a + b) == Ink(a) + Ink(b)
    decreases |a|
  {
    if a == [] {
      assert a + b == b;
    } else {
      assert (a + b)[1..] == a[1..] + b;
      InkAppend(a[1..], b);
    }
  }

  lemma {:induction false} InkOfSpaces(s: string)
    requires forall i :: 0 <= i < |s| ==> IsSpace(s[i])
    ensures Ink(s) == []
    decreases |s|
  {
    if s != [] {
      InkOfSpaces(s[1..]);
    }
  }

  /** Squashing keeps every character that is not white space, in order */
  lemma {:induction false} CollapseKeepsInk(s: string)
    ensures Ink(Collapse(s)) == Ink(s)
    decreases |s|
  {
    if s == [] {
    } else if IsSpace(s[0]) {
      var t := TrimStart(s);
      CollapseKeepsInk(t);
      InkAppend(" ", Collapse(t));
      InkAppend(s[..|s| - |t|], t);
      InkOfSpaces(s[..|s| - |t|]);
      assert s == s[..|s| - |t|] + t;
    } else {
      CollapseKeepsInk(s[1..]);
      InkAppend([s[0]], Collapse(s[1..]));
    }
  }

  /** The only white space left after collapsing is single spaces */
  lemma {:induction false} CollapseShape(s: string)
    ensures forall i :: 0 <= i < |Collapse(s)| && IsSpace(Collapse(s)[i]) ==> Collapse(s)[i] == ' '
    ensures forall i :: 0 <= i < |Collapse(s)| - 1 ==> !(Collapse(s)[i] == ' ' && Collapse(s)[i + 1] == ' ')
    decreases |s|
  {
    if s != [] {
      var t := if IsSpace(s[0]) then TrimStart(s) else s[1..];
      var c := if IsSpace(s[0]) then ' ' else s[0];
      var x := Collapse(t);
      var r := Collapse(s);
      CollapseShape(t);
      assert r == [c] + x;
      assert IsSpace(s[0]) ==> x == [] || x[0] != ' ';
      forall i | 0 <= i < |r| && IsSpace(r[i])
        ensures r[i] == ' '
      {
        if i > 0 {
          assert r[i] == x[i - 1];
        }
      }
      forall i | 0 <= i < |r| - 1
        ensures !(r[i] == ' ' && r[i + 1] == ' ')
      {
        assert r[i + 1] == x[i];
        if i > 0 {
          assert r[i] == x[i - 1];
        }
      }
    }
  }

  /** A collapsed string has no line terminators: every white-space character in it is a space */
  lemma {:induction false} CollapseSingleLine(s: string)
    ensures SingleLine(Collapse(s))
  {
    var r := Collapse(s);
    CollapseShape(s);
    forall i | 0 <= i < |r|
      ensures !IsLineTerminator(r[i])
    {
      if IsLineTerminator(r[i]) {
        assert IsSpace(r[i]);
      }
    }
  }

  lemma {:induction false} CollapseNonSpacePrefix(a: string, b: string)
    requires forall i :: 0 <= i < |a| ==> !IsSpace(a[i])
    ensures Collapse(a + b) == a + Collapse(b)
    decreases |a|
  {
    if a == [] {
      assert a + b == b;
    } else {
      assert (a + b)[1..] == a[1..] + b;
      CollapseNonSpacePrefix(a[1..], b);
    }
  }

  /** `split(/\s+/)` followed by `join(" ")` is exactly the collapse of white-space runs */
  lemma {:induction false} SplitJoinCollapse(s: string)
    ensures Join(SplitOnSpaceRuns(s), " ") == Collapse(s)
    decreases |s|
  {
    var n := Span(s, NotSpace);
    if n == |s| {
      CollapseNonSpacePrefix(s, []);
      assert s + [] == s;
    } else {
      SplitJoinCollapse(TrimStart(s[n..]));
      SplitJoinStep(s, n);
    }
  }

  lemma {:induction false} SplitJoinStep(s: string, n: nat)
    requires n == Span(s, NotSpace) < |s|
    requires Join(SplitOnSpaceRuns(TrimStart(s[n..])), " ") == Collapse(TrimStart(s[n..]))
    ensures Join(SplitOnSpaceRuns(s), " ") == Collapse(s)
  {
    var rest := TrimStart(s[n..]);
    var tail := SplitOnSpaceRuns(rest);
    assert SplitOnSpaceRuns(s) == [s[..n]] + tail;
    JoinCons(s[..n], tail, " ");
    CollapseAtSpaceRun(s, n);
  }

  lemma {:induction false} JoinCons(a: string, tail: seq<string>, sep: string)
    requires |tail| >= 1
    ensures Join([a] + tail, sep) == a + sep + Join(tail, sep)
  {
    assert ([a] + tail)[1..] == tail;
  }

  lemma {:induction false} CollapseAtSpaceRun(s: string, n: nat)
    requires n == Span(s, NotSpace) < |s|
    ensures Collapse(s) == s[..n] + " " + Collapse(TrimStart(s[n..]))
  {
    var a, b := s[..n], s[n..];
    SplitAt(s, n);
    var x := Collapse(TrimStart(b));
    assert Collapse(b) == " " + x by {
      assert b[0] == s[n];
      assert IsSpace(b[0]);
    }
    assert forall i :: 0 <= i < |a| ==> !IsSpace(a[i]) by {
      assert forall i :: 0 <= i < n ==> NotSpace(s[i]);
    }
    CollapseNonSpacePrefix(a, b);
    assert a + (" " + x) == a + " " + x;
  }

  /** `TrimStart` removes exactly a leading run of spaces */
  lemma {:induction false} TrimSpaces(sp: string, x: string)
    requires forall i :: 0 <= i < |sp| ==> IsSpace(sp[i])
    requires x == [] || !IsSpace(x[0])
    ensures TrimStart(sp + x) == x
    decreases |sp|
  {
    if sp == [] {
      assert sp + x == x;
      if x != [] {
        assert Span(x, IsSpace) == 0;
      }
    } else {
      assert (sp + x)[1..] == sp[1..] + x;
      TrimSpaces(sp[1..], x);
      assert Span(sp + x, IsSpace) == 1 + Span(sp[1..] + x, IsSpace);
    }
  }

  /** The plain squash in terms of the reference collapse */
  lemma {:induction false} SquashPlainCollapses(line: string, atStart: bool)
    ensures SquashPlain(line, atStart) ==
      if atStart && (line == [] || IsSpace(line[0])) then "  " + Collapse(TrimStart(line))
      else Collapse(line)
  {
    SplitJoinCollapse(line);
    var n := Span(line, NotSpace);
    var splat := SplitOnSpaceRuns(line);
    assert splat[0] == "" <==> line == [] || IsSpace(line[0]);
    if atStart && (line == [] || IsSpace(line[0])) {
      if line != [] {
        assert line[n..] == line;
        SplitJoinCollapse(TrimStart(line));
        assert splat[1..] == SplitOnSpaceRuns(TrimStart(line));
      }
    }
  }

  /** Collapsing twice is collapsing once */
  lemma {:induction false} CollapseIdempotent(s: string)
    ensures Collapse(Collapse(s)) == Collapse(s)
    decreases |s|
  {
    if s == [] {
    } else if IsSpace(s[0]) {
      var x := Collapse(TrimStart(s));
      CollapseIdempotent(TrimStart(s));
      TrimSpaces(" ", x);
      assert (" " + x)[0] == ' ';
    } else {
      var x := Collapse(s[1..]);
      CollapseIdempotent(s[1..]);
      assert ([s[0]] + x)[1..] == x;
    }
  }

  /** Where a left-to-right reader is relative to quoted strings */
  datatype ScanState = Outside | InQuote | Escaped | Closed | Broken

  /**
   * One character read: the first quote opens, a backslash escapes the
   * next character, a line terminator cannot be escaped, and a closing
   * quote ends the reading.
   */
  function Step(st: ScanState, c: char): ScanState {
    match st
    case Outside => if c == '"' then InQuote else Outside
    case InQuote => if c == '"' then Closed else if c == '\\' then Escaped else InQuote
    case Escaped => if IsLineTerminator(c) then Broken else InQuote
    case Closed => Closed
    case Broken => Broken
  }

  function Run(s: string, st: ScanState): ScanState
    decreases |s|
  {
    if s == [] then st else Run(s[1..], Step(st, s[0]))
  }

  /** The quoted-string body scan is the reader started inside a quote */
  lemma {:induction false} QuoteEndCloses(s: string, i: nat)
    requires i <= |s|
    ensures QuoteEnd(s, i).Some? <==> Run(s[i..], InQuote) == Closed
    decreases |s| - i
  {
    if i == |s| {
    } else if s[i] == '"' {
      RunStays(s[i + 1..], Closed);
      assert s[i..][1..] == s[i + 1..];
    } else if s[i] == '\\' {
      assert s[i..][1..] == s[i + 1..];
      if i + 1 < |s| {
        assert s[i + 1..][1..] == s[i + 2..];
        if IsLineTerminator(s[i + 1]) {
          RunStays(s[i + 2..], Broken);
        } else {
          QuoteEndCloses(s, i + 2);
        }
      }
    } else {
      assert s[i..][1..] == s[i + 1..];
      QuoteEndCloses(s, i + 1);
    }
  }

  /** Closed and Broken are final */
  lemma {:induction false} RunStays(s: string, st: ScanState)
    requires st == Closed || st == Broken
    ensures Run(s, st) == st
    decreases |s|
  {
    if s != [] {
      RunStays(s[1..], st);
    }
  }

  /** A scan that fails on a single line leaves no later quote able to close either */
  lemma {:induction false} FailedScanPoisons(s: string, i: nat, q: nat)
    requires i <= q < |s| && s[q] == '"' && SingleLine(s)
    requires QuoteEnd(s, i).None?
    ensures QuoteEnd(s, q + 1).None?
    decreases |s| - i
  {
    if s[i] == '\\' {
      if q > i + 1 {
        FailedScanPoisons(s, i + 2, q);
      }
    } else if q > i {
      FailedScanPoisons(s, i + 1, q);
    }
  }

  /** On a single line, a complete quoted string exists exactly when the reader closes one */
  lemma {:induction false} FirstQuoteCloses(s: string, from: nat)
    requires from <= |s| && SingleLine(s)
    ensures FirstQuote(s, from).Some? <==> Run(s[from..], Outside) == Closed
    decreases |s| - from
  {
    if from < |s| {
      assert s[from..][1..] == s[from + 1..];
      if s[from] == '"' {
        QuoteEndCloses(s, from + 1);
        if QuoteEnd(s, from + 1).None? {
          forall q | from < q < |s|
            ensures !QuoteAt(s, q)
          {
            if s[q] == '"' {
              FailedScanPoisons(s, from + 1, q);
            }
          }
          assert FirstQuote(s, from) == FirstQuote(s, from + 1);
        }
      } else {
        FirstQuoteCloses(s, from + 1);
      }
    }
  }

  /** A white-space character moves the reader the way a space does, on a single line */
  lemma {:induction false} StepSpace(st: ScanState, c: char)
    requires IsSpace(c) && !IsLineTerminator(c)
    ensures Step(st, c) == Step(st, ' ')
    ensures st != Escaped ==> Step(st, c) == st
  {
    assert c != '"' && c != '\\';
  }

  /** White space read outside an escape leaves the reader where it was */
  lemma {:induction false} RunSpaces(sp: string, t: string, st: ScanState)
    requires forall i :: 0 <= i < |sp| ==> IsSpace(sp[i]) && !IsLineTerminator(sp[i])
    requires st != Escaped
    ensures Run(sp + t, st) == Run(t, st)
    decreases |sp|
  {
    if sp == [] {
      assert sp + t == t;
    } else {
      assert (sp + t)[1..] == sp[1..] + t;
      StepSpace(st, sp[0]);
      RunSpaces(sp[1..], t, st);
    }
  }

  /** On a single line, collapsing white space does not change where the reader ends */
  lemma {:induction false} RunCollapse(s: string, st: ScanState)
    requires SingleLine(s)
    ensures Run(Collapse(s), st) == Run(s, st)
    decreases |s|
  {
    if s != [] {
      if IsSpace(s[0]) {
        RunCollapseSpace(s, st);
      } else {
        var x := Collapse(s[1..]);
        assert Collapse(s) == [s[0]] + x;
        assert ([s[0]] + x)[1..] == x;
        RunCollapse(s[1..], Step(st, s[0]));
      }
    }
  }

  lemma {:induction false} RunCollapseSpace(s: string, st: ScanState)
    requires SingleLine(s) && s != [] && IsSpace(s[0])
    ensures Run(Collapse(s), st) == Run(s, st)
    decreases |s|, 0
  {
    var t := TrimStart(s);
    var x := Collapse(t);
    var next := Step(st, ' ');
    assert Run(Collapse(s), st) == Run(x, next) by {
      assert Collapse(s) == " " + x;
      assert (" " + x)[1..] == x;
    }
    var k := |s| - |t|;
    assert SingleLine(t) by {
      assert s[0..|s|] == s && t == s[k..|s|];
      SingleLineSlice(s, 0, k, |s|, |s|);
    }
    RunCollapse(t, next);
    assert Run(s, st) == Run(s[1..], next) by {
      StepSpace(st, s[0]);
    }
    assert 1 <= k && t == s[k..];
    SliceSplit(s, 1, k);
    assert next != Escaped;
    RunSpaces(s[1..k], t, next);
  }

  /** The body scan depends only on the characters it reads: text in front shifts it */
  lemma {:induction false} QuoteEndShift(x: string, y: string, j: nat)
    requires j <= |y|
    ensures QuoteEnd(x + y, |x| + j) ==
      if QuoteEnd(y, j).Some? then Some(|x| + QuoteEnd(y, j).value) else None
    decreases |y| - j
  {
    if j < |y| {
      assert (x + y)[|x| + j] == y[j];
      if y[j] == '\\' && j + 1 < |y| {
        assert (x + y)[|x| + j + 1] == y[j + 1];
        QuoteEndShift(x, y, j + 2);
      } else if y[j] != '"' && y[j] != '\\' {
        QuoteEndShift(x, y, j + 1);
      }
    }
  }

  /** ... and text behind a closed quote does not change it */
  lemma {:induction false} QuoteEndExtend(x: string, y: string, i: nat)
    requires i <= |x| && QuoteEnd(x, i).Some?
    ensures QuoteEnd(x + y, i) == QuoteEnd(x, i)
    decreases |x| - i
  {
    assert (x + y)[i] == x[i];
    if x[i] == '\\' {
      assert (x + y)[i + 1] == x[i + 1];
      QuoteEndExtend(x, y, i + 2);
    } else if x[i] != '"' {
      QuoteEndExtend(x, y, i + 1);
    }
  }

  /** ... nor does cutting the text after the closing quote */
  lemma {:induction false} QuoteEndCut(s: string, i: nat, n: nat)
    requires i <= n <= |s| && QuoteEnd(s, i).Some? && QuoteEnd(s, i).value <= n
    ensures QuoteEnd(s[..n], i) == QuoteEnd(s, i)
  {
    assert s[..n] + s[n..] == s;
    QuoteEndExtendBack(s[..n], s[n..], i);
  }

  lemma {:induction false} QuoteEndExtendBack(x: string, y: string, i: nat)
    requires i <= |x| && QuoteEnd(x + y, i).Some? && QuoteEnd(x + y, i).value <= |x|
    ensures QuoteEnd(x, i) == QuoteEnd(x + y, i)
    decreases |x| - i
  {
    assert (x + y)[i] == x[i];
    if x[i] == '\\' {
      assert (x + y)[i + 1] == x[i + 1];
      QuoteEndExtendBack(x, y, i + 2);
    } else if x[i] != '"' {
      QuoteEndExtendBack(x, y, i + 1);
    }
  }

  /** A scan that starts on the same line as a complete quoted string, and before it, closes too */
  lemma {:induction false} QuoteReached(s: string, i: nat, o: nat)
    requires i <= o < |s| && s[o] == '"' && QuoteEnd(s, o + 1).Some?
    requires SingleLine(s[i..o])
    ensures QuoteEnd(s, i).Some?
    decreases o - i
  {
    if i < o && s[i] != '"' {
      assert s[i..o][0] == s[i];
      if s[i] == '\\' {
        if i + 1 < o {
          assert s[i..o][1] == s[i + 1];
          SingleLineSlice(s, i, i + 2, o, o);
          QuoteReached(s, i + 2, o);
        }
      } else {
        SingleLineSlice(s, i, i + 1, o, o);
        QuoteReached(s, i + 1, o);
      }
    }
  }

  /** The text in front of the first complete quoted string holds no quote at all */
  lemma {:induction false} NoQuoteBeforeFirst(line: string)
    requires FindQuotes(line).Some?
    ensures var m := FindQuotes(line).value; '"' !in line[m.start..m.open]
  {
    var m := FindQuotes(line).value;
    var g1 := line[m.start..m.open];
    forall k | 0 <= k < |g1|
      ensures g1[k] != '"'
    {
      var q := m.start + k;
      if line[q] == '"' {
        SingleLineSlice(line, m.start, q + 1, m.open, m.open);
        QuoteReached(line, q + 1, m.open);
        assert QuoteAt(line, q);
      }
    }
  }

  lemma {:induction false} SingleLineConcat(a: string, b: string)
    requires SingleLine(a) && SingleLine(b)
    ensures SingleLine(a + b)
  {
    forall k | 0 <= k < |a + b|
      ensures !IsLineTerminator((a + b)[k])
    {
      if k >= |a| {
        assert (a + b)[k] == b[k - |a|];
      }
    }
  }

  /** On a single line the match covers the whole line, and the quoted group is a complete quoted string by itself */
  lemma {:induction false} QuoteMatchOnSingleLine(line: string)
    requires SingleLine(line) && FindQuotes(line).Some?
    ensures var m := FindQuotes(line).value;
      && m.start == 0 && m.stop == |line|
      && line[m.open] == '"'
      && QuoteEnd(line[m.open..m.close], 1) == Some(m.close - m.open)
  {
    var m := FindQuotes(line).value;
    QuoteMatchSpansLine(line, m);
    QuoteMatchBody(line, m);
  }

  lemma {:induction false} QuoteMatchSpansLine(line: string, m: QuoteMatch)
    requires SingleLine(line) && FindQuotes(line) == Some(m)
    ensures m.start == 0 && m.stop == |line|
  {
    var q := FirstQuote(line, 0).value;
    assert m.start == StretchStart(line, q);
    var close := QuoteEnd(line, q + 1).value;
    assert m.stop == close + Span(line[close..], IsDot);
    assert line[0..|line|] == line && line[close..|line|] == line[close..];
    SingleLineSlice(line, 0, close, |line|, |line|);
  }

  lemma {:induction false} QuoteMatchBody(line: string, m: QuoteMatch)
    requires FindQuotes(line) == Some(m)
    ensures line[m.open] == '"' && QuoteEnd(line[m.open..m.close], 1) == Some(m.close - m.open)
  {
    var q := FirstQuote(line, 0).value;
    assert m.open == q && QuoteEnd(line, q + 1) == Some(m.close);
    QuoteBodyAt(line, q, m.close);
  }

  /** A quoted string found in a line is also complete when cut out of it */
  lemma {:induction false} QuoteBodyAt(line: string, q: nat, e: nat)
    requires q < e <= |line| && QuoteEnd(line, q + 1) == Some(e)
    ensures QuoteEnd(line[q..e], 1) == Some(e - q)
  {
    var x, w := line[..q], line[q..];
    SplitAt(line, q);
    QuoteEndShift(x, w, 1);
    assert QuoteEnd(x + w, |x| + 1) == Some(e);
    var d := e - q;
    assert QuoteEnd(w, 1) == Some(d);
    QuoteEndCut(w, 1, d);
    SliceOfSuffix(line, q, e);
  }

  /**
   * How the quote split reads a single line whose first double quote, at
   * `k`, opens a complete quoted string ending at `e`.
   */
  lemma {:induction false} FindQuotesSplit(r: string, k: nat, e: nat)
    requires k < e <= |r| && '"' !in r[..k] && SingleLine(r[..k]) && SingleLine(r[e..])
    requires r[k] == '"' && QuoteEnd(r[k..e], 1) == Some(e - k)
    ensures FindQuotes(r) == Some(QuoteMatch(0, k, e, |r|))
  {
    QuoteEndInside(r, k, e);
    FirstQuoteAt(r, k);
    StretchAt(r, k, e);
    FindQuotesAt(r, k, e);
  }

  lemma {:induction false} QuoteEndInside(r: string, k: nat, e: nat)
    requires k < e <= |r| && QuoteEnd(r[k..e], 1) == Some(e - k)
    ensures QuoteEnd(r, k + 1) == Some(e)
  {
    var x, y, z := r[..k], r[k..e], r[e..];
    assert y + z == r[k..];
    assert r == x + r[k..];
    QuoteEndExtend(y, z, 1);
    QuoteEndShift(x, y + z, 1);
  }

  lemma {:induction false} FirstQuoteAt(r: string, k: nat)
    requires k < |r| && '"' !in r[..k] && r[k] == '"' && QuoteEnd(r, k + 1).Some?
    ensures FirstQuote(r, 0) == Some(k)
  {
    assert forall j :: 0 <= j < k ==> r[j] == r[..k][j];
    FirstQuoteSkips(r, 0, k);
  }

  lemma {:induction false} StretchAt(r: string, k: nat, e: nat)
    requires k <= e <= |r| && SingleLine(r[..k]) && SingleLine(r[e..])
    ensures StretchStart(r, k) == 0
    ensures Span(r[e..], IsDot) == |r| - e
  {
    StretchStartOfSingleLine(r, k);
    SpanAll(r[e..], IsDot);
  }

  /** The squash of such a line: the text around the quoted string is squashed, the string kept */
  lemma {:induction false} SquashSplit(r: string, k: nat, e: nat, atStart: bool)
    requires k < e <= |r| && '"' !in r[..k] && SingleLine(r[..k]) && SingleLine(r[e..])
    requires r[k] == '"' && QuoteEnd(r[k..e], 1) == Some(e - k)
    ensures Squash(r, atStart) == Squash(r[..k], atStart) + r[k..e] + Squash(r[e..], false)
  {
    FindQuotesSplit(r, k, e);
    SquashOfKnownMatch(r, atStart, QuoteMatch(0, k, e, |r|));
    assert r[0..k] == r[..k] && r[e..|r|] == r[e..];
  }

  lemma {:induction false} FindQuotesAt(line: string, q: nat, close: nat)
    requires FirstQuote(line, 0) == Some(q) && QuoteEnd(line, q + 1) == Some(close)
    ensures FindQuotes(line) == Some(QuoteMatch(StretchStart(line, q), q, close, close + Span(line[close..], IsDot)))
  {
  }

  lemma {:induction false} FirstQuoteSkips(s: string, from: nat, k: nat)
    requires from <= k < |s| && QuoteAt(s, k)
    requires forall j :: from <= j < k ==> s[j] != '"'
    ensures FirstQuote(s, from) == Some(k)
    decreases k - from
  {
    if from < k {
      FirstQuoteSkips(s, from + 1, k);
    }
  }

  lemma {:induction false} StretchStartOfSingleLine(s: string, q: nat)
    requires q <= |s| && SingleLine(s[..q])
    ensures StretchStart(s, q) == 0
    decreases q
  {
    if q > 0 {
      assert s[..q][q - 1] == s[q - 1];
      assert s[..q - 1] == s[..q][..q - 1];
      SingleLineSlice(s[..q], 0, 0, q - 1, q);
      StretchStartOfSingleLine(s, q - 1);
    }
  }

  lemma {:induction false} SpanAll(s: string, p: char -> bool)
    requires forall i :: 0 <= i < |s| ==> p(s[i])
    ensures Span(s, p) == |s|
    decreases |s|
  {
    if s != [] {
      SpanAll(s[1..], p);
    }
  }

  /** Squashing a single line leaves it a single line */
  lemma {:induction false} SquashSingleLine(line: string, atStart: bool)
    requires SingleLine(line)
    ensures SingleLine(Squash(line, atStart))
    decreases |line|
  {
    match FindQuotes(line)
    case Some(m) =>
      QuoteMatchOnSingleLine(line);
      assert line[0..|line|] == line;
      SingleLineSlice(line, 0, 0, m.open, |line|);
      SingleLineSlice(line, 0, m.open, m.close, |line|);
      SingleLineSlice(line, 0, m.close, |line|, |line|);
      SquashSingleLine(line[0..m.open], atStart);
      SquashSingleLine(line[m.close..|line|], false);
      SingleLineConcat(Squash(line[0..m.open], atStart), line[m.open..m.close]);
      SingleLineConcat(Squash(line[0..m.open], atStart) + line[m.open..m.close], Squash(line[m.close..|line|], false));
    case None =>
      SquashPlainCollapses(line, atStart);
      CollapseSingleLine(line);
      CollapseSingleLine(TrimStart(line));
      SingleLineConcat("  ", Collapse(TrimStart(line)));
  }

  /** Text without a double quote is squashed plainly and stays without one */
  lemma {:induction false} SquashWithoutQuotes(x: string, atStart: bool)
    requires '"' !in x
    ensures FindQuotes(x).None?
    ensures Squash(x, atStart) == SquashPlain(x, atStart)
    ensures '"' !in Squash(x, atStart)
  {
    assert forall q :: 0 <= q < |x| ==> !QuoteAt(x, q);
    SquashPlainCollapses(x, atStart);
    var t := if atStart && (x == [] || IsSpace(x[0])) then TrimStart(x) else x;
    assert '"' !in t;
    assert !IsSpace('"');
    InkMember(t, '"');
    InkMember(Collapse(t), '"');
    CollapseKeepsInk(t);
  }

  /** A plainly squashed line that had no complete quoted string still has none */
  lemma {:induction false} SquashPlainNoQuote(line: string, atStart: bool)
    requires SingleLine(line) && FindQuotes(line).None?
    ensures FindQuotes(SquashPlain(line, atStart)).None?
  {
    FirstQuoteCloses(line, 0);
    assert line[0..] == line;
    SquashPlainCollapses(line, atStart);
    var p := SquashPlain(line, atStart);
    if atStart && (line == [] || IsSpace(line[0])) {
      var t := TrimStart(line);
      var k := |line| - |t|;
      assert line == line[..k] + t;
      RunSpaces(line[..k], t, Outside);
      RunCollapse(t, Outside);
      RunSpaces("  ", Collapse(t), Outside);
      CollapseSingleLine(t);
      SingleLineConcat("  ", Collapse(t));
    } else {
      RunCollapse(line, Outside);
      CollapseSingleLine(line);
    }
    FirstQuoteCloses(p, 0);
    assert p[0..] == p;
  }

  /** Plain squashing twice is plain squashing once */
  lemma {:induction false} SquashPlainIdempotent(line: string, atStart: bool)
    ensures SquashPlain(SquashPlain(line, atStart), atStart) == SquashPlain(line, atStart)
  {
    var p := SquashPlain(line, atStart);
    SquashPlainCollapses(line, atStart);
    SquashPlainCollapses(p, atStart);
    if atStart && (line == [] || IsSpace(line[0])) {
      var x := Collapse(TrimStart(line));
      CollapseIdempotent(TrimStart(line));
      TrimSpaces("  ", x);
    } else {
      CollapseIdempotent(line);
    }
  }

  /**
   * Squashing a single line twice is squashing it once. Lines with a line
   * terminator other than the line feed are excluded: see
   * `SquashTwiceOverLineTerminator`.
   */
  lemma {:induction false} SquashIdempotent(line: string, atStart: bool)
    requires SingleLine(line)
    ensures Squash(Squash(line, atStart), atStart) == Squash(line, atStart)
    decreases |line|
  {
    if FindQuotes(line).None? {
      SquashPlainTwice(line, atStart);
    } else {
      var k, e := QuotedPieces(line);
      SquashIdempotent(line[..k], atStart);
      SquashIdempotent(line[e..], false);
      SquashQuotedIdempotent(line, k, e, atStart);
    }
  }

  /** Where the first quoted string of a single line opens and closes */
  lemma {:induction false} QuotedPieces(line: string) returns (k: nat, e: nat)
    requires SingleLine(line) && FindQuotes(line).Some?
    ensures k < e <= |line| && line[k] == '"' && QuoteEnd(line[k..e], 1) == Some(e - k)
    ensures '"' !in line[..k] && SingleLine(line[..k]) && SingleLine(line[e..])
  {
    var m := FindQuotes(line).value;
    QuoteGroupsOnSingleLine(line, m);
    k, e := m.open, m.close;
  }

  lemma {:induction false} SquashPlainTwice(line: string, atStart: bool)
    requires SingleLine(line) && FindQuotes(line).None?
    ensures Squash(Squash(line, atStart), atStart) == Squash(line, atStart)
  {
    var p := SquashPlain(line, atStart);
    assert Squash(line, atStart) == p;
    SquashPlainNoQuote(line, atStart);
    SquashPlainIdempotent(line, atStart);
    assert Squash(p, atStart) == SquashPlain(p, atStart);
  }

  /** On a single line, the first quoted string splits the line into two single-line groups around it */
  lemma {:induction false} QuoteGroupsOnSingleLine(line: string, m: QuoteMatch)
    requires SingleLine(line) && FindQuotes(line) == Some(m)
    ensures m.open < m.close <= |line| && line[m.open] == '"'
    ensures QuoteEnd(line[m.open..m.close], 1) == Some(m.close - m.open)
    ensures '"' !in line[..m.open]
    ensures SingleLine(line[..m.open]) && SingleLine(line[m.close..])
  {
    QuoteMatchOnSingleLine(line);
    NoQuoteBeforeFirst(line);
    assert line[0..|line|] == line && line[0..m.open] == line[..m.open] && line[m.close..|line|] == line[m.close..];
    SingleLineSlice(line, 0, 0, m.open, |line|);
    SingleLineSlice(line, 0, m.close, |line|, |line|);
  }

  /** The step of `SquashIdempotent` for a line whose first double quote, at `k`, opens a complete quoted string */
  lemma {:induction false} SquashQuotedIdempotent(line: string, k: nat, e: nat, atStart: bool)
    requires k < e <= |line| && SingleLine(line) && '"' !in line[..k]
    requires line[k] == '"' && QuoteEnd(line[k..e], 1) == Some(e - k)
    requires Squash(Squash(line[..k], atStart), atStart) == Squash(line[..k], atStart)
    requires Squash(Squash(line[e..], false), false) == Squash(line[e..], false)
    ensures Squash(Squash(line, atStart), atStart) == Squash(line, atStart)
  {
    var g1, g2, g3 := line[..k], line[k..e], line[e..];
    assert SingleLine(g1) && SingleLine(g3) by {
      assert line[0..|line|] == line && line[0..k] == g1 && line[e..|line|] == g3;
      SingleLineSlice(line, 0, 0, k, |line|);
      SingleLineSlice(line, 0, e, |line|, |line|);
    }
    SquashSplit(line, k, e, atStart);
    var a, c := Squash(g1, atStart), Squash(g3, false);
    SquashWithoutQuotes(g1, atStart);
    SquashSingleLine(g1, atStart);
    SquashSingleLine(g3, false);
    SquashAroundQuote(a, g2, c, atStart);
  }

  lemma {:induction false} ConcatSlices(a: string, b: string, c: string)
    ensures var r := a + b + c;
      r[0..|a|] == a && r[|a|..|a| + |b|] == b && r[|a| + |b|..|a| + |b| + |c|] == c
  {
  }

  lemma {:induction false} SquashOfKnownMatch(line: string, atStart: bool, m: QuoteMatch)
    requires FindQuotes(line) == Some(m)
    ensures Squash(line, atStart) ==
      Squash(line[m.start..m.open], atStart) + line[m.open..m.close] + Squash(line[m.close..m.stop], false)
  {
  }

  /** A line with a complete quoted string squashes the groups around it */
  lemma {:induction false} SquashOfMatch(line: string, atStart: bool)
    requires FindQuotes(line).Some?
    ensures var m := FindQuotes(line).value;
      Squash(line, atStart) ==
        Squash(line[m.start..m.open], atStart) + line[m.open..m.close] + Squash(line[m.close..m.stop], false)
  {
  }

  /**
   * A single line whose first double quote opens a complete quoted string:
   * the text before it and after it are squashed, the string is kept as is.
   */
  lemma {:induction false} SquashAroundQuote(a: string, g: string, c: string, atStart: bool)
    requires '"' !in a && SingleLine(a) && SingleLine(c)
    requires |g| > 0 && g[0] == '"' && QuoteEnd(g, 1) == Some(|g|)
    ensures Squash(a + g + c, atStart) == Squash(a, atStart) + g + Squash(c, false)
  {
    var r := a + g + c;
    var k, e := |a|, |a| + |g|;
    assert r[..k] == a && r[k..e] == g && r[e..] == c && r[k] == '"';
    SquashSplit(r, k, e, atStart);
  }

  /** The empty text squashes to nothing, or to the two-space indent at the start of a line */
  lemma {:induction false} SquashEmpty(atStart: bool)
    ensures Squash("", atStart) == if atStart then "  " else ""
  {
    FindQuotesMatches("");
  }

  /**
   * A single line that starts with white space starts, once squashed, with
   * the two-space indent at the start of a line and with one space
   * elsewhere, followed by something that is not white space.
   */
  lemma {:induction false} SquashLeadingSpace(line: string, atStart: bool)
    requires SingleLine(line) && line != [] && IsSpace(line[0])
    ensures LeadingSpaceSquashed(Squash(line, atStart), atStart)
    decreases |line|
  {
    match FindQuotes(line)
    case Some(m) =>
      QuoteMatchOnSingleLine(line);
      NoQuoteBeforeFirst(line);
      assert m.open > 0 by {
        assert line[m.open] == '"' && !IsSpace('"');
      }
      assert line[0..m.open] == line[..m.open] && line[0..|line|] == line;
      SingleLineSlice(line, 0, 0, m.open, |line|);
      SquashLeadingSpace(line[..m.open], atStart);
      SquashLeadingSpaceQuoted(line, m.open, m.close, atStart);
    case None =>
      SquashPlainCollapses(line, atStart);
      var t := TrimStart(line);
      if atStart {
        assert ("  " + Collapse(t))[..2] == "  ";
      } else {
        assert Collapse(line) == " " + Collapse(t);
      }
  }

  /** How a squashed line with leading white space begins */
  predicate LeadingSpaceSquashed(r: string, atStart: bool) {
    && (atStart ==> StartsWith(r, "  ") && (|r| > 2 ==> !IsSpace(r[2])))
    && (!atStart ==> |r| > 0 && r[0] == ' ' && (|r| > 1 ==> !IsSpace(r[1])))
  }

  lemma {:induction false} SquashLeadingSpaceQuoted(line: string, k: nat, e: nat, atStart: bool)
    requires 0 < k < e <= |line| && SingleLine(line) && '"' !in line[..k]
    requires line[k] == '"' && QuoteEnd(line[k..e], 1) == Some(e - k)
    requires LeadingSpaceSquashed(Squash(line[..k], atStart), atStart)
    ensures LeadingSpaceSquashed(Squash(line, atStart), atStart)
  {
    assert SingleLine(line[..k]) && SingleLine(line[e..]) by {
      assert line[0..|line|] == line && line[0..k] == line[..k] && line[e..|line|] == line[e..];
      SingleLineSlice(line, 0, 0, k, |line|);
      SingleLineSlice(line, 0, e, |line|, |line|);
    }
    SquashSplit(line, k, e, atStart);
    assert line[k..e][0] == line[k];
    LeadingSpaceConcat(Squash(line[..k], atStart), line[k..e], Squash(line[e..], false), atStart);
  }

  lemma {:induction false} LeadingSpaceConcat(a: string, g: string, c: string, atStart: bool)
    requires LeadingSpaceSquashed(a, atStart) && |g| > 0 && g[0] == '"'
    ensures LeadingSpaceSquashed(a + g + c, atStart)
  {
    assert !IsSpace('"');
    var r := a + g + c;
    assert r[..|a|] == a;
    assert forall i :: 0 <= i < |a| ==> r[i] == a[i];
    assert r[|a|] == g[0];
  }

  /** A single line that starts with anything but white space or a double quote keeps its first character */
  lemma {:induction false} SquashKeepsFirst(line: string, atStart: bool)
    requires SingleLine(line) && line != [] && !IsSpace(line[0]) && line[0] != '"'
    ensures var r := Squash(line, atStart); |r| > 0 && r[0] == line[0]
    decreases |line|
  {
    match FindQuotes(line)
    case Some(m) =>
      QuoteMatchOnSingleLine(line);
      var g1 := line[..m.open];
      assert line[0..m.open] == g1 && line[0..|line|] == line;
      SingleLineSlice(line, 0, 0, m.open, |line|);
      SquashKeepsFirst(g1, atStart);
      var a := Squash(g1, atStart);
      assert Squash(line, atStart) == a + line[m.open..m.close] + Squash(line[m.close..m.stop], false);
    case None =>
      SquashPlainCollapses(line, atStart);
  }

  /**
   * A line that opens with a quoted string gains the two-space indent at
   * the start of a line, since the empty text before the quote is squashed
   * with `atStart` set.
   */
  lemma {:induction false} SquashQuoteAtStart(y: string)
    requires y == "\"x\""
    ensures Squash(y, true) == "  " + y
  {
    assert y[..0] == "" && y[0..3] == y && y[3..] == "";
    assert QuoteEnd(y[0..3], 1) == Some(3);
    SquashSplit(y, 0, 3, true);
    SquashEmpty(true);
    SquashEmpty(false);
  }

  /**
   * Idempotence needs a single line: a quote, a backslash, a line
   * terminator and a quote hold no complete quoted string, since a
   * backslash cannot escape a line terminator; squashing turns the
   * terminator into a space and so makes a complete quoted string, which a
   * second squash then indents.
   */
  lemma {:induction false} SquashTwiceOverLineTerminator(t: char)
    requires IsLineTerminator(t)
    ensures var x := ['"', '\\', t, '"'];
      && Squash(x, true) == ['"', '\\', ' ', '"']
      && Squash(Squash(x, true), true) == "  " + Squash(x, true)
  {
    SquashOverLineTerminator(t);
    SquashEscapedSpace();
  }

  lemma {:induction false} SquashOverLineTerminator(t: char)
    requires IsLineTerminator(t)
    ensures Squash(['"', '\\', t, '"'], true) == ['"', '\\', ' ', '"']
  {
    var x := ['"', '\\', t, '"'];
    assert QuoteEnd(x, 1).None?;
    assert QuoteEnd(x, 4).None?;
    assert forall q :: 0 <= q < |x| ==> !QuoteAt(x, q);
    FindQuotesMatches(x);
    SquashPlainCollapses(x, true);
    TerminatorCollapse(t);
  }

  lemma {:induction false} SquashEscapedSpace()
    ensures var y := ['"', '\\', ' ', '"']; Squash(y, true) == "  " + y
  {
    var y := ['"', '\\', ' ', '"'];
    assert y[..0] == "" && y[0..4] == y && y[4..] == "";
    assert QuoteEnd(y[0..4], 1) == Some(4) by {
      assert QuoteEnd(y, 3) == Some(4);
    }
    SingleLineSlice(y, 0, 4, 4, 4);
    SquashSplit(y, 0, 4, true);
    SquashEmpty(true);
    SquashEmpty(false);
  }

  lemma {:induction false} TerminatorCollapse(t: char)
    requires IsLineTerminator(t)
    ensures Collapse(['"', '\\', t, '"']) == ['"', '\\', ' ', '"']
  {
    var q: string := ['"'];
    assert IsSpace(t) && !IsSpace('"') && !IsSpace('\\');
    assert Collapse(q) == q by {
      CollapseNonSpacePrefix(q, []);
      assert q + [] == q;
    }
    assert TrimStart([t] + q) == q by {
      TrimSpaces([t], q);
    }
    assert Collapse([t] + q) == " " + q;
    CollapseNonSpacePrefix(['"', '\\'], [t] + q);
    assert ['"', '\\'] + ([t] + q) == ['"', '\\', t, '"'];
  }
}

=== FILE: wrappers.dfy ===
/** Optional values: JavaScript's `undefined`, a failed `match` and `parseInt`'s NaN. */
module Wrappers {

  datatype Option<+T> = None | Some(value: T) {

    /** Returns the value held in Some or a default value if None */
    function GetOr(default: T): T {
      match this
      case Some(v) => v
      case None => default
    }
  }
}
